=== FILE: README.md ===
# megaraid_sas MFI command engine, modelled in Dafny

This project models the MFI command engine of the Linux `megaraid_sas` driver for LSI/Broadcom/Dell MegaRAID SAS controllers, and proves properties of that model. The model covers:

- **Command slots.** The pool of command slots (`megasas_get_cmd`, `megasas_return_cmd`, `megasas_alloc_cmds`).
- **Firing frames.** The four register templates' `fire_cmd` encodings and `clear_intr` decoders.
- **Issue paths.** The synchronous issue paths: DCMD, polled, blocked, and blocked abort.
- **Admission.** `megasas_queue_command` and `build_and_issue_cmd`.
- **Completion.** `megasas_complete_cmd` and the reply-ring drain `megasas_complete_cmd_dpc`.
- **Online controller reset (OCR).** The fault interrupt, `megasas_internal_reset_defer_cmds`, the recovery worker `process_fw_state_change_wq`, and `megasas_issue_pending_cmds_again` with its three-retry cap.
- **Host reset.** The SCSI host-reset handler `megasas_wait_for_outstanding`, and `megaraid_sas_kill_hba`.
- **Firmware handshakes.** The handshake `megasas_transition_to_ready` and the gen2 adapter reset.
- **Event subscription.** The subscription rule of `megasas_register_aen`.
- **CPX XOR offload.** The dispatch (`megasas_do_cpx_xor`) and the parity routines it calls.
- **Small arithmetic.** Frame counting, CDB decoding, BIOS geometry, boot-target mapping and the limits read at initialisation.
- **RAID-context accessors.** The G35 RAID-context accessors of the fusion header.

How the model represents the driver:

- **Adapter state.** The adapter is one immutable value: the slot pool, pending queue, reply ring, recovery state, internal DCMD references and firmware limits.
- **Effects.** The externally visible effects of the modelled code are appended, in order, to an event log of the adapter. These are doorbell writes, register writes (interrupt acknowledges and handshake writes among them), interrupt masking, and work or tasklet scheduling. A call into code outside the model that has effects of its own, such as `adp_reset` or the CPX request handler, is one event. Completed SCSI requests are appended to a done list with their result word.
- **Firmware reads.** Values the firmware supplies over time are a finite trace of reads. Examples are the status register during the ready handshake, also the one inside the recovery worker, and the host-diag register during the adapter reset. Running off the end of a trace is an explicit outcome, never a guess.
- **Kernel halts.** A C path that would dereference NULL, overrun an array, hit `BUG()` or loop without end is an explicit `Halted` outcome.
- **Decisions made elsewhere.** Results computed by code outside the model become inputs: a fusion DCMD refused, a polled wait's result, `issue_init_mfi`'s result, the multipath answer, the fusion builder's refusal, and a frame count from the SGL builders.

All source paths are relative to the driver trees. `dell-07.700.52.00/megaraid_sas_base.c` is the engine. `broadcom-07.705.02.00/megaraid_sas.h` holds its constants, enums and macros. `broadcom-07.706.03.00/megaraid_sas_fusion.h` holds the RAID-context accessors.

Two places where the driver's code departs from what its comments or declarations suggest:

- `megasas_queue_command` tests `issuepend_done` before it tests for a dead adapter. A request reaching a dead adapter whose recovery failed is therefore turned away as HOST_BUSY, not failed (see Findings).
- The header declares `issue_dcmd` as returning `void`. `megasas_issue_polled` and the blocked paths nevertheless test its result. The MFI variant always reports success, and the fusion variant's answer is the input `refused`.

## Model

| member | source | states |
|---|---|---|
| MfiDefs.DecodeState | broadcom-07.705.02.00/megaraid_sas.h:119-130 | a status register decodes to a firmware state exactly when its top nibble is one of the eleven MFI_STATE codes, and then to the state carrying that code |
| MfiDefs.StateCodesAreMaskedAndDistinct | broadcom-07.705.02.00/megaraid_sas.h:119-130 | every MFI_STATE code lies inside MFI_STATE_MASK and no two states share a code |
| MfiDefs.DecodeStateInjective | broadcom-07.705.02.00/megaraid_sas.h:119-130 | decoding inverts encoding, and a register decodes to a state if and only if its masked value is that state's code |
| MfiDefs.ResetFlagsLayout | broadcom-07.705.02.00/megaraid_sas.h:151-163 | MFI_RESET_FLAGS is 7 and shares no bit with CLEAR_HANDSHAKE, HOTPLUG or STOP_ADP |
| MfiDefs.IndexMacroBounds | broadcom-07.705.02.00/megaraid_sas.h:2773-2782 | MEGASAS_IS_LOGICAL is 0 exactly on channels 0 and 1; for the four channels and 128 ids, DEV_INDEX stays below 256 and PD_INDEX below 512 |
| MfiDefs.DevIndexInjective | broadcom-07.705.02.00/megaraid_sas.h:2773-2782 | two devices of the same class with the same DEV_INDEX have the same channel and id |
| MfiDefs.XorOpPredicates | broadcom-07.705.02.00/megaraid_sas.h:2185-2197 | IS_GEN is the negation of IS_CHECK, among the defined opcodes the checks are exactly 0x11..0x13, and a PQ opcode is both a P and a Q opcode |
| MfiDefs.UnpackCpxResponse | broadcom-07.705.02.00/megaraid_sas.h:2281-2288 | the three fields read out of a response word fit their 24-, 4- and 4-bit widths |
| MfiDefs.CpxResponseRoundTrip | broadcom-07.705.02.00/megaraid_sas.h:2281-2288 | packing and unpacking the CPX response word are mutually inverse, both ways round |
| Cmds.BlankCmd | dell-07.700.52.00/megaraid_sas_base.c:5230-5238 | a freshly allocated slot carries its own index and frame address and has no request, no sync flag, no frames and no flags |
| CmdPool.AllocCmds | dell-07.700.52.00/megaraid_sas_base.c:5189-5249 | the pool comes out well-formed, slot i is blank with index i and the i-th frame, and the free list is 0..n-1 in order |
| CmdPool.GetCmd | dell-07.700.52.00/megaraid_sas_base.c:259-277 | NULL exactly when the free list is empty, leaving the pool alone; otherwise the slot handed out was free, is free no longer, and is the only slot the free list loses |
| CmdPool.InsertAfterHead | dell-07.700.52.00/megaraid_sas_base.c:316 | list_add after the head adds exactly the one slot, keeps the head in front, and keeps the list free of repeats |
| CmdPool.ReturnCmd | dell-07.700.52.00/megaraid_sas_base.c:285-320 | a polled-mode DCMD slot is left alone; any other slot becomes free with its request, frame count and flags cleared, its frame marked INVALID only on a non-fusion reset_devices boot, and every other slot untouched |
| CmdPool.GetN | dell-07.700.52.00/megaraid_sas_base.c:259-277 | successive gets never hand out more slots than were free or any slot twice, and the slots taken plus those left are exactly those that were free |
| CmdPool.GetThenReturn | dell-07.700.52.00/megaraid_sas_base.c:259-320 | returning the slot just taken restores the free multiset |
| CmdPool.ReturnThenGet | dell-07.700.52.00/megaraid_sas_base.c:259-320 | a returned slot goes second in the list, so the next get hands out the old head, or the returned slot if the list was empty |
| Doorbell.FireXscale | dell-07.700.52.00/megaraid_sas_base.c:465-475 | the xscale queue-port word is one 32-bit register value |
| Doorbell.FirePpc | dell-07.700.52.00/megaraid_sas_base.c:635-645 | the ppc/gen2 queue-port word is one 32-bit value with bit 0 set |
| Doorbell.FireSkinny | dell-07.700.52.00/megaraid_sas_base.c:767-781 | the skinny template writes the high port and then the low port, each a 32-bit value, and the low word has bit 0 set |
| Doorbell.FireXscaleRoundTrip | dell-07.700.52.00/megaraid_sas_base.c:465-475 | an aligned frame below 2^35 and an extra-frame count of at most 7 are recovered intact from the xscale word |
| Doorbell.FirePpcRoundTrip | dell-07.700.52.00/megaraid_sas_base.c:635-645 | an aligned 32-bit frame address and a count below 128 are recovered intact from the ppc/gen2 word |
| Doorbell.FireSkinnyRoundTrip | dell-07.700.52.00/megaraid_sas_base.c:767-781 | any aligned 64-bit frame address and a count below 128 are recovered intact from the two skinny writes |
| Doorbell.FireCmd | dell-07.700.52.00/megaraid_sas_base.c:6570-6595 | the template chosen at probe writes one queue-port word, or two on skinny, each a 32-bit register value |
| Doorbell.FireCmdRoundTrip | dell-07.700.52.00/megaraid_sas_base.c:465-916 | on each of the four MFI templates, every frame the engine fires (aligned, at most seven extra frames, within the template's address reach) is decoded by the firmware as the address and count that were sent |
| Doorbell.XscaleFires | dell-07.700.52.00/megaraid_sas_base.c:465-475 | the xscale case of the fire round trip through the template dispatch |
| Doorbell.SkinnyFires | dell-07.700.52.00/megaraid_sas_base.c:767-781 | the skinny case of the fire round trip through the template dispatch |
| Doorbell.TaggedFires | dell-07.700.52.00/megaraid_sas_base.c:906-916 | the ppc and gen2 cases of the fire round trip through the template dispatch |
| Doorbell.ClearIntrXscale | dell-07.700.52.00/megaraid_sas_base.c:432-456 | the reply flag is set if and only if OB_INTR_STATUS_MASK is, the state-change flag if and only if the OMR0 change bit is, and the status is written back exactly when the interrupt is claimed |
| Doorbell.ClearIntrPpc | dell-07.700.52.00/megaraid_sas_base.c:602-626 | the reply flag follows the 1078 reply bit and the state-change flag follows the doorbell-change bit, and the status is always written back to the doorbell-clear register |
| Doorbell.ClearIntrSkinny | dell-07.700.52.00/megaraid_sas_base.c:724-758 | a status without the enable bit is neither claimed nor acknowledged; otherwise a faulted firmware makes it a state change, anything else a reply, never both, and the status is written back |
| Doorbell.ClearIntrGen2 | dell-07.700.52.00/megaraid_sas_base.c:869-898 | the reply flag follows the gen2 reply bit and the state-change flag follows the doorbell-change bit, acknowledged exactly when claimed |
| Doorbell.ClaimedInterruptsAreAcknowledged | dell-07.700.52.00/megaraid_sas_base.c:432-898 | across the four templates, an interrupt the driver claims is acknowledged by writing back exactly the status read, and a status with none of the template's bits is never claimed |
| Doorbell.ClearIntr | dell-07.700.52.00/megaraid_sas_base.c:4747-4751 | the template's decoder yields only the two interrupt flags, and a claimed interrupt is acknowledged with the status it read |
| Instance.TemplateOf | dell-07.700.52.00/megaraid_sas_base.c:6570-6595 | the fusion template is chosen exactly when a fusion context exists, and the xscale default is never chosen for a skinny device |
| Dispatch.IssueDcmd | dell-07.700.52.00/megaraid_sas_base.c:245-251 | the MFI issue_dcmd fires the frame with no extra frames and reports success; a failure is only ever a fusion refusal, and then nothing is written |
| Dispatch.PolledFrame | dell-07.700.52.00/megaraid_sas_base.c:1029-1045 | a polled frame has status INVALID and DONT_POST_IN_REPLY_QUEUE set, and no other flag or field changes |
| Dispatch.IssuePolled | dell-07.700.52.00/megaraid_sas_base.c:1029-1045 | the frame is prepared in every case; a dead adapter or a refused frame gives NOT_FIRED with no doorbell write, and otherwise one fire is made and the poll's answer returned |
| Dispatch.IssueBlockedStart | dell-07.700.52.00/megaraid_sas_base.c:1058-1085 | cmd_status_drv becomes INVALID; the early NOT_FIRED return happens exactly on a dead adapter or refused frame and writes nothing; otherwise exactly one fire is made and nothing else changes |
| Dispatch.BlockedResult | dell-07.700.52.00/megaraid_sas_base.c:1058-1085 | a still-INVALID status means sleeping on without a timeout and DCMD_TIMEOUT with one; a changed status is success exactly when it is MFI_STAT_OK; NOT_FIRED never comes from the wait |
| Dispatch.FirmwareAnswers | dell-07.700.52.00/megaraid_sas_base.c:4328-4520 | the firmware's answer writes only the frame status of the one slot |
| Dispatch.CompletePlainDcmd | dell-07.700.52.00/megaraid_sas_base.c:4501-4506 | completing a plain internal DCMD clears its retry count and hands the frame status to the waiter, leaving the free list unchanged |
| Dispatch.BlockedDcmdOutcome | dell-07.700.52.00/megaraid_sas_base.c:1058-1085 | a blocked DCMD that is posted and answered ends in success for MFI_STAT_OK, failure for any other real status, and a timeout only while the status is still INVALID |
| Dispatch.AbortFrame | dell-07.700.52.00/megaraid_sas_base.c:1099-1153 | the abort frame names the target's context and frame address, with status INVALID and no flags |
| Dispatch.AbortStart | dell-07.700.52.00/megaraid_sas_base.c:1099-1153 | with no free slot nothing changes; otherwise the head slot is taken, built as a synchronous abort of the target, and fired once, unless the adapter is dead or the frame refused, in which case the slot stays taken and nothing is written |
| Dispatch.AbortFinish | dell-07.700.52.00/megaraid_sas_base.c:1099-1153 | an unchanged status is a timeout or further sleep with the slot held; otherwise sync_cmd is cleared, the slot is freed, and the result is success exactly on MFI_STAT_OK |
| Dispatch.CompleteSyncAbort | dell-07.700.52.00/megaraid_sas_base.c:4509-4513 | an abort frame with a sleeper is completed with status 0, whatever the firmware wrote, and sync_cmd cleared |
| Dispatch.AbortRoundTrip | dell-07.700.52.00/megaraid_sas_base.c:1099-1153 | an abort that is posted and answered always succeeds and gives its slot back, restoring the free multiset |
| Completion.ScsiResult | dell-07.700.52.00/megaraid_sas_base.c:4389-4434 | the host byte is DID_OK exactly for OK and DONE_WITH_ERROR, DID_BAD_TARGET exactly for LD_OFFLINE and DEVICE_NOT_FOUND, and DID_ERROR otherwise; the SCSI status passes through for the three SCSI-level failures; DRIVER_SENSE is set exactly for a CHECK CONDITION reported with DONE_WITH_ERROR |
| Completion.ResultWord | dell-07.700.52.00/megaraid_sas_base.c:4389-4434 | the result word reads back the host, status and driver bytes it was built from, with a zero message byte |
| Completion.AltResult | dell-07.700.52.00/megaraid_sas_base.c:4373-4387 | an alternate status lands in the host byte alone |
| Completion.Release | dell-07.700.52.00/megaraid_sas_base.c:285-320 | returning a slot from a completion changes only the pool, exactly as megasas_return_cmd does |
| Completion.CompleteScsi | dell-07.700.52.00/megaraid_sas_base.c:4364-4434 | a SCSI completion hands the request back with the alternate or translated result, counts it off fw_outstanding and returns the slot; a slot with no request halts, as does one already free or pending |
| Completion.CompleteLdMap | dell-07.700.52.00/megaraid_sas_base.c:4439-4471 | the LD map update needs a fusion context, clears map_update_cmd, bumps map_id exactly on status 0, and writes to the log exactly unless the status is NOT_FOUND |
| Completion.CompletePdSeq | dell-07.700.52.00/megaraid_sas_base.c:4473-4496 | the PD sequence update halts exactly on a slot it does not hold; it clears jbod_seq_cmd, and only on success bumps pd_seq_map_id and asks for the next sync |
| Completion.CompleteDcmd | dell-07.700.52.00/megaraid_sas_base.c:4436-4507 | the DCMD class never touches fw_outstanding or the done list; a plain internal command only records the frame status for its waiter |
| Completion.CompleteCmd | dell-07.700.52.00/megaraid_sas_base.c:4328-4520 | only the SCSI paths hand a request back (the slot's own) and decrement fw_outstanding; every other path leaves both alone; earlier completions are never rewritten, and the slot's retry counter is cleared |
| Completion.CompleteCmdTouchesOnlySlot | dell-07.700.52.00/megaraid_sas_base.c:4328-4520 | megasas_complete_cmd changes no command slot other than its own |
| Completion.ClearRetry | dell-07.700.52.00/megaraid_sas_base.c:4340 | retry_for_fw_reset of the slot becomes 0 and nothing else changes |
| Completion.WakeWaiter | dell-07.700.52.00/megaraid_sas_base.c:4288-4293 | the waiter's slot gets the status and its sync flag cleared, nothing else changes |
| Completion.RingAt | dell-07.700.52.00/megaraid_sas_base.c:3199-3246 | a ring position always falls inside the ring |
| Completion.Next | dell-07.700.52.00/megaraid_sas_base.c:3199-3246 | the index after the consumer stays in the ring and is one step round it |
| Completion.Dist | dell-07.700.52.00/megaraid_sas_base.c:3199-3246 | the number of entries between consumer and producer is the step count that carries one to the other, zero exactly when they are equal |
| Completion.Window | dell-07.700.52.00/megaraid_sas_base.c:3199-3246 | the window between consumer and producer has exactly that many entries |
| Completion.WindowAt | dell-07.700.52.00/megaraid_sas_base.c:3199-3246 | entry j of the window is the ring slot j steps after the consumer |
| Completion.CompleteAll | dell-07.700.52.00/megaraid_sas_base.c:3225-3240 | completing a run of contexts keeps earlier completions and keeps fw_outstanding plus completed requests constant |
| Completion.Drain | dell-07.700.52.00/megaraid_sas_base.c:3225-3240 | the drain loop keeps the adapter invariant and touches none of the state completion leaves alone |
| Completion.CompleteCmdDpc | dell-07.700.52.00/megaraid_sas_base.c:3199-3246 | a dead adapter is left alone; equal indices read nothing and only make the tail calls (the CPX handler when supported, then the queue-depth check); otherwise a consumer outside the ring halts as an out-of-range read and a producer outside it as a loop that never ends; a finished drain leaves the consumer equal to the producer, the ring contents and recovery state as they were, and the log ending with the tail calls |
| Completion.DpcIsWindowFold | dell-07.700.52.00/megaraid_sas_base.c:3199-3246 | with both indices in the ring, the dpc finishes exactly when completing the window between consumer and producer does, and then equals that completion with the consumer moved to the producer and the tail calls logged |
| Completion.DrainIsWindowFold | dell-07.700.52.00/megaraid_sas_base.c:3199-3246 | the drain completes exactly the contexts of the window between consumer and producer, in ring order |
| Completion.WindowTail | dell-07.700.52.00/megaraid_sas_base.c:3199-3246 | stepping the consumer drops exactly the first entry of the window |
| Completion.CompleteAllInRange | dell-07.700.52.00/megaraid_sas_base.c:3225-3240 | a drain that finishes met only contexts naming real slots |
| Kill.StopEvents | dell-07.700.52.00/megaraid_sas_base.c:2148-2174 | skinny and fusion controllers get STOP_ADP on the doorbell unless a virtual function, which with a peer clears its LD ids; all others get it on the inbound doorbell |
| Kill.Range | dell-07.700.52.00/megaraid_sas_base.c:2118-2145 | the slot indices 0..n-1 in order |
| Kill.CompleteIoctls | dell-07.700.52.00/megaraid_sas_base.c:2118-2145 | completing waiters keeps fw_outstanding plus completed requests constant, and with no waiter among the slots nothing changes |
| Kill.WaitersOf | dell-07.700.52.00/megaraid_sas_base.c:2118-2145 | the scanned indices the loop acts on: every synchronous non-abort command among them and every index past the pool, and nothing else |
| Kill.WaitersOfFrame | dell-07.700.52.00/megaraid_sas_base.c:2118-2145 | changing a slot that is not scanned does not change which scanned slots are waiters |
| Kill.IoctlsAreWaiterFold | dell-07.700.52.00/megaraid_sas_base.c:2118-2145 | with no index repeated, the loop is megasas_complete_cmd with DID_OK on every waiter among the scanned slots, in scan order, exactly as the reply-ring drain completes its contexts |
| Kill.CompleteOutstandingIoctls | dell-07.700.52.00/megaraid_sas_base.c:2118-2145 | on an MFI adapter with no synchronous non-abort command, nothing changes |
| Kill.KillHba | dell-07.700.52.00/megaraid_sas_base.c:2148-2174 | the adapter ends in HW_CRITICAL_ERROR with only that recovery field changed, the log begins with the template's stop writes, pending queue and ring are untouched, and fw_outstanding plus completed requests is constant |
| Kill.KillHbaWakesEveryWaiter | dell-07.700.52.00/megaraid_sas_base.c:2118-2174 | after the recovery state and stop writes, kill_hba completes every synchronous non-abort command among the scanned slots as the reply path does, waking its sleeper; on an MFI adapter every slot is scanned |
| Kill.LogGrowsIoctls | dell-07.700.52.00/megaraid_sas_base.c:2118-2145 | completing the outstanding ioctls only appends to the event log |
| Kill.LogGrowsCmd | dell-07.700.52.00/megaraid_sas_base.c:4328-4520 | megasas_complete_cmd never rewrites the event log |
| Kill.LogGrowsScsi | dell-07.700.52.00/megaraid_sas_base.c:4364-4434 | the SCSI completion path never rewrites the event log |
| Kill.LogGrowsDcmd | dell-07.700.52.00/megaraid_sas_base.c:4436-4507 | the DCMD completion path never rewrites the event log |
| Kill.DcmdTimeoutPolicy | dell-07.700.52.00/megaraid_sas_base.c:5259-5268 | a timed-out DCMD kills the adapter exactly without a fusion context, is ignored exactly during unload or a fusion reset, and starts an OCR otherwise |
| Defer.Without | dell-07.700.52.00/megaraid_sas_base.c:4622-4625 | list_del_init removes exactly the one slot and keeps the list free of repeats |
| Defer.DeferOne | dell-07.700.52.00/megaraid_sas_base.c:4617-4629 | an outstanding slot leaves the free list and is moved to the tail of the pending queue; any other slot stays where it is |
| Defer.DeferFrom | dell-07.700.52.00/megaraid_sas_base.c:4617-4629 | the loop from slot i moves exactly the outstanding slots from i on out of the free list and into the pending queue |
| Defer.DeferCmds | dell-07.700.52.00/megaraid_sas_base.c:4607-4631 | afterwards the pending queue holds exactly what it held plus every outstanding slot, and the free list loses exactly those, with nothing else changed |
| Defer.OutstandingFromBounds | dell-07.700.52.00/megaraid_sas_base.c:4617-4629 | the reference list holds only outstanding slots at or after i |
| Defer.DeferAppendsInOrder | dell-07.700.52.00/megaraid_sas_base.c:4617-4629 | with no later slot already pending, the loop appends the outstanding slots in slot order to the queue |
| Defer.DeferOneAppends | dell-07.700.52.00/megaraid_sas_base.c:4619-4627 | one iteration appends its slot exactly when it is outstanding |
| Defer.DeferCollectsOutstanding | dell-07.700.52.00/megaraid_sas_base.c:4607-4631 | from an empty queue, deferral leaves the outstanding slots queued in index order |
| Ocr.EnterFault | dell-07.700.52.00/megaraid_sas_base.c:3270-3284 | entering the fault signs the consumer index only on the three signing controllers, masks interrupts, sets SM_INFAULT with issuepend_done clear, zeroes fw_outstanding, and queues every outstanding command |
| Ocr.FrameCountArg | dell-07.700.52.00/megaraid_sas_base.c:4572 | frame_count - 1 in u32: the count less one, wrapping to 0xFFFFFFFF for 0 |
| Ocr.Refire | dell-07.700.52.00/megaraid_sas_base.c:4562-4576 | a sync command is marked INVALID and fired again, a SCSI command is recounted and fired again, anything else is left alone |
| Ocr.RefireEvents | dell-07.700.52.00/megaraid_sas_base.c:4562-4576 | replay makes one doorbell write for an outstanding slot and none otherwise |
| Ocr.ReplayEach | dell-07.700.52.00/megaraid_sas_base.c:4541-4577 | the replay loop either kills the adapter (and says so) or leaves recovery state and free list as they were |
| Ocr.ReplayStep | dell-07.700.52.00/megaraid_sas_base.c:4545-4576 | a step below the limit increments the retry count of an outstanding slot and re-fires it, recounting SCSI commands |
| Ocr.BumpRetry | dell-07.700.52.00/megaraid_sas_base.c:4545-4548 | retry_for_fw_reset goes up by one on an outstanding slot and nothing else changes |
| Ocr.ReturnAen | dell-07.700.52.00/megaraid_sas_base.c:4580-4584 | a leftover AEN command is handed back and aen_cmd cleared, with no log entry; a dangling one halts |
| Ocr.Replay | dell-07.700.52.00/megaraid_sas_base.c:4528-4597 | afterwards the pending queue is empty and the recovery state is either unchanged or HW_CRITICAL_ERROR |
| Ocr.ReplayWithoutLastRetry | dell-07.700.52.00/megaraid_sas_base.c:4541-4577 | with no entry at its last retry, the replay kills nothing, re-fires every entry in queue order, and recounts exactly the SCSI commands |
| Ocr.RefiresAgree | dell-07.700.52.00/megaraid_sas_base.c:4541-4577 | the replay's reference writes and counts depend only on the queued slots |
| Ocr.ReplayRetryCap | dell-07.700.52.00/megaraid_sas_base.c:4553-4559 | an entry anywhere in the queue at its last retry means the replay ends with the adapter dead |
| Ocr.Worker | dell-07.700.52.00/megaraid_sas_base.c:4635-4724 | outside SM_INFAULT nothing happens; the worker masks interrupts, resets the adapter and runs the ready handshake on the status trace with OCR allowed, logging its writes; a failed handshake or INIT kills the adapter and forbids PCI access, after exactly those writes; success clears the pending queue and sets issuepend_done; it ends operational only after both succeed |
| Ocr.WorkerGivesUp | dell-07.700.52.00/megaraid_sas_base.c:4667-4706 | the failure exits forbid PCI access and kill the adapter, only appending to the log |
| Ocr.DoOcr | dell-07.700.52.00/megaraid_sas_base.c:3270-3286 | an OCR ends with the adapter operational (only after the ready handshake on its status trace and the INIT both succeeded, with nothing pending) or dead |
| Ocr.DepleteReplyQueue | dell-07.700.52.00/megaraid_sas_base.c:4735-4805 | a reset in progress swallows the interrupt untouched; otherwise clear_intr's acknowledge write is logged first; the interrupt is refused exactly when the decoder claims nothing and MSI-X is off; a claimed state change with a faulted firmware and OCR allowed enters the fault and schedules the worker, and anything else claimed schedules the tasklet |
| Ocr.AckWrites | dell-07.700.52.00/megaraid_sas_base.c:432-898 | clear_intr makes at most one acknowledge write, and a claimed interrupt always makes one, writing back the status it read |
| Ocr.DepleteDecoded | dell-07.700.52.00/megaraid_sas_base.c:4747-4805 | once clear_intr has answered, the interrupt is refused exactly when no flag is set and MSI-X is off, and a claimed fault takes the fault path after the acknowledge |
| Ocr.DepleteClaimed | dell-07.700.52.00/megaraid_sas_base.c:4753-4805 | an unclaimed interrupt changes nothing; a fault with OCR allowed enters SM_INFAULT and schedules work; anything else schedules the tasklet and leaves the recovery state alone |
| Ocr.FaultInterruptStartsRecovery | dell-07.700.52.00/megaraid_sas_base.c:4747-4793 | an interrupt reporting a firmware fault, with online reset allowed, leaves the adapter in SM_INFAULT with issuepend_done clear, having acknowledged the status on the template's register, masked interrupts and scheduled the worker, in that order |
| Ocr.FaultInterruptIsClaimed | dell-07.700.52.00/megaraid_sas_base.c:4809-4824 | such an interrupt takes the claimed fault path of the ISR |
| Ocr.Isr | dell-07.700.52.00/megaraid_sas_base.c:4809-4824 | while PCI access is forbidden the interrupt is swallowed untouched; otherwise it is the reply-queue depletion |
| ResetHandler.StolenEvents | dell-07.700.52.00/megaraid_sas_base.c:3654-3680 | a stolen command makes a doorbell write exactly when it is a synchronous command without a request |
| ResetHandler.StolenAgree | dell-07.700.52.00/megaraid_sas_base.c:3654-3680 | the flush's reference writes and requests depend only on the stolen slots |
| ResetHandler.Requeued | dell-07.700.52.00/megaraid_sas_base.c:3657-3663 | each stolen request is handed back, in order, with DID_REQUEUE in the host byte |
| ResetHandler.FlushOne | dell-07.700.52.00/megaraid_sas_base.c:3655-3678 | a SCSI command is handed back with DID_REQUEUE and only its slot may rejoin the free list; a synchronous command without a request gets one doorbell write; no other slot changes |
| ResetHandler.FlushStolen | dell-07.700.52.00/megaraid_sas_base.c:3653-3680 | the flush makes exactly the reference doorbell writes and requeues exactly the stolen requests, in list order |
| ResetHandler.TailStillHeld | dell-07.700.52.00/megaraid_sas_base.c:3654-3656 | after the head is handed back the rest of the stolen list is still held and untouched |
| ResetHandler.RequeuedAppend | dell-07.700.52.00/megaraid_sas_base.c:3657-3663 | requeueing two runs of requests is requeueing each in turn |
| ResetHandler.OcrLoop | dell-07.700.52.00/megaraid_sas_base.c:3725-3753 | at most three OCRs are issued; failure means the adapter is dead; success means operational with nothing outstanding; firmware that is not faulted with nothing outstanding succeeds at once without an OCR |
| ResetHandler.OcrAttemptStep | dell-07.700.52.00/megaraid_sas_base.c:3732-3750 | after one OCR the verdict is FAILED only for a dead adapter and SUCCESS only for an operational one with nothing outstanding; otherwise the loop goes on with the adapter operational |
| ResetHandler.WaitForOutstanding | dell-07.700.52.00/megaraid_sas_base.c:3598-3773 | a dead adapter fails at once; during an internal reset the pending queue is stolen and the recovery worker runs: success only when it came back through the ready handshake and INIT, leaving the adapter operational with issuepend_done set, and a state no worker acts on is marked dead; with online reset disabled and the firmware not clean it fails without any OCR; success always leaves the adapter operational |
| ResetHandler.RecoveredFlushRequeues | dell-07.700.52.00/megaraid_sas_base.c:3619-3687 | once the worker has brought the adapter back and still holds every stolen slot, the handler succeeds, every stolen request is handed back with DID_REQUEUE and every stolen sync command fired again, in list order after the worker's effects, and the worker's recovery state, issuepend_done included, is kept |
| ResetHandler.FirstUnheld | dell-07.700.52.00/megaraid_sas_base.c:3654-3684 | names a stolen slot no longer held exactly when there is one, so a slot the worker handed back is caught before the walk of the stolen list |
| FwReady.StateAction | dell-07.700.52.00/megaraid_sas_base.c:4855-4969 | FAULT without ocr and any unlisted state give up; every other non-READY state has an action whose writes are handshake writes |
| FwReady.PollChange | dell-07.700.52.00/megaraid_sas_base.c:4974-4983 | the wait ends at the first read differing from the last value in any bit, or reports that none did within the budget |
| FwReady.ReadyLoop | dell-07.700.52.00/megaraid_sas_base.c:4853-4995 | success is reported only on a read that shows READY, and only handshake writes are made |
| FwReady.ReadyLoopExtendsLog | dell-07.700.52.00/megaraid_sas_base.c:4853-4995 | the loop only appends writes to those already made |
| FwReady.ReadyLoopStep | dell-07.700.52.00/megaraid_sas_base.c:4853-4995 | one pass appends the state's writes and goes on from the read that changed; a wait that sees no change fails with -ENODEV after the whole budget, and one that runs off the trace ends there |
| FwReady.TransitionToReady | dell-07.700.52.00/megaraid_sas_base.c:4836-5000 | a success ends on a READY read and only handshake writes are made |
| FwReady.AlreadyReady | dell-07.700.52.00/megaraid_sas_base.c:4845-4853 | firmware already READY succeeds after one read with no writes |
| FwReady.FaultOrUnknownFailsAtOnce | dell-07.700.52.00/megaraid_sas_base.c:4858-4968 | FAULT without ocr or an unlisted state fails at once with no writes |
| FwReady.StuckStateFailsAt | dell-07.700.52.00/megaraid_sas_base.c:4974-4991 | wherever in the run a listed, non-READY state is reached, a register that does not change for the whole MEGASAS_RESET_WAIT_TIME budget fails with -ENODEV after exactly that many further reads, with that state's writes appended |
| FwReady.StuckStateFails | dell-07.700.52.00/megaraid_sas_base.c:4974-4991 | the case of the first read: the whole handshake fails with -ENODEV after 1 + budget reads |
| FwReady.PollStaysUnchanged | dell-07.700.52.00/megaraid_sas_base.c:4974-4983 | an unchanging register exhausts the wait |
| FwReady.PollFindsFirstChange | dell-07.700.52.00/megaraid_sas_base.c:4974-4983 | the wait ends at the first read that differs, when it comes within the budget |
| FwReady.SameStateSameAction | dell-07.700.52.00/megaraid_sas_base.c:4855-4969 | two status words with the same state nibble decode alike and get the same action |
| FwReady.RawChangeReappliesState | dell-07.700.52.00/megaraid_sas_base.c:4974-4994 | wherever in the run, a change in the low bits alone within the budget also ends the wait; the loop goes on from that read in the same state, so that state's writes are issued again |
| FwReady.RawChangeRestartsState | dell-07.700.52.00/megaraid_sas_base.c:4974-4994 | an example: FW_INIT, then FW_INIT with other low bits, then READY succeeds after three reads with no writes |
| FwReady.DiagWait | dell-07.700.52.00/megaraid_sas_base.c:944-979 | a satisfied wait ends on a read that no longer waits, counting one retry per further read and staying within the limit; a wait that gives up has made exactly limit - retry + 1 further reads |
| FwReady.KeyWrites | dell-07.700.52.00/megaraid_sas_base.c:935-940 | the six unlock keys 0, 4, 0xb, 2, 7, 0xd are written in order to the sequence register |
| FwReady.AdpResetGen2 | dell-07.700.52.00/megaraid_sas_base.c:923-981 | the unlock keys always go first, to the fusion registers on skinny; success needs the reset bit written and then seen clear, and unless the trace runs out at most 1003 reads are made |
| FwReady.WriteEnableNeverSet | dell-07.700.52.00/megaraid_sas_base.c:944-956 | a controller that never raises DIAG_WRITE_ENABLE is given up on after 102 reads, having received only the keys |
| FwReady.DiagNeverSatisfied | dell-07.700.52.00/megaraid_sas_base.c:944-979 | a wait that is never satisfied gives up after exactly limit - retry + 1 further reads |
| Admission.Finish | dell-07.700.52.00/megaraid_sas_base.c:1963-1965 | a request answered directly is appended to the done list with its result, and nothing else changes |
| Admission.BuildAndIssue | dell-07.700.52.00/megaraid_sas_base.c:1813-1850 | HOST_BUSY exactly when no slot is free or the frame count is 0; otherwise one free slot records the request and frame count, fw_outstanding goes up by one, and its frame is fired with count - 1 |
| Admission.Claim | dell-07.700.52.00/megaraid_sas_base.c:1830-1845 | the taken slot records the request, its frame command and frame count, fw_outstanding goes up by one, and exactly one fire is made |
| Admission.FrameCmd | dell-07.700.52.00/megaraid_sas_base.c:1822-1829 | the builders' frame command: LD_WRITE or LD_READ by bit 1 of the opcode for LD read/write I/O, otherwise an LD or PD pass-through by the channel, as megasas_build_ldio and megasas_build_dcdb write it |
| Admission.IssuedCompletesAsScsi | dell-07.700.52.00/megaraid_sas_base.c:1813-1845 | a request issued from a slot that is not a sync command takes megasas_complete_cmd's SCSI path, which hands that same request back and undoes the fw_outstanding count |
| Admission.BuiltFramesAreIssued | dell-07.700.52.00/megaraid_sas_base.c:1252-1301 | megasas_get_frame_count never returns 0, so a request that gets a slot and a computed frame count is fired |
| Admission.QueueCommand | dell-07.700.52.00/megaraid_sas_base.c:1883-1966 | the driver's admission order: unload fails, issuepend_done clear is HOST_BUSY, SM_INFAULT requeues or fails by the multipath answer, a dead adapter or detached device fails, non-operational is HOST_BUSY, tm_busy is DEVICE_BUSY, a bad LD target is DID_BAD_TARGET, a skipped SYNCHRONIZE CACHE is DID_OK, and everything else is issued: through the MFI builder, or on a fusion adapter through its own builder, HOST_BUSY exactly when that refuses |
| Admission.QueueCommandIntended | dell-07.700.52.00/megaraid_sas_base.c:1896-1923 | with the dead-adapter test first, a dead adapter always fails the request, and otherwise the driver's order is kept |
| Admission.DeadAdapterKeepsRequestsBusy | dell-07.700.52.00/megaraid_sas_base.c:4667-4674 | after an OCR whose firmware never comes back ready the adapter is dead, yet queue_command answers HOST_BUSY, while the corrected order fails the request |
| IoHelpers.GetFrameCount | dell-07.700.52.00/megaraid_sas_base.c:1252-1301 | the frame count is 1..8: the fewest frames that hold the SGL spilled past the main frame, capped at 8 exactly when seven extra frames are too few |
| IoHelpers.ExtraFrames | dell-07.700.52.00/megaraid_sas_base.c:1285-1290 | the rounded-up division: enough frames for the spilled bytes, and one fewer would not do |
| IoHelpers.SingleFrame | dell-07.700.52.00/megaraid_sas_base.c:1252-1301 | one frame is used exactly when the SGEs fit in the main frame |
| IoHelpers.CmdType | dell-07.700.52.00/megaraid_sas_base.c:1714-1735 | the class is an LD class exactly on a logical channel and a read/write class exactly for the eight READ/WRITE opcodes |
| IoHelpers.Be32Bytes | dell-07.700.52.00/megaraid_sas_base.c:1596-1665 | a 32-bit CDB field has four big-endian bytes |
| IoHelpers.Be32RoundTrip | dell-07.700.52.00/megaraid_sas_base.c:1596-1665 | reading four big-endian CDB bytes gives back the field they were written from |
| IoHelpers.DecodeLdio | dell-07.700.52.00/megaraid_sas_base.c:1596-1665 | the direction follows bit 1 of the opcode, the access byte is CDB byte 1 except for 6-byte CDBs, the LBA fields are written only for lengths 6, 10, 12 and 16, and the high LBA only for 16 |
| IoHelpers.Pad | dell-07.700.52.00/megaraid_sas_base.c:1596-1665 | the CDB buffer starts with the CDB and has the mid-layer's full size |
| IoHelpers.Rw6 | dell-07.700.52.00/megaraid_sas_base.c:1601-1612 | a READ(6)/WRITE(6) CDB is six bytes |
| IoHelpers.Rw10 | dell-07.700.52.00/megaraid_sas_base.c:1617-1629 | a READ(10)/WRITE(10) CDB is ten bytes |
| IoHelpers.Rw12 | dell-07.700.52.00/megaraid_sas_base.c:1634-1648 | a READ(12)/WRITE(12) CDB is twelve bytes |
| IoHelpers.Rw16 | dell-07.700.52.00/megaraid_sas_base.c:1650-1665 | a READ(16)/WRITE(16) CDB is sixteen bytes |
| IoHelpers.DirectionFollowsOpcode | dell-07.700.52.00/megaraid_sas_base.c:1596 | among the READ/WRITE opcodes, bit 1 is set exactly for the writes |
| IoHelpers.Rw6Decodes | dell-07.700.52.00/megaraid_sas_base.c:1601-1612 | a 21-bit LBA and 8-bit length written into a 6-byte CDB are read back intact |
| IoHelpers.Rw10Decodes | dell-07.700.52.00/megaraid_sas_base.c:1617-1629 | the opcode's direction, flags byte, 32-bit LBA and 16-bit length of a 10-byte CDB are read back intact |
| IoHelpers.Rw12Decodes | dell-07.700.52.00/megaraid_sas_base.c:1634-1648 | the direction, flags, 32-bit LBA and 32-bit length of a 12-byte CDB are read back intact |
| IoHelpers.Rw16Decodes | dell-07.700.52.00/megaraid_sas_base.c:1650-1665 | the 64-bit LBA of a 16-byte CDB comes back as start_lba_hi:start_lba_lo, with direction, flags and length intact |
| Geometry.ToInt32 | dell-07.700.52.00/megaraid_sas_base.c:3900-3933 | the int conversion stays in the 32-bit range and keeps values that fit |
| Geometry.BiosParam | dell-07.700.52.00/megaraid_sas_base.c:3900-3933 | 64 heads and 32 sectors per track below 0x200000 sectors (1 GiB), 255 heads and 63 sectors from there on |
| Geometry.BiosParamCoversCapacity | dell-07.700.52.00/megaraid_sas_base.c:3900-3933 | while the cylinder count fits an int, the geometry covers the capacity to within one cylinder |
| Geometry.BootTarget | dell-07.700.52.00/megaraid_sas_base.c:5857-5881 | no boot drive exactly for MEGASAS_INVALID_TARGET_ID; otherwise channel and target fit u8 and u16, a PD's channel and target recompose its id, and an LD's do after its channel offset |
| Geometry.BootTargetInvertsIndex | dell-07.700.52.00/megaraid_sas_base.c:5857-5881 | for firmware ids below 256 the mapping is inverted by PD_INDEX for a PD and by DEV_INDEX for an LD, on the right channel class |
| Geometry.FwCmdField | dell-07.700.52.00/megaraid_sas_base.c:6387 | the firmware command count is a 16-bit value |
| Geometry.SgeField | dell-07.700.52.00/megaraid_sas_base.c:6398-6399 | the SGE limit is an 8-bit value |
| Geometry.InitLimits | dell-07.700.52.00/megaraid_sas_base.c:6387-6412 | max_fw_cmds is the firmware count less one (wrapping to 0xFFFF for 0), max_num_sge is bits 16-23, max_scsi_cmds is max_fw_cmds less the 5 or 32 reserved commands with u16 wrap, and the IOCTL semaphore admits a non-empty part of the reserved commands, so SCSI commands plus admitted IOCTLs fit within max_fw_cmds |
| Geometry.SubU16 | dell-07.700.52.00/megaraid_sas_base.c:6387-6412 | u16 subtraction gives the value that adds back to the minuend modulo 2^16 |
| Geometry.ReplyQueueFits | dell-07.700.52.00/megaraid_sas_base.c:6387-6412 | for a nonzero firmware count, the reply queue sized from max_fw_cmds + 1 never exceeds it, and SCSI commands stay below max_fw_cmds whenever the count exceeds the reservation |
| Aen.EvtClass | broadcom-07.705.02.00/megaraid_sas.h:411-420 | the event class is a signed byte |
| Aen.ClassLeIsSigned | dell-07.700.52.00/megaraid_sas_base.c:7056 | the class comparison made on the bytes is the signed order of the classes |
| Aen.WordRoundTrip | dell-07.700.52.00/megaraid_sas_base.c:7039-7044 | writing the members and reading the word, then reading the members back, gives the same members |
| Aen.FieldsRoundTrip | dell-07.700.52.00/megaraid_sas_base.c:7039-7044 | reading the members of a word and writing them back gives the same word |
| Aen.LocaleCoversIsInclusion | dell-07.700.52.00/megaraid_sas_base.c:7056-7058 | the driver's XOR test on locales is bitmap inclusion |
| Aen.Merge | dell-07.700.52.00/megaraid_sas_base.c:7066-7070 | the merged subscription covers both the running and the requested one and keeps the requested reserved byte |
| Aen.UnionCovers | dell-07.700.52.00/megaraid_sas_base.c:7067 | the locale union covers both locale maps |
| Aen.CoverOfBoth | dell-07.700.52.00/megaraid_sas_base.c:7067 | a locale map covering both covers their union |
| Aen.MergeIsLeast | dell-07.700.52.00/megaraid_sas_base.c:7066-7070 | the merge is the least subscription covering both: anything covering both covers it |
| Aen.MergeOfCovered | dell-07.700.52.00/megaraid_sas_base.c:7056-7070 | merging with a subscription that already covers the request gives back the same subscription |
| Aen.RegisterAen | dell-07.700.52.00/megaraid_sas_base.c:7017-7130 | nothing is done exactly when the running subscription covers the request; otherwise the old one is aborted and a failed abort is reported exactly when the abort fails; -ENOMEM exactly when no slot is free on the way to issuing; the frame carries the union the driver builds (Merge: OR of the locales, the lower class), which covers both, and is dropped exactly when aen_cmd is still set after the abort; with nothing running the request itself is issued exactly when a slot is free |
| FusionContext.GetNumSge | broadcom-07.706.03.00/megaraid_sas_fusion.h:237-244 | the SGE count is 12 bits |
| FusionContext.SetNumSge | broadcom-07.706.03.00/megaraid_sas_fusion.h:229-235 | byte 0 holds the low eight bits of the count |
| FusionContext.SetNumSgeKeepsFlags | broadcom-07.706.03.00/megaraid_sas_fusion.h:229-235 | setting the count leaves the upper nibble of byte 1, and with it the stream-detected flag, as it was |
| FusionContext.SetNumSgeOnlyOrs | broadcom-07.706.03.00/megaraid_sas_fusion.h:229-235 | setting the count never clears a bit of byte 1 |
| FusionContext.SetStreamDetected | broadcom-07.706.03.00/megaraid_sas_fusion.h:246-248 | the flag reads true afterwards and the SGE count is untouched |
| FusionContext.ClearStreamDetected | broadcom-07.706.03.00/megaraid_sas_fusion.h:249-250 | the flag reads false afterwards and the SGE count is untouched |
| FusionContext.SgeCountRoundTrip | broadcom-07.706.03.00/megaraid_sas_fusion.h:229-255 | on a context whose count nibble is clear, a 12-bit count written reads back, also after setting the stream flag, and the flag reads as last set or cleared |
| FusionContext.SpanArm | broadcom-07.706.03.00/megaraid_sas_fusion.h:257-261 | the span and arm packed into one byte are each recovered by their mask and shift |
| FusionContext.SpanArmMasks | broadcom-07.706.03.00/megaraid_sas_fusion.h:257-261 | the arm and span masks are disjoint, cover the byte, and match their shifts |
| FusionContext.StreamBitmapIsIdentity | broadcom-07.706.03.00/megaraid_sas_fusion.h:264-269 | the initial stream bitmap holds 0..7, one nibble per slot, and STREAM_MASK is one nibble |
| CpxXor.ScanFromFinds | dell-07.700.52.00/megaraid_sas_base.c:2905-2912 | the scan loop stops at the lowest set bit, or reports none for an empty bitmap |
| CpxXor.ScanSetBit | dell-07.700.52.00/megaraid_sas_base.c:2901-2913 | 0xFF (~0 in a u8) exactly for an empty bitmap; otherwise a set bit below 32 with no set bit beneath it |
| CpxXor.SkipClear | dell-07.700.52.00/megaraid_sas_base.c:2960-2968 | clear positions add no source buffer |
| CpxXor.AgreeFrom | dell-07.700.52.00/megaraid_sas_base.c:2960-2968 | bitmaps agreeing from a position on list the same sources from there |
| CpxXor.Positions | dell-07.700.52.00/megaraid_sas_base.c:2960-2968 | repeatedly taking and clearing the lowest set bit lists exactly the set bits, ascending, each below 32 |
| CpxXor.LowestGoesFirst | dell-07.700.52.00/megaraid_sas_base.c:2960-2968 | clearing the lowest set bit leaves the remaining sources in order after it |
| CpxXor.BitsAscendingBounded | dell-07.700.52.00/megaraid_sas_base.c:2960-2968 | the listed positions are set bits below 32 |
| CpxXor.SourceBitmap | dell-07.700.52.00/megaraid_sas_base.c:2956-2957 | a check opcode drops exactly P from the working bitmap, a generate opcode drops nothing |
| CpxXor.CheckSourcesAsWritten | dell-07.700.52.00/megaraid_sas_base.c:2960-2968 | the source loop as written accepts exactly when the pointer list has room and every source passes the u32 bounds test |
| CpxXor.DispatchAsWritten | dell-07.700.52.00/megaraid_sas_base.c:2960-2973 | as written, a routine runs exactly when the sources pass and there are 1 to 15 of them, and the request is refused exactly when a source fails the u32 test |
| CpxXor.DoCpxXorAsWritten | dell-07.700.52.00/megaraid_sas_base.c:2924-2976 | as written, a dispatched routine names the opcode's destination and sources that passed the u32 bounds test |
| CpxXor.SourcesInHostMemory | dell-07.700.52.00/megaraid_sas_base.c:2963 | the exact bounds test holds for every source |
| CpxXor.Dispatch | dell-07.700.52.00/megaraid_sas_base.c:2960-2973 | the checked loop never reaches an undefined table entry and runs exactly when every source lies in host memory and there are 1 to 15 of them |
| CpxXor.DoCpxXor | dell-07.700.52.00/megaraid_sas_base.c:2924-2976 | the checked routine runs exactly on acceptable requests, naming the opcode's destination and the bitmap's sources lowest first (P excluded on a check), all inside host memory |
| CpxXor.ChecksAgree | dell-07.700.52.00/megaraid_sas_base.c:2963 | without wrap-around the u32 test and the exact test agree |
| CpxXor.DispatchesAgree | dell-07.700.52.00/megaraid_sas_base.c:2960-2973 | where the two bounds tests agree, the two source loops dispatch alike |
| CpxXor.AgreeWithoutWrap | dell-07.700.52.00/megaraid_sas_base.c:2924-2976 | with no offset-plus-size reaching 2^32, the routine as written and the checked one agree whenever either dispatches |
| CpxXor.WrappingRequest | dell-07.700.52.00/megaraid_sas_base.c:2945-2968 | the wrapping example is a well-formed descriptor |
| CpxXor.WrapLetsSourceThrough | dell-07.700.52.00/megaraid_sas_base.c:2962-2966 | a source ending 16 bytes past 4 GiB passes the u32 test against a 256-byte host window: the routine as written dispatches on it, the checked one refuses |
| CpxXor.EmptyRequest | dell-07.700.52.00/megaraid_sas_base.c:2970-2973 | the empty-bitmap example is a well-formed descriptor |
| CpxXor.EmptySourcesIndexBelowTable | dell-07.700.52.00/megaraid_sas_base.c:2970-2973 | with no source buffer the routine as written indexes the table at -1, and the checked one refuses |
| XorParity.XorOfOne | dell-07.700.52.00/megaraid_sas_base.c:2457-2467 | with one source the parity is the source itself, which is why the 1x1 routines copy and compare |
| XorParity.XorGen | dell-07.700.52.00/megaraid_sas_base.c:2177-2467 | the destination's first size/4 words become the XOR of the sources' words and the rest is untouched |
| XorParity.CheckWord | dell-07.700.52.00/megaraid_sas_base.c:2469-2501 | a word is flagged exactly when it differs from the parity, and comes back as the parity |
| XorParity.XorCheck | dell-07.700.52.00/megaraid_sas_base.c:2469-2863 | SUCCESS exactly when the destination already held the parity, INCONSISTENT otherwise; either way the destination leaves holding it, unchanged when it was right and beyond size/4 words |
| XorParity.GenThenCheck | dell-07.700.52.00/megaraid_sas_base.c:2865-2899 | generating parity and then checking it finds nothing to repair |
| XorOffload.SourceBuffers | dell-07.700.52.00/megaraid_sas_base.c:2962 | the source buffers are those the dispatch names, in its order |
| XorOffload.RunDispatched | dell-07.700.52.00/megaraid_sas_base.c:2970-2975 | FAILURE exactly for a refused request, which touches nothing; a generate writes the parity and succeeds; a check succeeds exactly when the destination was consistent; only the destination changes |
| XorOffload.CompleteXor | dell-07.700.52.00/megaraid_sas_base.c:2924-2976 | the corrected routine (see Findings: exact bounds test, no table index outside the 15 routines), end to end: FAILURE exactly for unacceptable requests; otherwise the destination holds the parity of the bitmap's sources, and only it changes. The routine as written is CpxXor.DoCpxXorAsWritten |

## Left out

- Register and memory access is not modelled. The model has no MMIO, PCI configuration, DMA mapping, or frame and SGL memory. Register writes are log events, and register reads are a trace or an input.
- Locks, atomics, interrupts racing the tasklet, the work queue and the sleeping waiters are left out; each operation is one atomic step. The blocked issue paths are split into a posting step and a waking step, and the firmware's answer in between is `Dispatch.FirmwareAnswers`.
- Time is not modelled. Sleeps and polling delays become a bound on the number of register reads. The 180-second wait for completions in megasas_wait_for_outstanding is left out: the handler is given the adapter as it stands after that wait.
- The fusion (MPT) command path is not part of this model: return_cmd_fusion, the fusion issue_dcmd, MR_ValidateMapInfo, megasas_sync_map_info, megasas_sync_pd_seq_num and the fusion reset. A fusion refusal is the input `refused`. The map and PD-sequence completions record their follow-up work as log events.
- megasas_wait_and_poll is not part of this model; its answer is the input `polled`.
- megasas_issue_init_mfi is not part of this model; its result is the input `initOk`. The worker's 30-second pause and the CPX queue re-initialisation are left out.
- megasas_check_mpio_paths is left out because it depends on the SCSI mid-layer's device state; its answer is the input `mpioRequeue`.
- The SGL builders (megasas_make_sgl32/64/skinny, megasas_build_dcdb) and the frame fields they fill, apart from the frame command, are left out; the frame command a builder writes before returning 0 on the HOST_BUSY path is not recorded either; their frame count is the input `frameCount`. Only the LBA decode of megasas_build_ldio is modelled.
- Admission.BuiltFramesAreIssued: the frame count is taken from megasas_get_frame_count over an SGE count given as input, not from a mapped scatterlist.
- The AEN service path (megasas_service_aen) and the completion of an aborted AEN are log events. In Aen.RegisterAen, the abort outcome, the free-slot test and whether aen_cmd is still set are inputs, because other threads decide them while the caller sleeps.
- CPX host memory is modelled as MAX_MR_ROW_SIZE separate word buffers. Overlapping or aliased host buffers, and a size that is not a multiple of four bytes, are left out: the routines touch only whole words.
- Metrics, debug dumps (megasas_dump_pending_frames), printk output and SR-IOV affiliation are left out.
- Driver load, unload, suspend and resume are outside the command engine and are left out.
- Completion.CompleteCmdDpc: megasas_handle_cpx_requests and megasas_check_and_restore_queue_depth are logged as the events HandleCpxRequests and RestoreQueueDepth; CPX request handling and the time-based restore of the queue depth are not part of this model.
- Completion.CompleteCmdDpc: with the consumer inside the ring and the producer past its end, the C loop never meets the producer and circles for ever; the model ends that run with the outcome DrainNeverEnds instead of following the endless loop.
- Kill.IoctlsAreWaiterFold and Kill.KillHbaWakesEveryWaiter: the fold form is stated for scanned index lists with no repeats, which holds for the MFI scan; with a repeated fusion sync_cmd_idx the second visit sees the slot as the first completion left it.
- Admission.QueueCommand: on a fusion adapter the request goes to the fusion template's build_and_issue_cmd, which is not part of this model; its refusal is the input `mptBusy`, and an accepted request is the verdict IssuedMpt with no change to the state the model tracks.
- Ocr.Worker: instancet->adp_reset is the single event AdpReset. The gen2 key and diag writes are modelled by FwReady.AdpResetGen2 on their own and are not spliced into the worker's log, because the other templates' adp_reset routines are not part of this model. A status trace that runs out before READY counts as a failed handshake.
- FwReady.ReadyLoop: the OPERATIONAL case's busy-wait on the doorbell of fusion controllers is left out; it affects only timing.
- FwReady.TransitionToReady: the firmware status register is a finite trace, and a trace that ends early is an explicit outcome rather than a modelled further read.
- ResetHandler.WaitForOutstanding: the recovery worker runs in another thread; the model runs it to completion inside the handler's wait, after the pending queue is stolen. A worker that outlasts MEGASAS_RESET_WAIT_TIME, or one that replays the queue before the handler steals it, is not modelled.
- ResetHandler.WaitForOutstanding: the worker's handshake, ring reset and interrupt enable are those of Ocr.Worker; a stolen slot the worker hands back to the pool (the old AEN command, returned by megasas_issue_pending_cmds_again) is the outcome ListCorruption, for the handler's walk of its local list would follow a relinked node.
- Ocr.DepleteReplyQueue: the skinny clear_intr reads the firmware status register, and megasas_deplete_reply_queue reads it again at line 4758; the model gives both reads the one value `fwStatus`.
- Geometry.InitLimits: the firmware status register is read twice, at lines 6387 and 6394; the model derives the command count and the SGE limit from one value `status`.
- ResetHandler.OcrLoop: an attempt list that runs out ends the run with HandlerTraceEnded rather than a modelled further attempt.
- Geometry.FwCmdField and Geometry.SgeField: the masks `& 0x00FFFF` and `(& 0xFF0000) >> 0x10` are written as remainder and division by powers of two. This is the same value on a u32 read.
- FusionContext.SetNumSge: the contract states only byte 0; what byte 1 keeps is stated by SetNumSgeKeepsFlags and SetNumSgeOnlyOrs, and the read-back by SgeCountRoundTrip under its clear-nibble condition, because the OR into byte 1 does not overwrite old count bits.

## Findings

| source | as written | input that shows it | evidently intended | confidence | as-written member | corrected member |
|---|---|---|---|---|---|---|
| dell-07.700.52.00/megaraid_sas_base.c:2945-2968 | `buff_list[i] + tx_count > host_mem_len` is computed in u32 and wraps | a GEN_P descriptor of size 0x20, bitmap 1, p_idx 1, buff_list[0] = 0xFFFFFFF0, against 0x100 bytes of host memory: the source passes the test | a buffer is accepted only if it lies entirely inside host memory | medium, not executed | CpxXor.WrapLetsSourceThrough | CpxXor.AgreeWithoutWrap |
| dell-07.700.52.00/megaraid_sas_base.c:2970-2973 | the routine table is indexed with buf_idx - 2 whatever the source count | a generate descriptor with an empty bitmap: xor_gen_funcs[-1] is called (and 16 or more sources reach NULL entries of the 32-entry tables) | a request with no source, or more sources than there are routines, is refused | high, not executed | CpxXor.EmptySourcesIndexBelowTable | CpxXor.DoCpxXor |
| dell-07.700.52.00/megaraid_sas_base.c:1903-1923 | the issuepend_done test comes before the dead-adapter test | an OCR whose firmware never returns to READY: the worker kills the adapter at 4672-4674 without setting issuepend_done, so every later request gets HOST_BUSY and is retried forever | requests to a dead adapter fail with DID_NO_CONNECT | low, not executed | Admission.DeadAdapterKeepsRequestsBusy | Admission.QueueCommandIntended |

=== FILE: admission.dfy ===
/**
 * Submission of SCSI requests on MFI controllers: the admission checks of
 * megasas_queue_command and the MFI build_and_issue_cmd that takes a slot,
 * counts the command in fw_outstanding and fires its frames.
 */
module Admission {
  import opened Wrappers
  import opened MfiDefs
  import opened Cmds
  import opened CmdPool
  import opened Instance
  import opened Completion
  import opened IoHelpers
  import opened Ocr

  const SYNCHRONIZE_CACHE: bv8 := 0x35

  /** What megasas_queue_command tells the mid-layer. */
  datatype Verdict =
    | Finished(result: bv32)     // 0, after scsi_done with this result word
    | Issued(slot: nat)          // 0, after the frames were fired from this slot
    | IssuedMpt                  // 0, after the fusion (MPT) builder took the request
    | HostBusy                   // SCSI_MLQUEUE_HOST_BUSY
    | DeviceBusy                 // SCSI_MLQUEUE_DEVICE_BUSY

  /** The per-device state the driver keeps in scsi_device->hostdata; `attached` is a non-NULL pointer. */
  datatype DeviceState = DeviceState(attached: bool, tmBusy: bool)

  /** Only a completed request lands in the done list, and nothing but the done list changes. */
  function Finish(a: Adapter, req: Request, result: bv32): (r: (Adapter, Verdict))
    ensures r.0 == a.(done := a.done + [Completion(req, result)]) && r.1 == Finished(result)
    ensures Valid(a) ==> Valid(r.0)
  {
    (a.(done := a.done + [Completion(req, result)]), Finished(result))
  }

  /** The slot megasas_get_cmd would hand out exists and megasas_return_cmd would take it back. */
  predicate HeadReturnable(p: Pool) {
    |p.free| > 0 && p.free[0] < |p.cmds| && p.cmds[p.free[0]].flags & DRV_DCMD_POLLED_MODE == 0
  }

  /**
   * megasas_build_and_issue_cmd, the MFI templates' builder. `frameCount` is what
   * megasas_build_ldio or megasas_build_dcdb returned after filling the frame.
   * With no free slot, or a frame count of 0, the request is turned away as
   * HOST_BUSY; otherwise the slot records the request and its frame count,
   * fw_outstanding goes up by one and the frame address is fired with
   * frame_count - 1.
   */
  function BuildAndIssue(a: Adapter, req: Request, frameCount: nat): (r: (Adapter, Verdict))
    requires Valid(a) && |req.cdb| > 0
    ensures Valid(r.0) && r.0.hw == a.hw && r.0.health == a.health && r.0.done == a.done
    ensures |r.0.pool.cmds| == |a.pool.cmds|
    ensures r.1.HostBusy? || r.1.Issued?
    ensures |a.pool.free| == 0 ==> r == (a, HostBusy)
    ensures r.1.HostBusy? ==> r.0.log == a.log && r.0.fwOutstanding == a.fwOutstanding
    ensures r.1.HostBusy? && HeadReturnable(a.pool) ==> multiset(r.0.pool.free) == multiset(a.pool.free)
    ensures r.1.Issued? <==> |a.pool.free| > 0 && frameCount > 0
    ensures r.1.Issued? ==>
              var i := r.1.slot;
              && IsFree(a.pool, i) && !IsFree(r.0.pool, i) && i < |a.pool.cmds|
              && multiset(r.0.pool.free) + multiset{i} == multiset(a.pool.free)
              && r.0.pool.cmds[i] == a.pool.cmds[i].(scmd := Some(req), frameCount := frameCount, frame := a.pool.cmds[i].frame.(cmd := FrameCmd(req)))
              && (forall j :: 0 <= j < |a.pool.cmds| && j != i ==> r.0.pool.cmds[j] == a.pool.cmds[j])
              && r.0.fwOutstanding == a.fwOutstanding + 1
              && r.0.log == a.log + [Fire(a.pool.cmds[i].frameAddr, frameCount - 1)]
  {
    var (p, slot) := GetCmd(a.pool);
    if slot.None? then (a, HostBusy)
    else
      var i := slot.value;
      if frameCount == 0 then
        (a.(pool := ReturnCmd(p, i, a.hw.fusion, a.hw.resetDevices)), HostBusy)
      else (Claim(a, p, i, req, frameCount), Issued(i))
  }

  /**
   * The frame command the builders write: megasas_build_ldio chooses
   * LD_WRITE or LD_READ by bit 1 of the opcode, megasas_build_dcdb an LD or
   * PD pass-through by the channel.
   */
  function FrameCmd(req: Request): (op: bv8)
    requires |req.cdb| > 0
    ensures op in {CMD_LD_READ, CMD_LD_WRITE} <==> CmdType(req.cdb[0], req.channel) == READ_WRITE_LDIO
    ensures op == CMD_LD_WRITE <==> CmdType(req.cdb[0], req.channel) == READ_WRITE_LDIO && req.cdb[0] & 0x02 != 0
    ensures op == CMD_LD_SCSI_IO <==> CmdType(req.cdb[0], req.channel) == NON_READ_WRITE_LDIO
    ensures op == CMD_PD_SCSI_IO <==> IsLogical(req.channel) != 1
  {
    if CmdType(req.cdb[0], req.channel) == READ_WRITE_LDIO then
      (if req.cdb[0] & 0x02 != 0 then CMD_LD_WRITE else CMD_LD_READ)
    else if IsLogical(req.channel) == 1 then CMD_LD_SCSI_IO
    else CMD_PD_SCSI_IO
  }

  /** The issue half of build_and_issue_cmd for slot `i`, just taken from the free list (`p` is the pool without it). */
  function Claim(a: Adapter, p: Pool, i: nat, req: Request, frameCount: nat): (r: Adapter)
    requires Valid(a) && i < |a.pool.cmds| && frameCount > 0 && |req.cdb| > 0
    requires WellFormed(p) && p.cmds == a.pool.cmds && !IsFree(p, i)
    requires forall x :: x in a.pending ==> x !in p.free
    ensures Valid(r) && r.hw == a.hw && r.health == a.health && r.done == a.done
    ensures r.pool.free == p.free && |r.pool.cmds| == |a.pool.cmds|
    ensures r.pool.cmds[i] == a.pool.cmds[i].(scmd := Some(req), frameCount := frameCount, frame := a.pool.cmds[i].frame.(cmd := FrameCmd(req)))
    ensures forall j :: 0 <= j < |a.pool.cmds| && j != i ==> r.pool.cmds[j] == a.pool.cmds[j]
    ensures r.fwOutstanding == a.fwOutstanding + 1
    ensures r.log == a.log + [Fire(a.pool.cmds[i].frameAddr, frameCount - 1)]
  {
    var c := a.pool.cmds[i].(scmd := Some(req), frameCount := frameCount, frame := a.pool.cmds[i].frame.(cmd := FrameCmd(req)));
    var a1 := a.(pool := p.(cmds := p.cmds[i := c]), fwOutstanding := a.fwOutstanding + 1);
    Emit(a1, Fire(c.frameAddr, frameCount - 1))
  }

  /**
   * megasas_get_frame_count never returns 0, so a request that gets a slot
   * and a computed frame count is fired. The builders' own 0, for an SGL
   * longer than max_num_sge, is the HOST_BUSY path of BuildAndIssue.
   */
  lemma BuiltFramesAreIssued(a: Adapter, req: Request, sgeCount: bv8, dma64: bool, ieee: bool)
    requires Valid(a) && |req.cdb| > 0 && |a.pool.free| > 0
    ensures var pthru := CmdType(req.cdb[0], req.channel) != READ_WRITE_LDIO;
            BuildAndIssue(a, req, GetFrameCount(sgeCount, pthru, dma64, ieee)).1.Issued?
  {
  }

  /**
   * A request issued from a slot that was not a synchronous command comes
   * back through megasas_complete_cmd's SCSI path: the completion hands the
   * same request to the mid-layer and takes it off fw_outstanding again.
   */
  lemma IssuedCompletesAsScsi(a: Adapter, req: Request, frameCount: nat, alt: bv8)
    requires Valid(a) && |req.cdb| > 0
    requires BuildAndIssue(a, req, frameCount).1.Issued?
    requires !a.pool.cmds[BuildAndIssue(a, req, frameCount).1.slot].syncCmd
    ensures var (b, v) := BuildAndIssue(a, req, frameCount);
            var c := CompleteCmd(b, v.slot, alt);
            && IsScsiCompletion(b.pool.cmds[v.slot])
            && (c.Done? ==> && c.value.fwOutstanding == a.fwOutstanding
                            && |c.value.done| == |a.done| + 1
                            && c.value.done[|a.done|].req == req)
  {
    var (b, v) := BuildAndIssue(a, req, frameCount);
    var op := FrameCmd(req);
    assert b.pool.cmds[v.slot].frame.cmd == op && !b.pool.cmds[v.slot].syncCmd;
    assert op in {CMD_LD_READ, CMD_LD_WRITE, CMD_LD_SCSI_IO, CMD_PD_SCSI_IO};
  }

  /** A logical-drive request the firmware cannot address: an id past the LD count or a LUN other than 0. */
  predicate BadLogicalTarget(a: Adapter, req: Request) {
    IsLogical(req.channel) == 1 && (req.id >= a.limits.vdCount || req.lun != 0)
  }

  /** A SYNCHRONIZE CACHE to a logical drive on firmware that flushes on its own: answered at once. */
  predicate SkippedSyncCache(a: Adapter, req: Request)
    requires |req.cdb| > 0
  {
    IsLogical(req.channel) == 1 && req.cdb[0] == SYNCHRONIZE_CACHE && !a.limits.syncCacheSupport
  }

  /**
   * megasas_queue_command, in the order the driver makes its tests. The
   * answer of megasas_check_mpio_paths (DID_REQUEUE or not) is the input
   * `mpioRequeue`, and the builders' frame count is `frameCount`. A fusion
   * adapter issues through its own template's builder, whose refusal is the
   * input `mptBusy`.
   */
  function QueueCommand(a: Adapter, req: Request, dev: DeviceState, mpioRequeue: bool, frameCount: nat, mptBusy: bool): (r: (Adapter, Verdict))
    requires Valid(a) && |req.cdb| > 0
    ensures Valid(r.0) && r.0.hw == a.hw && r.0.health == a.health
    ensures a.health.unloading ==> r == Finish(a, req, DID_NO_CONNECT << 16)
    ensures !a.health.unloading && !a.health.issuependDone ==> r == (a, HostBusy)
    ensures !a.health.unloading && a.health.issuependDone && a.health.adprecovery == SmInFault ==>
              r == if mpioRequeue then (a, HostBusy) else Finish(a, req, DID_NO_CONNECT << 16)
    ensures !a.health.unloading && a.health.issuependDone && a.health.adprecovery == HwCriticalError ==>
              r == Finish(a, req, DID_NO_CONNECT << 16)
    ensures (&& !a.health.unloading && a.health.issuependDone && dev.attached
             && a.health.adprecovery !in {SmInFault, HwCriticalError, HbaOperational}) ==> r == (a, HostBusy)
    ensures r.1.DeviceBusy? <==>
              !a.health.unloading && a.health.issuependDone && a.health.adprecovery == HbaOperational
              && dev.attached && dev.tmBusy
    ensures r.1 == Finished(DID_BAD_TARGET << 16) <==>
              !a.health.unloading && a.health.issuependDone && a.health.adprecovery == HbaOperational
              && dev.attached && !dev.tmBusy && BadLogicalTarget(a, req)
    ensures r.1.Issued? ==>
              && !a.health.unloading && a.health.issuependDone && a.health.adprecovery == HbaOperational
              && dev.attached && !dev.tmBusy && !BadLogicalTarget(a, req) && !SkippedSyncCache(a, req)
              && !a.hw.fusion && r == BuildAndIssue(a, req, frameCount)
    ensures (&& !a.health.unloading && a.health.issuependDone && a.health.adprecovery == HbaOperational
             && dev.attached && !dev.tmBusy && !BadLogicalTarget(a, req) && !SkippedSyncCache(a, req)) ==>
              r == if a.hw.fusion then (a, if mptBusy then HostBusy else IssuedMpt) else BuildAndIssue(a, req, frameCount)
    ensures r.1.IssuedMpt? ==> a.hw.fusion && !mptBusy && r.0 == a
    ensures !r.1.Issued? ==> r.0.log == a.log && r.0.fwOutstanding == a.fwOutstanding
    ensures r.1.Finished? ==> r.0.done == a.done + [Completion(req, r.1.result)]
    ensures !r.1.Finished? ==> r.0.done == a.done
  {
    var h := a.health;
    if h.unloading then Finish(a, req, DID_NO_CONNECT << 16)
    else if !h.issuependDone then (a, HostBusy)
    else if h.adprecovery == SmInFault then
      if mpioRequeue then (a, HostBusy) else Finish(a, req, DID_NO_CONNECT << 16)
    else if h.adprecovery == HwCriticalError then Finish(a, req, DID_NO_CONNECT << 16)
    else if !dev.attached then Finish(a, req, DID_NO_CONNECT << 16)
    else if h.adprecovery != HbaOperational then (a, HostBusy)
    else if dev.tmBusy then (a, DeviceBusy)
    else if BadLogicalTarget(a, req) then Finish(a, req, DID_BAD_TARGET << 16)
    else if SkippedSyncCache(a, req) then Finish(a, req, DID_OK << 16)
    else if a.hw.fusion then (a, if mptBusy then HostBusy else IssuedMpt)
    else BuildAndIssue(a, req, frameCount)
  }

  /**
   * megasas_queue_command with the dead-adapter test ahead of the
   * issuepend_done test, so that an adapter the recovery worker gave up on
   * fails its requests instead of deferring them for ever.
   */
  function QueueCommandIntended(a: Adapter, req: Request, dev: DeviceState, mpioRequeue: bool, frameCount: nat, mptBusy: bool): (r: (Adapter, Verdict))
    requires Valid(a) && |req.cdb| > 0
    ensures Valid(r.0)
    ensures a.health.unloading || a.health.adprecovery == HwCriticalError ==> r == Finish(a, req, DID_NO_CONNECT << 16)
    ensures a.health.adprecovery != HwCriticalError ==> r == QueueCommand(a, req, dev, mpioRequeue, frameCount, mptBusy)
  {
    if !a.health.unloading && a.health.adprecovery == HwCriticalError then Finish(a, req, DID_NO_CONNECT << 16)
    else QueueCommand(a, req, dev, mpioRequeue, frameCount, mptBusy)
  }

  /**
   * After a recovery whose firmware never came back ready, the adapter is
   * dead but issuepend_done is still clear, so every request is sent back as
   * HOST_BUSY, to be retried, rather than failed with DID_NO_CONNECT; the
   * corrected order fails it.
   */
  lemma DeadAdapterKeepsRequestsBusy(a: Adapter, statusTrace: seq<bv32>, initOk: bool, fusionSyncIdx: seq<nat>,
                                     req: Request, dev: DeviceState, mpioRequeue: bool, frameCount: nat, mptBusy: bool)
    requires Valid(a) && !a.health.unloading && |req.cdb| > 0
    requires !ComesReady(a.hw, statusTrace)
    ensures var r := DoOcr(a, statusTrace, initOk, fusionSyncIdx);
            r.Done? ==>
              && r.value.health.adprecovery == HwCriticalError
              && QueueCommand(r.value, req, dev, mpioRequeue, frameCount, mptBusy).1 == HostBusy
              && QueueCommandIntended(r.value, req, dev, mpioRequeue, frameCount, mptBusy).1 == Finished(DID_NO_CONNECT << 16)
  {
  }
}

=== FILE: aen.dfy ===
/**
 * The event subscription rule of megasas_register_aen. A subscription is a
 * class and a locale packed into one 32-bit word: the locale bitmap in bits
 * 0-15, a reserved byte, and the class as a signed byte in bits 24-31. A
 * smaller class takes in every larger one; locales are independent bits.
 */
module Aen {
  import opened Wrappers

  /** The union's `members` view; the class is kept as its signed byte. */
  datatype ClassLocale = ClassLocale(locale: bv16, reserved: bv8, classByte: bv8)

  /** The class as the s8 it is declared as. */
  function EvtClass(b: bv8): (c: int)
    ensures -128 <= c < 128
  {
    if b < 0x80 then b as int else b as int - 0x100
  }

  /**
   * The signed comparison of two class bytes, done on the bytes themselves:
   * flipping the sign bit maps -128..127 onto 0..255 in order.
   */
  predicate ClassLe(a: bv8, b: bv8) {
    (a ^ 0x80) <= (b ^ 0x80)
  }

  /** ClassLe is the order of the classes as signed bytes. */
  lemma ClassLeIsSigned(a: bv8, b: bv8)
    ensures ClassLe(a, b) <==> EvtClass(a) <= EvtClass(b)
  {
    FlipSignBit(a);
    FlipSignBit(b);
    UnsignedOrder(a ^ 0x80, b ^ 0x80);
  }

  lemma FlipSignBit(a: bv8)
    ensures (a ^ 0x80) as int == EvtClass(a) + 0x80
  {
    if a < 0x80 {
      assert a ^ 0x80 == a + 0x80;
    } else {
      assert a ^ 0x80 == a - 0x80;
    }
  }

  lemma UnsignedOrder(x: bv8, y: bv8)
    ensures x <= y <==> x as int <= y as int
  {
  }

  /** Reading the union through its `members` view. */
  function FromWord(w: bv32): ClassLocale {
    ClassLocale((w & 0xFFFF) as bv16, ((w >> 16) & 0xFF) as bv8, (w >> 24) as bv8)
  }

  /** Writing the union through its `members` view and reading `word`. */
  function ToWord(e: ClassLocale): bv32 {
    (e.locale as bv32) | ((e.reserved as bv32) << 16) | ((e.classByte as bv32) << 24)
  }

  lemma WordRoundTrip(e: ClassLocale)
    ensures FromWord(ToWord(e)) == e
  {
    PackedFields(e.locale, e.reserved, e.classByte);
  }

  lemma PackedFields(l: bv16, r: bv8, c: bv8)
    ensures var w := (l as bv32) | ((r as bv32) << 16) | ((c as bv32) << 24);
            (w & 0xFFFF) as bv16 == l && ((w >> 16) & 0xFF) as bv8 == r && (w >> 24) as bv8 == c
  {
  }

  lemma FieldsRoundTrip(w: bv32)
    ensures ToWord(FromWord(w)) == w
  {
  }

  /** Two subscriptions with the same class and locale: the reserved byte plays no part. */
  predicate SameSubscription(x: ClassLocale, y: ClassLocale) {
    x.locale == y.locale && x.classByte == y.classByte
  }

  /**
   * The test megasas_register_aen makes before touching the firmware: the
   * registered subscription already covers the requested one when its class
   * is no larger and the request asks for no locale bit it lacks.
   */
  predicate Subsumes(prev: ClassLocale, curr: ClassLocale) {
    ClassLe(prev.classByte, curr.classByte) && LocaleCovers(prev.locale, curr.locale)
  }

  /** No bit of `curr` is missing from `prev`, tested the way the driver does. */
  predicate LocaleCovers(prev: bv16, curr: bv16) {
    (prev & curr) ^ curr == 0
  }

  /** The driver's locale test is bitmap inclusion: adding the requested bits to the registered ones changes nothing. */
  lemma LocaleCoversIsInclusion(prev: bv16, curr: bv16)
    ensures LocaleCovers(prev, curr) <==> prev | curr == prev
  {
  }

  /** The union of two subscriptions that megasas_register_aen re-registers with. */
  function Merge(prev: ClassLocale, curr: ClassLocale): (m: ClassLocale)
    ensures m.reserved == curr.reserved
    ensures Subsumes(m, prev) && Subsumes(m, curr)
  {
    var locale := curr.locale | prev.locale;
    UnionCovers(prev.locale, curr.locale);
    var classByte := if ClassLe(prev.classByte, curr.classByte) && prev.classByte != curr.classByte then prev.classByte else curr.classByte;
    curr.(locale := locale, classByte := classByte)
  }

  /** The union of two locale maps covers both, and is covered by anything that covers both. */
  lemma UnionCovers(p: bv16, c: bv16)
    ensures LocaleCovers(c | p, p) && LocaleCovers(c | p, c)
  {
  }

  lemma CoverOfBoth(p: bv16, c: bv16, x: bv16)
    requires LocaleCovers(x, p) && LocaleCovers(x, c)
    ensures LocaleCovers(x, c | p)
  {
  }

  /** The merged subscription is the least one covering both: anything that covers both covers it. */
  lemma MergeIsLeast(prev: ClassLocale, curr: ClassLocale, x: ClassLocale)
    requires Subsumes(x, prev) && Subsumes(x, curr)
    ensures Subsumes(x, Merge(prev, curr))
  {
    CoverOfBoth(prev.locale, curr.locale, x.locale);
  }

  /** Merging with a subscription that already covers the request gives back the old subscription. */
  lemma MergeOfCovered(prev: ClassLocale, curr: ClassLocale)
    requires Subsumes(prev, curr)
    ensures SameSubscription(Merge(prev, curr), prev)
  {
    LocaleCoversIsInclusion(prev.locale, curr.locale);
  }

  /** What megasas_register_aen ends with. */
  datatype AenResult =
    | AlreadyRegistered              // the running subscription covers the request: return 0
    | AbortFailed                    // the old subscription could not be aborted: its error is returned
    | NoMemory                       // no free command: -ENOMEM
    | SlotReturned(sub: ClassLocale) // the old subscription is still set after the abort: the new frame is dropped
    | Issued(sub: ClassLocale)       // a new EVENT_WAIT frame is fired with ToWord(sub) in mbox.w[1]

  /**
   * megasas_register_aen, from the running subscription (read from the
   * mailbox word of aen_cmd, if there is one) and the requested one (the
   * class_locale_word argument, read through FromWord). The outcome of the
   * blocking abort, whether a free command exists and whether the abort's
   * completion cleared aen_cmd are inputs: they are decided by code that
   * runs while this caller sleeps.
   */
  function RegisterAen(prev: Option<ClassLocale>, curr: ClassLocale, abortOk: bool, slotFree: bool, aenStillSet: bool): (r: AenResult)
    ensures r.AlreadyRegistered? <==> prev.Some? && Subsumes(prev.value, curr)
    ensures r.AbortFailed? ==> prev.Some? && !abortOk
    ensures r.SlotReturned? ==> prev.Some? && aenStillSet
    ensures r.NoMemory? <==> !slotFree && !r.AlreadyRegistered? && !r.AbortFailed?
    ensures (r.Issued? || r.SlotReturned?) ==> Subsumes(r.sub, curr) && r.sub.reserved == curr.reserved
    ensures (r.Issued? || r.SlotReturned?) && prev.Some? ==> Subsumes(r.sub, prev.value)
    ensures r.Issued? && prev.None? ==> r.sub == curr
    ensures prev.None? ==> (r.Issued? <==> slotFree)
    ensures prev.Some? && !Subsumes(prev.value, curr) ==> (r.AbortFailed? <==> !abortOk)
    ensures prev.Some? && !Subsumes(prev.value, curr) && abortOk && slotFree ==> (r.SlotReturned? <==> aenStillSet)
    ensures (r.Issued? || r.SlotReturned?) && prev.Some? ==> r.sub == Merge(prev.value, curr)
  {
    match prev
    case None =>
      if !slotFree then NoMemory else Issued(curr)
    case Some(p) =>
      if Subsumes(p, curr) then AlreadyRegistered
      else if !abortOk then AbortFailed
      else if !slotFree then NoMemory
      else
        var m := Merge(p, curr);
        if aenStillSet then SlotReturned(m) else Issued(m)
  }
}

=== FILE: bit_math.dfy ===
/**
 * Bits of a 32-bit bitmap seen as a number below 2^32: bit k of x is the
 * parity of x / 2^k. Used for the buffer bitmap of the XOR offload, whose
 * scan shifts right one place at a time and clears the bit it found.
 */
module BitMath {
  const U32: nat := 0x1_0000_0000

  function Pow2(k: nat): (p: nat)
    ensures p >= 1
  {
    if k == 0 then 1 else 2 * Pow2(k - 1)
  }

  lemma Pow2Grows(a: nat, b: nat)
    requires a < b
    ensures Pow2(a) * 2 <= Pow2(b)
    decreases b
  {
    if b > a + 1 {
      Pow2Grows(a, b - 1);
    }
  }

  lemma Pow2At32()
    ensures Pow2(32) == U32
  {
    assert Pow2(2) == 4;
    PowSplit(2, 2);
    PowSplit(4, 4);
    PowSplit(8, 8);
    PowSplit(16, 16);
  }

  /** Bit k of x. */
  predicate Bit(x: nat, k: nat) {
    (x / Pow2(k)) % 2 == 1
  }

  /** Bits 0 .. k-1 of x are all clear. */
  predicate LowBitsClear(x: nat, k: nat) {
    x % Pow2(k) == 0
  }

  lemma DivUnique(x: nat, d: nat, q: nat, r: nat)
    requires d > 0 && x == q * d + r && r < d
    ensures x / d == q && x % d == r
  {
    var q0, r0 := x / d, x % d;
    if q0 < q {
      assert (q - q0) * d == q * d - q0 * d;
      MulAtLeast(q - q0, d);
    } else if q < q0 {
      assert (q0 - q) * d == q0 * d - q * d;
      MulAtLeast(q0 - q, d);
    }
  }

  lemma MulAtLeast(a: int, d: nat)
    requires a >= 1
    ensures a * d >= d
  {
    assert a * d == (a - 1) * d + d;
  }

  /** Shifting right by k and then by one is shifting right by k + 1. */
  lemma DivStep(x: nat, k: nat)
    ensures x / Pow2(k) / 2 == x / Pow2(k + 1)
  {
    var p := Pow2(k);
    assert Pow2(k + 1) == p * 2;
    var q, r := x / p, x % p;
    var q2, r2 := q / 2, q % 2;
    assert x == q2 * (p * 2) + (r2 * p + r);
    DivUnique(x, p * 2, q2, r2 * p + r);
  }

  /** A clear bit k on top of clear bits below it leaves bits 0 .. k clear. */
  lemma ClearStep(x: nat, k: nat)
    requires LowBitsClear(x, k) && (x / Pow2(k)) % 2 == 0
    ensures LowBitsClear(x, k + 1)
  {
    var p := Pow2(k);
    assert Pow2(k + 1) == p * 2;
    var q := x / p;
    assert x == q * p;
    assert x == (q / 2) * (p * 2);
    DivUnique(x, p * 2, q / 2, 0);
  }

  /** A number at least 2^k is at least the number of its lowest set bit; below 2^32 that bit is below 32. */
  lemma LowestBitBounds(x: nat, r: nat)
    requires Bit(x, r)
    ensures Pow2(r) <= x
    ensures x < U32 ==> r < 32
  {
    if x < Pow2(r) {
      DivUnique(x, Pow2(r), 0, x);
    }
    if x < U32 && r >= 32 {
      Pow2At32();
      if r > 32 {
        Pow2Grows(32, r);
      }
    }
  }

  /** No bit below r is set when the bits below r are clear. */
  lemma LowBitsClearMeansNoBit(x: nat, r: nat, j: nat)
    requires LowBitsClear(x, r) && j < r
    ensures !Bit(x, j)
  {
    var pr, pj := Pow2(r), Pow2(j);
    PowSplit(j, r - j);
    var t := x / pr;
    assert x == t * pr;
    assert pr == pj * Pow2(r - j);
    Pow2Even(r - j);
    var e := Pow2(r - j) / 2;
    assert x == (t * e * 2) * pj by {
      assert Pow2(r - j) == e * 2;
      assert x == t * (pj * (e * 2));
    }
    DivUnique(x, pj, t * e * 2, 0);
  }

  lemma Pow2Even(k: nat)
    requires k >= 1
    ensures Pow2(k) % 2 == 0
  {
  }

  lemma {:induction false} PowSplit(a: nat, b: nat)
    ensures Pow2(a + b) == Pow2(a) * Pow2(b)
    decreases b
  {
    if b > 0 {
      PowSplit(a, b - 1);
      assert Pow2(a + b) == 2 * Pow2(a + b - 1);
    }
  }

  /**
   * Taking away the lowest set bit r clears that bit and keeps every
   * other: this is `bitmap &= ~(1 << bit)` after the scan found `bit`.
   */
  lemma ClearLowest(x: nat, r: nat, j: nat)
    requires Bit(x, r) && LowBitsClear(x, r)
    ensures Pow2(r) <= x
    ensures Bit(x - Pow2(r), j) <==> Bit(x, j) && j != r
    ensures LowBitsClear(x - Pow2(r), r + 1)
  {
    LowestBitBounds(x, r);
    var m := ClearLowestSplit(x, r);
    if j < r {
      LowBitsClearMeansNoBit(x, r, j);
      LowBitsClearMeansNoBit(x - Pow2(r), r + 1, j);
    } else if j == r {
      ClearedBitIsClear(x, r, m);
    } else {
      HigherBitsKept(x, r, m, j);
    }
  }

  lemma ClearedBitIsClear(x: nat, r: nat, m: nat)
    requires x - Pow2(r) == m * Pow2(r + 1) && Pow2(r + 1) == Pow2(r) * 2 && x >= Pow2(r)
    ensures !Bit(x - Pow2(r), r)
  {
    var p := Pow2(r);
    assert x - p == (2 * m) * p;
    DivUnique(x - p, p, 2 * m, 0);
  }

  lemma HigherBitsKept(x: nat, r: nat, m: nat, j: nat)
    requires x == m * (Pow2(r) * 2) + Pow2(r) && Pow2(r + 1) == Pow2(r) * 2
    requires (x - Pow2(r)) / Pow2(r + 1) == m && r < j
    ensures Bit(x - Pow2(r), j) <==> Bit(x, j)
  {
    var p := Pow2(r);
    DivUnique(x, p * 2, m, p);
    SameAbove(x, x - p, r + 1, j);
  }

  /** With bit r the lowest set bit, x is an odd multiple of 2^r. */
  lemma ClearLowestSplit(x: nat, r: nat) returns (m: nat)
    requires Bit(x, r) && LowBitsClear(x, r)
    ensures x == m * (Pow2(r) * 2) + Pow2(r) && Pow2(r + 1) == Pow2(r) * 2
    ensures x - Pow2(r) == m * Pow2(r + 1) && LowBitsClear(x - Pow2(r), r + 1)
    ensures (x - Pow2(r)) / Pow2(r + 1) == m
  {
    var p := Pow2(r);
    var t := x / p;
    assert x == t * p;
    m := t / 2;
    assert t == 2 * m + 1;
    assert x == m * (p * 2) + p by {
      assert x == (2 * m + 1) * p;
    }
    DivUnique(x - p, p * 2, m, 0);
  }

  /** Two numbers with the same quotient by 2^k agree on every bit from k on. */
  lemma SameAbove(x: nat, y: nat, k: nat, j: nat)
    requires x / Pow2(k) == y / Pow2(k) && k <= j
    ensures Bit(x, j) <==> Bit(y, j)
    decreases j - k
  {
    if j > k {
      DivStep(x, k);
      DivStep(y, k);
      SameAbove(x, y, k + 1, j);
    }
  }

  /** `x & ~(1 << k)`: bit k cleared. */
  function ClearBit(x: nat, k: nat): (y: nat)
    ensures y <= x && (Bit(x, k) ==> y < x)
    ensures forall j :: Bit(y, j) <==> Bit(x, j) && j != k
  {
    if Bit(x, k) then
      LowestBitBounds(x, k);
      forall j ensures Bit(x - Pow2(k), j) <==> Bit(x, j) && j != k {
        ClearSetBit(x, k, j);
      }
      x - Pow2(k)
    else x
  }

  /** Taking 2^k away from a number with bit k set clears bit k and keeps the others. */
  lemma ClearSetBit(x: nat, k: nat, j: nat)
    requires Bit(x, k)
    ensures Pow2(k) <= x
    ensures Bit(x - Pow2(k), j) <==> Bit(x, j) && j != k
  {
    LowestBitBounds(x, k);
    var hi, lo := SplitAtSetBit(x, k);
    if j < k {
      LowBitsAgree(x, x - Pow2(k), k, j);
    } else if j > k {
      SameAboveAfterClear(x, k, hi, lo);
      SameAbove(x, x - Pow2(k), k + 1, j);
    }
  }

  /** A number with bit k set is an odd multiple of 2^k plus a remainder below 2^k; taking 2^k away leaves an even one. */
  lemma SplitAtSetBit(x: nat, k: nat) returns (hi: nat, lo: nat)
    requires Bit(x, k) && Pow2(k) <= x
    ensures lo < Pow2(k) && x == (2 * hi + 1) * Pow2(k) + lo && Pow2(k + 1) == Pow2(k) * 2
    ensures (x - Pow2(k)) % Pow2(k) == x % Pow2(k) && !Bit(x - Pow2(k), k)
  {
    var p := Pow2(k);
    hi, lo := x / p / 2, x % p;
    assert x / p == 2 * hi + 1;
    assert x == (2 * hi + 1) * p + lo;
    assert x - p == (2 * hi) * p + lo;
    DivUnique(x - p, p, 2 * hi, lo);
  }

  lemma SameAboveAfterClear(x: nat, k: nat, hi: nat, lo: nat)
    requires lo < Pow2(k) && x == (2 * hi + 1) * Pow2(k) + lo && Pow2(k + 1) == Pow2(k) * 2
    ensures x / Pow2(k + 1) == hi && (x - Pow2(k)) / Pow2(k + 1) == hi
  {
    var p := Pow2(k);
    assert x == hi * (p * 2) + (p + lo);
    DivUnique(x, p * 2, hi, p + lo);
    assert x - p == hi * (p * 2) + lo;
    DivUnique(x - p, p * 2, hi, lo);
  }

  /** Bits below k depend only on the remainder by 2^k. */
  lemma LowBitsAgree(x: nat, y: nat, k: nat, j: nat)
    requires x % Pow2(k) == y % Pow2(k) && j < k
    ensures Bit(x, j) <==> Bit(y, j)
  {
    LowBitFromRemainder(x, k, j);
    LowBitFromRemainder(y, k, j);
  }

  lemma LowBitFromRemainder(x: nat, k: nat, j: nat)
    requires j < k
    ensures Bit(x, j) <==> Bit(x % Pow2(k), j)
  {
    var jj := Pow2(j);
    var c := EvenMultiple(x, k, j);
    var l := x % Pow2(k);
    DivAddMultiple(c, jj, l);
    DivAddMultiple(c / 2, 2, l / jj);
  }

  /** x is an even multiple of 2^j plus its remainder by 2^k, for j < k. */
  lemma EvenMultiple(x: nat, k: nat, j: nat) returns (c: nat)
    requires j < k
    ensures c % 2 == 0 && x == c * Pow2(j) + x % Pow2(k) && c == (c / 2) * 2
  {
    var h := PowFactor(k, j);
    var pk := Pow2(k);
    var a: nat := x / pk;
    var l := x % pk;
    assert x == a * pk + l;
    c := Regroup(x, a, l, pk, Pow2(j), h);
  }

  /** For j < k, 2^k is 2^j times an even number. */
  lemma PowFactor(k: nat, j: nat) returns (h: nat)
    requires j < k
    ensures Pow2(k) == Pow2(j) * (h * 2)
  {
    var e := Pow2(k - j);
    Pow2Even(k - j);
    h := e / 2;
    assert e == h * 2;
    PowSplit(j, k - j);
  }

  lemma Regroup(x: nat, a: nat, l: nat, pk: nat, jj: nat, h: nat) returns (c: nat)
    requires x == a * pk + l && pk == jj * (h * 2)
    ensures x == c * jj + l && c % 2 == 0 && c == (c / 2) * 2
  {
    var ah: nat := a * h;
    assert a * (jj * (h * 2)) == (ah * 2) * jj;
    c := ah * 2;
  }

  lemma DivAddMultiple(c: nat, d: nat, l: nat)
    requires d > 0
    ensures (c * d + l) / d == c + l / d && (c * d + l) % d == l % d
  {
    assert c * d + l == (c + l / d) * d + l % d;
    DivUnique(c * d + l, d, c + l / d, l % d);
  }
}

=== FILE: cmd_pool.dfy ===
/**
 * The MFI command pool: the array of command slots (instance->cmd_list) and
 * the free list (instance->cmd_pool) threaded through them.
 *
 * The free list is kept as a sequence of slot indices with the exact list
 * order of the driver; the properties are stated on its multiset, because
 * megasas_return_cmd inserts a slot after the current first element rather
 * than at either end.
 */
module CmdPool {
  import opened Wrappers
  import opened MfiDefs
  import opened Cmds

  datatype Pool = Pool(cmds: seq<Cmd>, free: seq<nat>)

  /** Every slot knows its own index, and the free list names distinct existing slots. */
  predicate WellFormed(p: Pool) {
    && (forall i :: 0 <= i < |p.cmds| ==> p.cmds[i].index == i)
    && (forall x :: x in p.free ==> x < |p.cmds|)
    && Distinct(p.free)
  }

  predicate Distinct(s: seq<nat>) {
    forall j, k :: 0 <= j < k < |s| ==> s[j] != s[k]
  }

  predicate IsFree(p: Pool, i: nat) {
    i in p.free
  }

  /**
   * megasas_alloc_cmds: slot i gets index i and the i-th frame of the frame
   * pool, and is appended to the free list, so the list holds 0..n-1 in order.
   */
  method AllocCmds(frameAddrs: seq<bv64>) returns (p: Pool)
    ensures WellFormed(p)
    ensures |p.cmds| == |frameAddrs| && |p.free| == |frameAddrs|
    ensures forall k :: 0 <= k < |p.free| ==> p.free[k] == k
    ensures forall i :: 0 <= i < |p.cmds| ==> p.cmds[i] == BlankCmd(i, frameAddrs[i])
  {
    var cmds: seq<Cmd> := [];
    var free: seq<nat> := [];
    var i := 0;
    while i < |frameAddrs|
      invariant 0 <= i <= |frameAddrs|
      invariant |cmds| == i && |free| == i
      invariant forall k :: 0 <= k < i ==> free[k] == k
      invariant forall k :: 0 <= k < i ==> cmds[k] == BlankCmd(k, frameAddrs[k])
    {
      cmds := cmds + [BlankCmd(i, frameAddrs[i])];
      free := free + [i];
      i := i + 1;
    }
    p := Pool(cmds, free);
  }

  /**
   * megasas_get_cmd: the head of the free list, or NULL when it is empty.
   * The returned slot is no longer free and nothing else changes.
   */
  function GetCmd(p: Pool): (r: (Pool, Option<nat>))
    requires WellFormed(p)
    ensures WellFormed(r.0)
    ensures r.0.cmds == p.cmds
    ensures r.1.None? <==> |p.free| == 0
    ensures r.1.None? ==> r.0 == p
    ensures r.1.Some? ==> && IsFree(p, r.1.value) && !IsFree(r.0, r.1.value)
                          && r.1.value < |p.cmds|
                          && multiset(r.0.free) + multiset{r.1.value} == multiset(p.free)
  {
    if |p.free| == 0 then (p, None)
    else
      assert p.free == [p.free[0]] + p.free[1..];
      assert forall x :: x in p.free[1..] ==> x in p.free;
      (p.(free := p.free[1..]), Some(p.free[0]))
  }

  /** Inserts `i` after the first element of the free list, or as its only element. */
  function InsertAfterHead(free: seq<nat>, i: nat): (r: seq<nat>)
    ensures multiset(r) == multiset(free) + multiset{i}
    ensures |free| > 0 ==> r[0] == free[0]
    ensures |free| == 0 ==> r == [i]
    ensures forall x :: x in r <==> x in free || x == i
    ensures Distinct(free) && i !in free ==> Distinct(r)
  {
    if |free| == 0 then [i]
    else
      assert free == [free[0]] + free[1..];
      var r := [free[0], i] + free[1..];
      assert forall x :: x in r <==> x in free || x == i by {
        assert forall x :: x in r <==> x in multiset(r);
        assert forall x :: x in free <==> x in multiset(free);
      }
      r
  }

  /** The slot as megasas_return_cmd leaves it: no request, no frames, no flags. */
  function ResetSlot(c: Cmd, fusion: bool, resetDevices: bool): Cmd {
    c.(scmd := None, frameCount := 0, flags := 0,
       frame := if !fusion && resetDevices then c.frame.(cmd := CMD_INVALID) else c.frame)
  }

  /**
   * megasas_return_cmd. A polled-mode DCMD slot is left alone. Otherwise the
   * slot's request, frame count and flags are cleared (and its frame marked
   * INVALID on a non-fusion controller booted with reset_devices) and the
   * slot is free again. The caller hands back a slot it holds, not a free one.
   */
  function ReturnCmd(p: Pool, i: nat, fusion: bool, resetDevices: bool): (r: Pool)
    requires WellFormed(p)
    requires i < |p.cmds| && !IsFree(p, i)
    ensures WellFormed(r)
    ensures |r.cmds| == |p.cmds|
    ensures forall x :: x in r.free <==> x in p.free || (x == i && p.cmds[i].flags & DRV_DCMD_POLLED_MODE == 0)
    ensures p.cmds[i].flags & DRV_DCMD_POLLED_MODE != 0 ==> r == p
    ensures p.cmds[i].flags & DRV_DCMD_POLLED_MODE == 0 ==>
              && IsFree(r, i)
              && multiset(r.free) == multiset(p.free) + multiset{i}
              && |r.cmds| == |p.cmds|
              && r.cmds[i].scmd.None? && r.cmds[i].frameCount == 0 && r.cmds[i].flags == 0
              && r.cmds[i].syncCmd == p.cmds[i].syncCmd
              && r.cmds[i].statusDrv == p.cmds[i].statusDrv
              && r.cmds[i].frameAddr == p.cmds[i].frameAddr
              && r.cmds[i].frame.cmd == (if !fusion && resetDevices then CMD_INVALID else p.cmds[i].frame.cmd)
              && r.cmds[i].frame.cmdStatus == p.cmds[i].frame.cmdStatus
              && (forall j :: 0 <= j < |p.cmds| && j != i ==> r.cmds[j] == p.cmds[j])
  {
    if p.cmds[i].flags & DRV_DCMD_POLLED_MODE != 0 then p
    else
      var free' := InsertAfterHead(p.free, i);
      Pool(p.cmds[i := ResetSlot(p.cmds[i], fusion, resetDevices)], free')
  }

  /**
   * `n` successive calls of megasas_get_cmd, keeping the slots that were
   * handed out: never more than were free, never one twice, and between
   * them and the remaining free list exactly the slots that were free.
   */
  function GetN(p: Pool, n: nat): (r: (Pool, seq<nat>))
    requires WellFormed(p)
    ensures WellFormed(r.0) && r.0.cmds == p.cmds
    ensures |r.1| == if n <= |p.free| then n else |p.free|
    ensures multiset(r.1) + multiset(r.0.free) == multiset(p.free)
    ensures Distinct(r.1)
    ensures forall x :: x in r.1 ==> x !in r.0.free
    decreases n
  {
    if n == 0 then (p, [])
    else
      var (q, got) := GetCmd(p);
      if got.None? then (q, [])
      else
        var (q', taken) := GetN(q, n - 1);
        ConsTaken(got.value, taken, q.free, q'.free);
        (q', [got.value] + taken)
  }

  /** Putting a slot that was no longer free in front of slots taken after it keeps them distinct. */
  lemma ConsTaken(x: nat, taken: seq<nat>, before: seq<nat>, after: seq<nat>)
    requires multiset(taken) + multiset(after) == multiset(before)
    requires x !in before && Distinct(taken)
    ensures Distinct([x] + taken)
    ensures x !in after
  {
    assert forall y :: y in after ==> y in multiset(before);
    forall j, k | 0 <= j < k < |[x] + taken| ensures ([x] + taken)[j] != ([x] + taken)[k] {
      assert ([x] + taken)[k] == taken[k - 1];
      if j == 0 {
        assert taken[k - 1] in multiset(taken);
        assert taken[k - 1] in multiset(before);
      } else {
        assert ([x] + taken)[j] == taken[j - 1];
      }
    }
  }

  /** Handing back a slot just taken restores the free multiset. */
  lemma GetThenReturn(p: Pool, fusion: bool, resetDevices: bool)
    requires WellFormed(p) && |p.free| > 0
    requires forall k :: k in p.free ==> p.cmds[k].flags & DRV_DCMD_POLLED_MODE == 0
    ensures var (q, got) := GetCmd(p);
            && got == Some(p.free[0])
            && multiset(ReturnCmd(q, got.value, fusion, resetDevices).free) == multiset(p.free)
  {
  }

  /** A slot handed back is not the next one taken unless the list was empty: it goes in second place. */
  lemma ReturnThenGet(p: Pool, i: nat, fusion: bool, resetDevices: bool)
    requires WellFormed(p) && i < |p.cmds| && !IsFree(p, i)
    requires p.cmds[i].flags & DRV_DCMD_POLLED_MODE == 0
    ensures GetCmd(ReturnCmd(p, i, fusion, resetDevices)).1 == Some(if |p.free| == 0 then i else p.free[0])
  {
  }
}

=== FILE: command.dfy ===
/**
 * One MFI command slot (struct megasas_cmd) and the parts of its DMA frame
 * the command engine reads or writes (the common frame header, the DCMD
 * opcode and mailbox bytes, and the abort frame's target).
 */
module Cmds {
  import opened Wrappers
  import opened MfiDefs

  /** The fields of the MFI frame the driver inspects. */
  datatype Frame = Frame(
    cmd: bv8,            // hdr.cmd: MFI_CMD_*
    cmdStatus: bv8,      // hdr.cmd_status, written by the firmware
    scsiStatus: bv8,     // hdr.scsi_status
    flags: bv16,         // hdr.flags
    opcode: bv32,        // dcmd.opcode
    mbox0: bv8,          // dcmd.mbox.b[0]
    mbox1: bv8,          // dcmd.mbox.b[1]
    abortContext: nat,   // abort.abort_context
    abortAddr: bv64)     // abort.abort_mfi_phys_addr_{lo,hi}

  /** A SCSI request from the mid-layer (struct scsi_cmnd), reduced to its addressing and CDB. */
  datatype Request = Request(tag: nat, channel: nat, id: nat, lun: nat, cdb: seq<bv8>)

  /** A command slot. `syncCmd` is the u8 sync_cmd flag, which the driver only ever sets to 0 or 1. */
  datatype Cmd = Cmd(
    index: nat,
    syncCmd: bool,
    statusDrv: bv8,      // cmd_status_drv
    abortAen: bool,
    retry: bv8,          // retry_for_fw_reset (u8)
    flags: bv8,          // driver-private flags (DRV_DCMD_POLLED_MODE)
    scmd: Option<Request>,
    frameCount: nat,
    frameAddr: bv64,     // frame_phys_addr
    frame: Frame)

  const ZeroFrame: Frame := Frame(0, 0, 0, 0, 0, 0, 0, 0, 0)

  /** A slot as megasas_alloc_cmds leaves it: zeroed, with its index and frame address. */
  function BlankCmd(i: nat, addr: bv64): (c: Cmd)
    ensures c.index == i && c.frameAddr == addr
    ensures c.scmd.None? && !c.syncCmd && c.frameCount == 0 && c.flags == 0
  {
    Cmd(i, false, 0, false, 0, 0, None, 0, addr, ZeroFrame)
  }

  /** A slot is outstanding in the sense of the reset path: an internal synchronous command or a SCSI command. */
  predicate Outstanding(c: Cmd) {
    c.syncCmd || c.scmd.Some?
  }
}

=== FILE: completion.dfy ===
/**
 * Completion of MFI commands: the firmware-status to SCSI-result mapping,
 * megasas_complete_cmd with its fw_outstanding accounting, and the reply
 * ring drain megasas_complete_cmd_dpc.
 */
module Completion {
  import opened Wrappers
  import opened MfiDefs
  import opened Cmds
  import opened CmdPool
  import opened Instance

  // Host bytes and other SCSI mid-layer constants (include/scsi).
  const DID_OK: bv32 := 0x00
  const DID_NO_CONNECT: bv32 := 0x01
  const DID_BAD_TARGET: bv32 := 0x04
  const DID_ERROR: bv32 := 0x07
  const DID_REQUEUE: bv32 := 0x0d
  const DRIVER_SENSE: bv32 := 0x08
  const SAM_STAT_CHECK_CONDITION: bv8 := 0x02

  /** The four bytes of a SCSI result word. */
  function StatusByte(r: bv32): bv32 { r & 0xFF }
  function MsgByte(r: bv32): bv32 { (r >> 8) & 0xFF }
  function HostByte(r: bv32): bv32 { (r >> 16) & 0xFF }
  function DriverByte(r: bv32): bv32 { r >> 24 }

  /** Firmware statuses whose SCSI status byte is passed through to the mid-layer. */
  predicate PassesScsiStatus(s: bv8) {
    s == STAT_SCSI_IO_FAILED || s == STAT_LD_INIT_IN_PROGRESS || s == STAT_SCSI_DONE_WITH_ERROR
  }

  /**
   * The result word megasas_complete_cmd gives a SCSI command that completed
   * with firmware status `s`: DID_OK for success and for a SCSI error the
   * target reported itself, DID_BAD_TARGET for an offline or missing device,
   * DID_ERROR for everything else; the SCSI status byte is passed through for
   * the three SCSI-level failures, and a CHECK CONDITION reported with
   * DONE_WITH_ERROR is flagged DRIVER_SENSE.
   */
  function ScsiResult(s: bv8, scsiStatus: bv8): (r: bv32)
    ensures HostByte(r) == DID_OK <==> s == STAT_OK || s == STAT_SCSI_DONE_WITH_ERROR
    ensures HostByte(r) == DID_BAD_TARGET <==> s == STAT_LD_OFFLINE || s == STAT_DEVICE_NOT_FOUND
    ensures HostByte(r) == DID_ERROR <==>
              !(s == STAT_OK || s == STAT_SCSI_DONE_WITH_ERROR || s == STAT_LD_OFFLINE || s == STAT_DEVICE_NOT_FOUND)
    ensures StatusByte(r) == (if PassesScsiStatus(s) then scsiStatus as bv32 else 0)
    ensures MsgByte(r) == 0
    ensures DriverByte(r) == (if s == STAT_SCSI_DONE_WITH_ERROR && scsiStatus == SAM_STAT_CHECK_CONDITION
                              then DRIVER_SENSE else 0)
  {
    if s == STAT_OK then ResultWord(DID_OK as bv8, 0, 0)
    else if s == STAT_SCSI_IO_FAILED || s == STAT_LD_INIT_IN_PROGRESS then ResultWord(DID_ERROR as bv8, scsiStatus, 0)
    else if s == STAT_SCSI_DONE_WITH_ERROR then
      ResultWord(DID_OK as bv8, scsiStatus, if scsiStatus == SAM_STAT_CHECK_CONDITION then DRIVER_SENSE as bv8 else 0)
    else if s == STAT_LD_OFFLINE || s == STAT_DEVICE_NOT_FOUND then ResultWord(DID_BAD_TARGET as bv8, 0, 0)
    else ResultWord(DID_ERROR as bv8, 0, 0)
  }

  /** The result word with driver byte `driver`, host byte `host`, a zero message byte and status byte `status`. */
  function ResultWord(host: bv8, status: bv8, driver: bv8): (r: bv32)
    ensures HostByte(r) == host as bv32 && StatusByte(r) == status as bv32
    ensures MsgByte(r) == 0 && DriverByte(r) == driver as bv32
  {
    ((driver as bv32) << 24) | ((host as bv32) << 16) | status as bv32
  }

  /** The word of an aborted or otherwise overridden completion: alt_status in the host byte. */
  function AltResult(alt: bv8): (r: bv32)
    ensures HostByte(r) == alt as bv32 && StatusByte(r) == 0 && MsgByte(r) == 0 && DriverByte(r) == 0
  {
    (alt as bv32) << 16
  }

  /** The SCSI paths of megasas_complete_cmd: LD read/write, and PD/LD SCSI I/O not issued through an ioctl. */
  predicate IsScsiCompletion(c: Cmd) {
    || c.frame.cmd == CMD_LD_READ || c.frame.cmd == CMD_LD_WRITE
    || ((c.frame.cmd == CMD_PD_SCSI_IO || c.frame.cmd == CMD_LD_SCSI_IO) && !c.syncCmd)
  }

  predicate IsDcmdClass(op: bv8) {
    op == CMD_SMP || op == CMD_STP || op == CMD_DCMD
  }

  predicate IsLdMapUpdate(c: Cmd) {
    IsDcmdClass(c.frame.cmd) && c.frame.opcode == DCMD_LD_MAP_GET_INFO && c.frame.mbox1 == 1
  }

  predicate IsPdSeqUpdate(c: Cmd) {
    IsDcmdClass(c.frame.cmd) && !IsLdMapUpdate(c)
    && c.frame.opcode == DCMD_SYSTEM_PD_MAP_GET_INFO && c.frame.mbox0 == 1
  }

  /** The parts of the state completion never touches. */
  predicate SameFrame(a: Adapter, b: Adapter) {
    && b.hw == a.hw && b.ring == a.ring && b.health == a.health
    && |b.pool.cmds| == |a.pool.cmds| && b.pending == a.pending
  }

  /** A slot that is on neither the free list nor the pending list: the only kind a completion may hand back. */
  predicate Held(a: Adapter, i: nat) {
    !IsFree(a.pool, i) && i !in a.pending
  }

  /** megasas_return_cmd called from a completion: only the pool changes. */
  function Release(a: Adapter, i: nat): (r: Adapter)
    requires Valid(a) && i < |a.pool.cmds| && Held(a, i)
    ensures Valid(r) && SameFrame(a, r)
    ensures r.pool == ReturnCmd(a.pool, i, a.hw.fusion, a.hw.resetDevices)
    ensures r.pool.cmds[i].retry == a.pool.cmds[i].retry || IsFree(r.pool, i)
    ensures r == a.(pool := r.pool)
  {
    a.(pool := ReturnCmd(a.pool, i, a.hw.fusion, a.hw.resetDevices))
  }

  /** The SCSI completion path: hand the request back with its result, count it off, free the slot. */
  function CompleteScsi(a: Adapter, i: nat, alt: bv8): (r: Outcome<Adapter>)
    requires Valid(a) && i < |a.pool.cmds|
    ensures r.Halted? <==> a.pool.cmds[i].scmd.None? || !Held(a, i)
    ensures a.pool.cmds[i].scmd.None? ==> r == Halted(NullRequest(i))
    ensures r.Done? ==>
              var c := a.pool.cmds[i];
              && Valid(r.value) && SameFrame(a, r.value)
              && r.value.fwOutstanding == a.fwOutstanding - 1
              && r.value.done == a.done + [Completion(c.scmd.value,
                   if alt != 0 then AltResult(alt) else ScsiResult(c.frame.cmdStatus, c.frame.scsiStatus))]
              && r.value.internal == a.internal
              && r.value.pool == ReturnCmd(a.pool, i, a.hw.fusion, a.hw.resetDevices)
    ensures r.Done? ==> r.value.pool.cmds[i].retry == a.pool.cmds[i].retry || IsFree(r.value.pool, i)
  {
    var c := a.pool.cmds[i];
    if c.scmd.None? then Halted(NullRequest(i))
    else if !Held(a, i) then Halted(ListCorruption(i))
    else
      var result := if alt != 0 then AltResult(alt) else ScsiResult(c.frame.cmdStatus, c.frame.scsiStatus);
      Done(Release(a.(fwOutstanding := a.fwOutstanding - 1, done := a.done + [Completion(c.scmd.value, result)]), i))
  }

  /**
   * The LD map update: clears map_update_cmd and frees the slot; a status of
   * 0 bumps map_id, and anything but NOT_FOUND goes on to validate and sync
   * the map. The path writes through the fusion context unconditionally.
   */
  function CompleteLdMap(a: Adapter, i: nat): (r: Outcome<Adapter>)
    requires Valid(a) && i < |a.pool.cmds|
    ensures !a.hw.fusion ==> r == Halted(NullFusionContext)
    ensures r.Done? ==> Valid(r.value) && SameFrame(a, r.value)
    ensures r.Done? ==> r.value.fwOutstanding == a.fwOutstanding && r.value.done == a.done
    ensures r.Done? ==> r.value.internal.mapUpdateCmd.None?
    ensures r.Done? && a.pool.cmds[i].frame.cmdStatus == STAT_OK ==> r.value.internal.mapId == a.internal.mapId + 1
    ensures r.Done? && a.pool.cmds[i].frame.cmdStatus != STAT_OK ==> r.value.internal.mapId == a.internal.mapId
    ensures r.Done? ==> (r.value.log == a.log <==> a.pool.cmds[i].frame.cmdStatus == STAT_NOT_FOUND)
    ensures r.Done? ==> r.value.pool.cmds[i].retry == a.pool.cmds[i].retry || IsFree(r.value.pool, i)
  {
    var status := a.pool.cmds[i].frame.cmdStatus;
    var m := a.internal;
    if !a.hw.fusion then Halted(NullFusionContext)
    else if !Held(a, i) then Halted(ListCorruption(i))
    else
      var a1 := Release(a.(internal := m.(mapUpdateCmd := None,
                                          mapId := if status == STAT_OK then m.mapId + 1 else m.mapId)), i);
      if status == STAT_NOT_FOUND then Done(a1)
      else Done(Emit(a1, SyncMapInfo))
  }

  /** The PD sequence-map update: clears jbod_seq_cmd, frees the slot, and on success bumps pd_seq_map_id and re-registers. */
  function CompletePdSeq(a: Adapter, i: nat): (r: Outcome<Adapter>)
    requires Valid(a) && i < |a.pool.cmds|
    ensures r.Halted? <==> !Held(a, i)
    ensures r.Done? ==> Valid(r.value) && SameFrame(a, r.value)
    ensures r.Done? ==> r.value.fwOutstanding == a.fwOutstanding && r.value.done == a.done
    ensures r.Done? ==> r.value.internal.jbodSeqCmd.None?
    ensures r.Done? && a.pool.cmds[i].frame.cmdStatus == STAT_OK ==>
              r.value.internal.pdSeqMapId == a.internal.pdSeqMapId + 1 && r.value.log == a.log + [SyncPdSeqNum]
    ensures r.Done? && a.pool.cmds[i].frame.cmdStatus != STAT_OK ==>
              r.value.internal.pdSeqMapId == a.internal.pdSeqMapId && r.value.log == a.log
    ensures r.Done? ==> r.value.pool.cmds[i].retry == a.pool.cmds[i].retry || IsFree(r.value.pool, i)
  {
    var status := a.pool.cmds[i].frame.cmdStatus;
    var m := a.internal;
    if !Held(a, i) then Halted(ListCorruption(i))
    else if status == STAT_OK then
      Done(Emit(Release(a.(internal := m.(jbodSeqCmd := None, pdSeqMapId := m.pdSeqMapId + 1)), i), SyncPdSeqNum))
    else Done(Release(a.(internal := m.(jbodSeqCmd := None)), i))
  }

  /** The DCMD/SMP/STP path: map updates, PD sequence updates, AEN, and internal commands. */
  function CompleteDcmd(a: Adapter, i: nat): (r: Outcome<Adapter>)
    requires Valid(a) && i < |a.pool.cmds|
    ensures r.Done? ==> Valid(r.value) && SameFrame(a, r.value)
    ensures r.Done? ==> r.value.fwOutstanding == a.fwOutstanding && r.value.done == a.done
    ensures r.Done? ==> r.value.pool.cmds[i].retry == a.pool.cmds[i].retry || IsFree(r.value.pool, i)
    ensures var c := a.pool.cmds[i];
            !IsLdMapUpdate(c) && !IsPdSeqUpdate(c) && c.frame.opcode != DCMD_CTRL_EVENT_WAIT ==>
              r.Done? && r.value.pool.free == a.pool.free
              && r.value.pool.cmds[i] == c.(statusDrv := c.frame.cmdStatus)
  {
    var c := a.pool.cmds[i];
    if IsLdMapUpdate(c) then CompleteLdMap(a, i)
    else if IsPdSeqUpdate(c) then CompletePdSeq(a, i)
    else if c.frame.opcode == DCMD_CTRL_EVENT_WAIT then Done(Emit(a, ServiceAen(i)))
    else Done(SetCmd(a, i, c.(statusDrv := c.frame.cmdStatus)))
  }

  /**
   * megasas_complete_cmd(instance, cmd, alt_status) for slot `i`. The slot's
   * reset-retry counter is cleared in every case; only the SCSI paths hand a
   * request back and decrement fw_outstanding; an internal command records
   * the firmware status for its waiter; an abort frame wakes its waiter with
   * status 0.
   */
  function CompleteCmd(a: Adapter, i: nat, alt: bv8): (r: Outcome<Adapter>)
    requires Valid(a) && i < |a.pool.cmds|
    ensures r.Done? ==> Valid(r.value) && SameFrame(a, r.value)
    ensures r.Done? && IsScsiCompletion(a.pool.cmds[i]) ==>
              && r.value.fwOutstanding == a.fwOutstanding - 1
              && |r.value.done| == |a.done| + 1
              && a.pool.cmds[i].scmd.Some?
              && r.value.done[|a.done|].req == a.pool.cmds[i].scmd.value
    ensures r.Done? && !IsScsiCompletion(a.pool.cmds[i]) ==>
              r.value.fwOutstanding == a.fwOutstanding && r.value.done == a.done
    ensures r.Done? ==> r.value.done[..|a.done|] == a.done
    ensures r.Done? ==> r.value.pool.cmds[i].retry == 0 || IsFree(r.value.pool, i)
  {
    var a0 := ClearRetry(a, i);
    var c := a0.pool.cmds[i];
    var op := c.frame.cmd;
    if op == CMD_INVALID then Done(a0)
    else if (op == CMD_PD_SCSI_IO || op == CMD_LD_SCSI_IO) && c.syncCmd then
      Done(WakeWaiter(a0, i, c.frame.cmdStatus))
    else if IsScsiCompletion(c) then CompleteScsi(a0, i, alt)
    else if IsDcmdClass(op) then CompleteDcmd(a0, i)
    else if op == CMD_ABORT && c.syncCmd then Done(WakeWaiter(a0, i, 0))
    else Done(a0)
  }

  /** megasas_complete_cmd changes no command slot but its own. */
  lemma CompleteCmdTouchesOnlySlot(a: Adapter, i: nat, alt: bv8)
    requires Valid(a) && i < |a.pool.cmds|
    ensures var r := CompleteCmd(a, i, alt);
            r.Done? ==> forall j :: 0 <= j < |a.pool.cmds| && j != i ==> r.value.pool.cmds[j] == a.pool.cmds[j]
  {
  }

  /** cmd->retry_for_fw_reset = 0, done first for every completion. */
  function ClearRetry(a: Adapter, i: nat): (r: Adapter)
    requires Valid(a) && i < |a.pool.cmds|
    ensures Valid(r) && SameFrame(a, r)
    ensures r.pool.free == a.pool.free
    ensures r.pool.cmds[i] == a.pool.cmds[i].(retry := 0)
    ensures r.fwOutstanding == a.fwOutstanding && r.done == a.done
  {
    SetCmd(a, i, a.pool.cmds[i].(retry := 0))
  }

  /** Hands an internal command's status to the thread sleeping on it: sync_cmd is cleared. */
  function WakeWaiter(a: Adapter, i: nat, status: bv8): (r: Adapter)
    requires Valid(a) && i < |a.pool.cmds|
    ensures Valid(r) && SameFrame(a, r)
    ensures r.pool.free == a.pool.free
    ensures r.pool.cmds[i] == a.pool.cmds[i].(syncCmd := false, statusDrv := status)
    ensures r.fwOutstanding == a.fwOutstanding && r.done == a.done
  {
    SetCmd(a, i, a.pool.cmds[i].(syncCmd := false, statusDrv := status))
  }

  /** Ring slot `j` places after `c` in a ring of `n` slots. */
  function RingAt(c: nat, j: nat, n: nat): (r: nat)
    requires c < n && j < n
    ensures r < n
  {
    if c + j < n then c + j else c + j - n
  }

  /** The ring index after `c`: megasas_complete_cmd_dpc wraps at max_fw_cmds + 1. */
  function Next(c: nat, n: nat): (r: nat)
    requires c < n
    ensures r < n
    ensures n > 1 ==> r == RingAt(c, 1, n)
  {
    if c + 1 == n then 0 else c + 1
  }

  /** How many entries the consumer must step over to reach the producer. */
  function Dist(c: nat, p: nat, n: nat): (d: nat)
    requires c < n && p < n
    ensures d < n
    ensures RingAt(c, d, n) == p
    ensures d == 0 <==> c == p
  {
    if c <= p then p - c else p + n - c
  }

  /** The contexts between consumer and producer, in ring order: the reference for the drain. */
  function Window(q: seq<nat>, c: nat, p: nat): (w: seq<nat>)
    requires c < |q| && p < |q|
    ensures |w| == Dist(c, p, |q|)
  {
    if c <= p then q[c..p] else q[c..] + q[..p]
  }

  /** Entry `j` of the window is ring slot consumer + j, wrapping. */
  lemma WindowAt(q: seq<nat>, c: nat, p: nat, j: nat)
    requires c < |q| && p < |q| && j < Dist(c, p, |q|)
    ensures Window(q, c, p)[j] == q[RingAt(c, j, |q|)]
  {
  }

  /** megasas_complete_cmd(.., DID_OK) for each context in turn; a context past max_fw_cmds is a BUG(). */
  function CompleteAll(a: Adapter, ctxs: seq<nat>): (r: Outcome<Adapter>)
    requires Valid(a)
    ensures r.Done? ==> Valid(r.value) && SameFrame(a, r.value)
    ensures r.Done? ==> |r.value.done| >= |a.done| && r.value.done[..|a.done|] == a.done
    ensures r.Done? ==> r.value.fwOutstanding + |r.value.done| == a.fwOutstanding + |a.done|
    decreases |ctxs|
  {
    if |ctxs| == 0 then Done(a)
    else if ctxs[0] >= |a.pool.cmds| then Halted(ContextOutOfRange(ctxs[0]))
    else
      var a1 :- CompleteCmd(a, ctxs[0], DID_OK as bv8);
      CompleteAll(a1, ctxs[1..])
  }

  /** The loop of megasas_complete_cmd_dpc from consumer `c` up to producer `p`. */
  function Drain(a: Adapter, c: nat, p: nat): (r: Outcome<Adapter>)
    requires Valid(a) && c < |a.ring.queue| && p < |a.ring.queue|
    ensures r.Done? ==> Valid(r.value) && SameFrame(a, r.value)
    decreases Dist(c, p, |a.ring.queue|)
  {
    if c == p then Done(a)
    else
      var ctx := a.ring.queue[c];
      if ctx >= |a.pool.cmds| then Halted(ContextOutOfRange(ctx))
      else
        var a1 :- CompleteCmd(a, ctx, DID_OK as bv8);
        assert Dist(Next(c, |a.ring.queue|), p, |a.ring.queue|) < Dist(c, p, |a.ring.queue|);
        Drain(a1, Next(c, |a.ring.queue|), p)
  }

  /** The calls megasas_complete_cmd_dpc makes after the drain: CPX requests when supported, then the queue-depth check. */
  function DpcTail(hw: Hw): seq<Event> {
    (if hw.cpxSupported then [HandleCpxRequests] else []) + [RestoreQueueDepth]
  }

  /**
   * megasas_complete_cmd_dpc: nothing is done once the adapter is declared
   * dead. Otherwise every reply between consumer and producer is completed,
   * the consumer index is set to the producer's, and the tail calls follow.
   * With the two indices equal nothing is read at all; a consumer outside
   * the ring is an out-of-bounds read, and a producer outside it with the
   * consumer inside is never met by the wrapping consumer.
   */
  function CompleteCmdDpc(a: Adapter): (r: Outcome<Adapter>)
    requires Valid(a)
    ensures a.health.adprecovery == HwCriticalError ==> r == Done(a)
    ensures a.health.adprecovery != HwCriticalError && a.ring.consumer == a.ring.producer ==>
              r == Done(a.(log := a.log + DpcTail(a.hw)))
    ensures a.health.adprecovery != HwCriticalError && a.ring.consumer != a.ring.producer ==>
              && (a.ring.consumer >= |a.ring.queue| ==> r == Halted(IndexOutsideRing))
              && (a.ring.consumer < |a.ring.queue| <= a.ring.producer ==> r == Halted(DrainNeverEnds))
    ensures r.Done? ==> Valid(r.value)
    ensures r.Done? && a.health.adprecovery != HwCriticalError ==>
              && r.value.ring.consumer == r.value.ring.producer == a.ring.producer
              && |r.value.log| >= |DpcTail(a.hw)|
              && r.value.log[|r.value.log| - |DpcTail(a.hw)|..] == DpcTail(a.hw)
    ensures r.Done? ==> r.value.ring.queue == a.ring.queue && r.value.hw == a.hw && r.value.health == a.health
  {
    var n := |a.ring.queue|;
    if a.health.adprecovery == HwCriticalError then Done(a)
    else if a.ring.consumer == a.ring.producer then Done(a.(log := a.log + DpcTail(a.hw)))
    else if a.ring.consumer >= n then Halted(IndexOutsideRing)
    else if a.ring.producer >= n then Halted(DrainNeverEnds)
    else
      var a1 :- Drain(a, a.ring.consumer, a.ring.producer);
      Done(a1.(ring := a1.ring.(consumer := a.ring.producer), log := a1.log + DpcTail(a.hw)))
  }

  /**
   * With both indices inside the ring, the dpc completes exactly the window
   * between consumer and producer, in ring order, and then makes its tail calls.
   */
  lemma DpcIsWindowFold(a: Adapter)
    requires Valid(a) && a.health.adprecovery != HwCriticalError
    requires a.ring.consumer < |a.ring.queue| && a.ring.producer < |a.ring.queue|
    ensures var o := CompleteAll(a, Window(a.ring.queue, a.ring.consumer, a.ring.producer));
            && (CompleteCmdDpc(a).Done? <==> o.Done?)
            && (o.Done? ==>
                  var b := o.value.(ring := o.value.ring.(consumer := a.ring.producer), log := o.value.log + DpcTail(a.hw));
                  CompleteCmdDpc(a).value == b)
  {
    if a.ring.consumer != a.ring.producer {
      DrainIsWindowFold(a, a.ring.consumer, a.ring.producer);
    }
  }

  /** The drain visits exactly the window between consumer and producer, in ring order. */
  lemma {:induction false} DrainIsWindowFold(a: Adapter, c: nat, p: nat)
    requires Valid(a) && c < |a.ring.queue| && p < |a.ring.queue|
    ensures Drain(a, c, p) == CompleteAll(a, Window(a.ring.queue, c, p))
    decreases Dist(c, p, |a.ring.queue|)
  {
    var q := a.ring.queue;
    var n := |q|;
    var w := Window(q, c, p);
    if c != p {
      var c' := Next(c, n);
      WindowAt(q, c, p, 0);
      assert w[0] == q[c];
      WindowTail(q, c, p);
      if q[c] < |a.pool.cmds| {
        var o := CompleteCmd(a, q[c], DID_OK as bv8);
        if o.Done? {
          assert o.value.ring.queue == q;
          DrainIsWindowFold(o.value, c', p);
          assert Drain(a, c, p) == Drain(o.value, c', p);
          assert CompleteAll(a, w) == CompleteAll(o.value, w[1..]);
        }
      }
    }
  }

  /** Dropping the first entry of the window is the window from the next slot. */
  lemma WindowTail(q: seq<nat>, c: nat, p: nat)
    requires c < |q| && p < |q| && c != p
    ensures Window(q, Next(c, |q|), p) == Window(q, c, p)[1..]
  {
    var n := |q|;
    var w := Window(q, c, p);
    var w' := Window(q, Next(c, n), p);
    assert |w'| == |w| - 1;
    forall j | 0 <= j < |w'| ensures w'[j] == w[j + 1] {
      WindowAt(q, Next(c, n), p, j);
      WindowAt(q, c, p, j + 1);
      assert RingAt(Next(c, n), j, n) == RingAt(c, j + 1, n);
    }
  }

  /** A drain that finishes met only contexts naming real slots: one past max_fw_cmds stops it. */
  lemma {:induction false} CompleteAllInRange(a: Adapter, ctxs: seq<nat>)
    requires Valid(a)
    ensures CompleteAll(a, ctxs).Done? ==> forall j :: 0 <= j < |ctxs| ==> ctxs[j] < |a.pool.cmds|
    decreases |ctxs|
  {
    if |ctxs| > 0 && ctxs[0] < |a.pool.cmds| {
      var o := CompleteCmd(a, ctxs[0], DID_OK as bv8);
      if o.Done? {
        CompleteAllInRange(o.value, ctxs[1..]);
        if CompleteAll(a, ctxs).Done? {
          forall j | 0 <= j < |ctxs| ensures ctxs[j] < |a.pool.cmds| {
            if j > 0 { assert ctxs[j] == ctxs[1..][j - 1]; }
          }
        }
      }
    }
  }
}

=== FILE: cpx_xor.dfy ===
/**
 * megasas_do_cpx_xor and megasas_scan_set_bit: how an XOR request from the
 * firmware's copy/XOR offload queue is checked and turned into a call of
 * one of the xor_gen_Nx1 / xor_chk_Nx1 routines.
 *
 * The request names up to 32 buffers by their byte offsets into the
 * mapped host memory; a bitmap says which of them take part, p_idx and
 * q_idx name the parity buffers. The routine picks the destination, checks
 * that it and every source lies inside host memory, collects the sources
 * lowest bit first, and dispatches on their number. The result here is the
 * dispatch itself (which routine, on which buffers) or the reason there is
 * none; what the routines do to the buffers is XorParity's part.
 */
module CpxXor {
  import opened MfiDefs
  import opened BitMath

  // ---------------------------------------------------------------------
  // megasas_scan_set_bit
  // ---------------------------------------------------------------------

  /** `~0` returned in a u8: no bit set. */
  const NO_BIT: nat := 0xFF

  /** The loop of megasas_scan_set_bit from position `bit`, with `b` the bitmap already shifted right `bit` times. */
  function ScanFrom(b: nat, bit: nat): nat
    decreases b
  {
    if b == 0 then NO_BIT
    else if b % 2 == 1 then bit
    else ScanFrom(b / 2, bit + 1)
  }

  lemma {:induction false} ScanFromFinds(x: nat, b: nat, k: nat)
    requires LowBitsClear(x, k) && b == x / Pow2(k)
    ensures x == 0 ==> ScanFrom(b, k) == NO_BIT
    ensures x != 0 ==> Bit(x, ScanFrom(b, k)) && LowBitsClear(x, ScanFrom(b, k))
    decreases b
  {
    if b == 0 {
      assert x == b * Pow2(k) + x % Pow2(k);
    } else if b % 2 != 1 {
      ClearStep(x, k);
      DivStep(x, k);
      ScanFromFinds(x, b / 2, k + 1);
    }
  }

  /** megasas_scan_set_bit: the position of the lowest set bit, or ~0 for an empty bitmap. */
  function ScanSetBit(bitmap: nat): (bit: nat)
    requires bitmap < U32
    ensures bit == NO_BIT <==> bitmap == 0
    ensures bitmap != 0 ==> bit < 32 && Bit(bitmap, bit)
    ensures bitmap != 0 ==> forall j: nat :: j < bit ==> !Bit(bitmap, j)
  {
    ScanFromFinds(bitmap, bitmap, 0);
    var bit := ScanFrom(bitmap, 0);
    if bitmap == 0 then bit
    else
      LowestBitBounds(bitmap, bit);
      forall j: nat | j < bit ensures !Bit(bitmap, j) {
        LowBitsClearMeansNoBit(bitmap, bit, j);
      }
      bit
  }

  // ---------------------------------------------------------------------
  // The order in which the sources are collected
  // ---------------------------------------------------------------------

  /** The set bits of x from position k up to 31, in increasing order: the reference for the scan. */
  function BitsAscending(x: nat, k: nat): (ps: seq<nat>)
    decreases 32 - k
  {
    if k >= 32 then []
    else (if Bit(x, k) then [k] else []) + BitsAscending(x, k + 1)
  }

  /** Clear positions contribute nothing. */
  lemma {:induction false} SkipClear(x: nat, k: nat, m: nat)
    requires k <= m <= 32
    requires forall j :: k <= j < m ==> !Bit(x, j)
    ensures BitsAscending(x, k) == BitsAscending(x, m)
    decreases m - k
  {
    if k < m {
      SkipClear(x, k + 1, m);
    }
  }

  /** Two bitmaps that agree from position k on list the same positions from k on. */
  lemma {:induction false} AgreeFrom(x: nat, y: nat, k: nat)
    requires forall j :: k <= j ==> (Bit(x, j) <==> Bit(y, j))
    ensures BitsAscending(x, k) == BitsAscending(y, k)
    decreases 32 - k
  {
    if k < 32 {
      AgreeFrom(x, y, k + 1);
    }
  }

  /**
   * The positions the source loop visits: repeatedly the lowest set bit,
   * which is then cleared. They are exactly the set bits, in increasing
   * order, each below 32.
   */
  function Positions(bm: nat): (ps: seq<nat>)
    requires bm < U32
    ensures ps == BitsAscending(bm, 0)
    ensures forall p :: p in ps ==> p < MAX_MR_ROW_SIZE && Bit(bm, p)
    decreases bm
  {
    BitsAscendingBounded(bm, 0);
    if bm == 0 then
      forall j ensures !Bit(0, j) {
        assert 0 / Pow2(j) == 0;
      }
      SkipClear(0, 0, 32);
      []
    else
      var r := ScanSetBit(bm);
      var rest := ClearBit(bm, r);
      var tail := Positions(rest);
      LowestGoesFirst(bm, r, rest);
      [r] + tail
  }

  lemma LowestGoesFirst(x: nat, r: nat, y: nat)
    requires r < 32 && Bit(x, r) && (forall j: nat :: j < r ==> !Bit(x, j))
    requires forall j :: Bit(y, j) <==> Bit(x, j) && j != r
    ensures BitsAscending(x, 0) == [r] + BitsAscending(y, 0)
  {
    SkipClear(x, 0, r);
    SkipClear(y, 0, r + 1);
    AgreeFrom(x, y, r + 1);
  }

  lemma {:induction false} BitsAscendingBounded(x: nat, k: nat)
    ensures forall p :: p in BitsAscending(x, k) ==> k <= p < 32 && Bit(x, p)
    decreases 32 - k
  {
    if k < 32 {
      BitsAscendingBounded(x, k + 1);
    }
  }

  // ---------------------------------------------------------------------
  // megasas_do_cpx_xor
  // ---------------------------------------------------------------------

  /** The fields of struct mr_cpx_xor_descriptor the routine reads; buffer entries are byte offsets into host memory. */
  datatype XorDescriptor = XorDescriptor(op: bv32, size: nat, bitmap: nat, pIdx: nat, qIdx: nat, buffList: seq<nat>)

  /** Each field within its C width, and buff_list the MAX_MR_ROW_SIZE entries it is declared with. */
  predicate DescriptorFits(d: XorDescriptor) {
    && d.size < U32 && d.bitmap < U32 && d.pIdx < 0x100 && d.qIdx < 0x100
    && |d.buffList| == MAX_MR_ROW_SIZE
    && forall i :: 0 <= i < |d.buffList| ==> d.buffList[i] < U32
  }

  /** The buffer the result goes to: P for the two P-only opcodes, Q for the others. */
  function DestIndex(d: XorDescriptor): nat {
    if d.op == CPX_XOR_OP_GEN_P || d.op == CPX_XOR_OP_CHECK_P then d.pIdx else d.qIdx
  }

  /** Only xor_gen_1x1 .. xor_gen_15x1 (and the matching checks) fill the 32-entry tables; the rest are NULL. */
  const XOR_ROUTINES: nat := 15

  /** A buffer of `size` bytes at byte offset `off` lies inside host memory of `len` bytes. */
  predicate InHostMemory(off: nat, size: nat, len: nat) {
    off + size <= len
  }

  /** The same test as the driver writes it, in u32 arithmetic: the sum wraps modulo 2^32. */
  predicate PassesU32Check(off: nat, size: nat, len: nat) {
    (off + size) % U32 <= len
  }

  /** P is named by an index a shift of 1 can reach (check opcodes clear its bit). */
  predicate PIndexUsable(d: XorDescriptor) {
    IsGenOp(d.op) || d.pIdx < MAX_MR_ROW_SIZE
  }

  /** The working bitmap: a check opcode takes P out of the sources, since P is the destination it checks against. */
  function SourceBitmap(d: XorDescriptor): (bm: nat)
    requires DescriptorFits(d) && PIndexUsable(d)
    ensures bm < U32
    ensures forall j :: Bit(bm, j) <==> Bit(d.bitmap, j) && !(IsCheckOp(d.op) && j == d.pIdx)
  {
    if IsGenOp(d.op) then d.bitmap else ClearBit(d.bitmap, d.pIdx)
  }

  datatype XorDispatch =
    | XorRejected                                       // MR_CPX_STATUS_FAILURE, nothing touched
    | XorUndefined                                      // an array indexed out of range, or a call through NULL
    | XorRun(gen: bool, dest: nat, sources: seq<nat>)   // the routine for |sources| buffers, on these buff_list positions

  datatype SourceCheck = SourcesFit | SourceOutside | PointerListOverrun

  /**
   * The source loop as written: buf_ptr_list[buf_idx] is stored before the
   * bounds test, and buf_ptr_list has MAX_MR_ROW_SIZE entries.
   */
  function CheckSourcesAsWritten(d: XorDescriptor, ps: seq<nat>, bufIdx: nat, len: nat): (r: SourceCheck)
    requires DescriptorFits(d) && bufIdx <= MAX_MR_ROW_SIZE
    requires forall p :: p in ps ==> p < MAX_MR_ROW_SIZE
    ensures r == SourcesFit <==> bufIdx + |ps| <= MAX_MR_ROW_SIZE && forall p :: p in ps ==> PassesU32Check(d.buffList[p], d.size, len)
    decreases |ps|
  {
    if |ps| == 0 then SourcesFit
    else
      assert ps[0] in ps && forall p :: p in ps[1..] ==> p in ps;
      assert forall p :: p in ps ==> p == ps[0] || p in ps[1..];
      if bufIdx >= MAX_MR_ROW_SIZE then PointerListOverrun
      else if !PassesU32Check(d.buffList[ps[0]], d.size, len) then SourceOutside
      else CheckSourcesAsWritten(d, ps[1..], bufIdx + 1, len)
  }

  /** The part of megasas_do_cpx_xor after the destination test, as written: the source loop, then the table call. */
  function DispatchAsWritten(d: XorDescriptor, len: nat, dest: nat, ps: seq<nat>): (r: XorDispatch)
    requires DescriptorFits(d)
    requires forall p :: p in ps ==> p < MAX_MR_ROW_SIZE
    ensures r.XorRun? <==> CheckSourcesAsWritten(d, ps, 1, len) == SourcesFit && 1 <= |ps| <= XOR_ROUTINES
    ensures r.XorRun? ==> r == XorRun(IsGenOp(d.op), dest, ps)
    ensures r.XorRejected? <==> CheckSourcesAsWritten(d, ps, 1, len) == SourceOutside
  {
    match CheckSourcesAsWritten(d, ps, 1, len)
    case SourceOutside => XorRejected
    case PointerListOverrun => XorUndefined
    case SourcesFit =>
      if |ps| == 0 || |ps| > XOR_ROUTINES then XorUndefined
      else XorRun(IsGenOp(d.op), dest, ps)
  }

  /**
   * megasas_do_cpx_xor as written. The destination offset is read from
   * buff_list[dest_idx] with no check of dest_idx, the bounds tests add in
   * u32 and wrap, and the routine table is indexed with the source count
   * minus one whatever that count is.
   */
  function DoCpxXorAsWritten(d: XorDescriptor, len: nat): (r: XorDispatch)
    requires DescriptorFits(d) && len < U32
    ensures r.XorRun? ==> r.dest == DestIndex(d) < MAX_MR_ROW_SIZE && r.gen == IsGenOp(d.op)
    ensures r.XorRun? ==> PassesU32Check(d.buffList[r.dest], d.size, len)
    ensures r.XorRun? ==> forall p :: p in r.sources ==> p < MAX_MR_ROW_SIZE && PassesU32Check(d.buffList[p], d.size, len)
  {
    var dest := DestIndex(d);
    if dest >= MAX_MR_ROW_SIZE then XorUndefined
    else if !PassesU32Check(d.buffList[dest], d.size, len) then XorRejected
    else if !PIndexUsable(d) then XorUndefined
    else DispatchAsWritten(d, len, dest, Positions(SourceBitmap(d)))
  }

  /** Every source passes the exact bounds test. */
  function SourcesInHostMemory(d: XorDescriptor, ps: seq<nat>, len: nat): (ok: bool)
    requires DescriptorFits(d)
    requires forall p :: p in ps ==> p < MAX_MR_ROW_SIZE
    ensures ok <==> forall p :: p in ps ==> InHostMemory(d.buffList[p], d.size, len)
    decreases |ps|
  {
    if |ps| == 0 then true
    else
      assert ps[0] in ps && forall p :: p in ps[1..] ==> p in ps;
      assert forall p :: p in ps ==> p == ps[0] || p in ps[1..];
      InHostMemory(d.buffList[ps[0]], d.size, len) && SourcesInHostMemory(d, ps[1..], len)
  }

  /**
   * What a request needs before any routine may run: indices inside
   * buff_list, every buffer inside host memory, and a source count the
   * routine tables cover.
   */
  predicate Acceptable(d: XorDescriptor, len: nat)
    requires DescriptorFits(d)
  {
    && DestIndex(d) < MAX_MR_ROW_SIZE
    && PIndexUsable(d)
    && InHostMemory(d.buffList[DestIndex(d)], d.size, len)
    && (forall p :: p in BitsAscending(SourceBitmap(d), 0) ==> p < MAX_MR_ROW_SIZE && InHostMemory(d.buffList[p], d.size, len))
    && 1 <= |BitsAscending(SourceBitmap(d), 0)| <= XOR_ROUTINES
  }

  /** The checked source loop and table call. */
  function Dispatch(d: XorDescriptor, len: nat, dest: nat, ps: seq<nat>): (r: XorDispatch)
    requires DescriptorFits(d)
    requires forall p :: p in ps ==> p < MAX_MR_ROW_SIZE
    ensures !r.XorUndefined?
    ensures r.XorRun? <==> (forall p :: p in ps ==> InHostMemory(d.buffList[p], d.size, len)) && 1 <= |ps| <= XOR_ROUTINES
    ensures r.XorRun? ==> r == XorRun(IsGenOp(d.op), dest, ps)
  {
    if !SourcesInHostMemory(d, ps, len) then XorRejected
    else if |ps| == 0 || |ps| > XOR_ROUTINES then XorRejected
    else XorRun(IsGenOp(d.op), dest, ps)
  }

  /**
   * megasas_do_cpx_xor with the checks it evidently means to make: exact
   * sums, indices checked against the arrays, and the source count checked
   * against the routine tables, all before any buffer is touched.
   */
  function DoCpxXor(d: XorDescriptor, len: nat): (r: XorDispatch)
    requires DescriptorFits(d) && len < U32
    ensures !r.XorUndefined?
    ensures r.XorRun? <==> Acceptable(d, len)
    ensures r.XorRun? ==> r.dest == DestIndex(d) && r.gen == IsGenOp(d.op)
    ensures r.XorRun? ==> r.sources == BitsAscending(SourceBitmap(d), 0)
    ensures r.XorRun? ==> 1 <= |r.sources| <= XOR_ROUTINES
    ensures r.XorRun? ==> r.dest < MAX_MR_ROW_SIZE && InHostMemory(d.buffList[r.dest], d.size, len)
    ensures r.XorRun? ==> forall p :: p in r.sources ==> p < MAX_MR_ROW_SIZE && InHostMemory(d.buffList[p], d.size, len)
    ensures r.XorRun? && IsCheckOp(d.op) ==> d.pIdx !in r.sources
  {
    var dest := DestIndex(d);
    if dest >= MAX_MR_ROW_SIZE || !PIndexUsable(d) then XorRejected
    else if !InHostMemory(d.buffList[dest], d.size, len) then XorRejected
    else
      var bm := SourceBitmap(d);
      var ps := Positions(bm);
      assert IsCheckOp(d.op) ==> !Bit(bm, d.pIdx);
      Dispatch(d, len, dest, ps)
  }

  /** Without wrap-around the u32 test and the exact one agree on every source. */
  lemma ChecksAgree(d: XorDescriptor, ps: seq<nat>, len: nat)
    requires DescriptorFits(d)
    requires forall p :: p in ps ==> p < MAX_MR_ROW_SIZE && d.buffList[p] + d.size < U32
    ensures (forall p :: p in ps ==> PassesU32Check(d.buffList[p], d.size, len))
        <==> (forall p :: p in ps ==> InHostMemory(d.buffList[p], d.size, len))
  {
  }

  /** When the two bounds tests agree on the sources, the two source loops dispatch alike. */
  lemma DispatchesAgree(d: XorDescriptor, len: nat, dest: nat, ps: seq<nat>)
    requires DescriptorFits(d)
    requires forall p :: p in ps ==> p < MAX_MR_ROW_SIZE
    requires (forall p :: p in ps ==> PassesU32Check(d.buffList[p], d.size, len))
         <==> (forall p :: p in ps ==> InHostMemory(d.buffList[p], d.size, len))
    ensures DispatchAsWritten(d, len, dest, ps).XorRun? ==> DispatchAsWritten(d, len, dest, ps) == Dispatch(d, len, dest, ps)
    ensures Dispatch(d, len, dest, ps).XorRun? ==> DispatchAsWritten(d, len, dest, ps) == Dispatch(d, len, dest, ps)
  {
  }

  /** With no sum reaching 2^32, the routine as written and the checked one agree whenever either dispatches. */
  lemma AgreeWithoutWrap(d: XorDescriptor, len: nat)
    requires DescriptorFits(d) && len < U32
    requires forall i :: 0 <= i < |d.buffList| ==> d.buffList[i] + d.size < U32
    ensures DoCpxXorAsWritten(d, len).XorRun? ==> DoCpxXorAsWritten(d, len) == DoCpxXor(d, len)
    ensures DoCpxXor(d, len).XorRun? ==> DoCpxXorAsWritten(d, len) == DoCpxXor(d, len)
  {
    var dest := DestIndex(d);
    if dest < MAX_MR_ROW_SIZE && PIndexUsable(d) {
      var off := d.buffList[dest];
      assert PassesU32Check(off, d.size, len) <==> InHostMemory(off, d.size, len);
      var ps := Positions(SourceBitmap(d));
      ChecksAgree(d, ps, len);
      DispatchesAgree(d, len, dest, ps);
    }
  }

  /** A request whose source offset plus size wraps past 2^32. */
  function WrappingRequest(): (d: XorDescriptor)
    ensures DescriptorFits(d)
  {
    var list := [0xFFFF_FFF0, 0] + seq(30, _ => 0);
    XorDescriptor(CPX_XOR_OP_GEN_P, 0x20, 1, 1, 0, list)
  }

  /**
   * The u32 sum lets a source that ends 16 bytes past 4 GiB through a
   * 256-byte host window: the routine as written dispatches on it, the
   * checked one refuses.
   */
  lemma WrapLetsSourceThrough()
    ensures var d := WrappingRequest();
            && DoCpxXorAsWritten(d, 0x100) == XorRun(true, 1, [0])
            && !InHostMemory(d.buffList[0], d.size, 0x100)
            && DoCpxXor(d, 0x100) == XorRejected
  {
    var d := WrappingRequest();
    assert Bit(1, 0);
    assert ScanSetBit(1) == 0;
    assert ClearBit(1, 0) == 0;
    assert Positions(1) == [0];
  }

  /** A generate request with an empty bitmap. */
  function EmptyRequest(): (d: XorDescriptor)
    ensures DescriptorFits(d)
  {
    XorDescriptor(CPX_XOR_OP_GEN_P, 4, 0, 0, 1, seq(32, _ => 0))
  }

  /**
   * With no source buffer the routine as written calls xor_gen_funcs[-1];
   * the checked one refuses the request.
   */
  lemma EmptySourcesIndexBelowTable()
    ensures DoCpxXorAsWritten(EmptyRequest(), 0x100) == XorUndefined
    ensures DoCpxXor(EmptyRequest(), 0x100) == XorRejected
  {
    assert Positions(0) == [];
  }
}

=== FILE: defer.dfy ===
/**
 * megasas_internal_reset_defer_cmds: at a firmware fault every outstanding
 * command is moved, in slot order, to the tail of the internal reset
 * pending queue, taken off whatever list it was on first.
 */
module Defer {
  import opened Wrappers
  import opened MfiDefs
  import opened Cmds
  import opened CmdPool
  import opened Instance

  /** `s` with `x` unlinked (list_del_init). */
  function Without(s: seq<nat>, x: nat): (r: seq<nat>)
    ensures forall y :: y in r <==> y in s && y != x
    ensures Distinct(s) ==> Distinct(r)
    ensures x !in s ==> r == s
    decreases |s|
  {
    if |s| == 0 then []
    else
      var rest := Without(s[1..], x);
      assert forall y :: y in s[1..] ==> y in s;
      if s[0] == x then
        DistinctTail(s);
        rest
      else
        DistinctTail(s);
        ConsKeepsDistinct(s, rest);
        [s[0]] + rest
  }

  /** The tail of a list without repeats has none, and does not hold the head. */
  lemma DistinctTail(s: seq<nat>)
    requires |s| > 0
    ensures Distinct(s) ==> Distinct(s[1..]) && s[0] !in s[1..]
  {
    if Distinct(s) {
      forall j, k | 0 <= j < k < |s[1..]| ensures s[1..][j] != s[1..][k] {
        assert s[1..][j] == s[j + 1] && s[1..][k] == s[k + 1];
      }
      forall k | 0 <= k < |s[1..]| ensures s[1..][k] != s[0] {
        assert s[1..][k] == s[k + 1];
      }
    }
  }

  lemma ConsKeepsDistinct(s: seq<nat>, rest: seq<nat>)
    requires |s| > 0 && forall y :: y in rest ==> y in s[1..]
    requires Distinct(s) ==> Distinct(s[1..]) && s[0] !in s[1..]
    ensures Distinct(s) && Distinct(rest) ==> Distinct([s[0]] + rest)
  {
    if Distinct(s) && Distinct(rest) {
      DistinctCons(s[0], rest);
    }
  }

  lemma DistinctCons(h: nat, t: seq<nat>)
    requires Distinct(t) && h !in t
    ensures Distinct([h] + t)
  {
    forall j, k | 0 <= j < k < |[h] + t| ensures ([h] + t)[j] != ([h] + t)[k] {
      assert ([h] + t)[k] == t[k - 1];
      if j > 0 { assert ([h] + t)[j] == t[j - 1]; }
    }
  }

  lemma DistinctSnoc(t: seq<nat>, x: nat)
    requires Distinct(t) && x !in t
    ensures Distinct(t + [x])
  {
    forall j, k | 0 <= j < k < |t + [x]| ensures (t + [x])[j] != (t + [x])[k] {
      assert (t + [x])[j] == t[j];
      if k < |t| { assert (t + [x])[k] == t[k]; }
    }
  }

  /** One iteration of the loop: an outstanding slot leaves any list and goes to the tail of the pending queue. */
  function DeferOne(a: Adapter, i: nat): (r: Adapter)
    requires Valid(a) && i < |a.pool.cmds|
    ensures Valid(r) && r.pool.cmds == a.pool.cmds
    ensures r == a.(pool := r.pool, pending := r.pending)
    ensures Outstanding(a.pool.cmds[i]) ==> r.pending == Without(a.pending, i) + [i]
    ensures forall x :: x in r.pool.free <==> x in a.pool.free && !(x == i && Outstanding(a.pool.cmds[i]))
    ensures forall x :: x in r.pending <==> x in a.pending || (x == i && Outstanding(a.pool.cmds[i]))
  {
    if Outstanding(a.pool.cmds[i]) then
      var pending := Without(a.pending, i);
      DistinctSnoc(pending, i);
      a.(pool := a.pool.(free := Without(a.pool.free, i)), pending := pending + [i])
    else a
  }

  /** The loop from slot `i` to max_fw_cmds - 1. */
  function DeferFrom(a: Adapter, i: nat): (r: Adapter)
    requires Valid(a) && i <= |a.pool.cmds|
    ensures Valid(r) && r.pool.cmds == a.pool.cmds
    ensures r == a.(pool := r.pool, pending := r.pending)
    ensures forall x :: x in r.pool.free <==>
              x in a.pool.free && !(i <= x < |a.pool.cmds| && Outstanding(a.pool.cmds[x]))
    ensures forall x :: x in r.pending <==>
              x in a.pending || (i <= x < |a.pool.cmds| && Outstanding(a.pool.cmds[x]))
    decreases |a.pool.cmds| - i
  {
    if i == |a.pool.cmds| then a
    else DeferFrom(DeferOne(a, i), i + 1)
  }

  /** megasas_internal_reset_defer_cmds. */
  function DeferCmds(a: Adapter): (r: Adapter)
    requires Valid(a)
    ensures Valid(r) && r.pool.cmds == a.pool.cmds
    ensures r == a.(pool := r.pool, pending := r.pending)
    ensures forall x :: x in r.pool.free <==> x in a.pool.free && !(0 <= x < |a.pool.cmds| && Outstanding(a.pool.cmds[x]))
    ensures forall x :: x in r.pending <==> x in a.pending || (0 <= x < |a.pool.cmds| && Outstanding(a.pool.cmds[x]))
  {
    DeferFrom(a, 0)
  }

  /** The outstanding slots from `i` on, in slot order: what the loop appends. */
  function OutstandingFrom(cmds: seq<Cmd>, i: nat): (r: seq<nat>)
    requires i <= |cmds|
    decreases |cmds| - i
  {
    if i == |cmds| then []
    else (if Outstanding(cmds[i]) then [i] else []) + OutstandingFrom(cmds, i + 1)
  }

  /** Entries of OutstandingFrom are outstanding slots at or after `i`. */
  lemma {:induction false} OutstandingFromBounds(cmds: seq<Cmd>, i: nat)
    requires i <= |cmds|
    ensures forall x :: x in OutstandingFrom(cmds, i) ==> i <= x < |cmds| && Outstanding(cmds[x])
    decreases |cmds| - i
  {
    if i < |cmds| {
      OutstandingFromBounds(cmds, i + 1);
    }
  }

  /**
   * With no slot at or past `i` already pending, the loop appends exactly
   * the outstanding slots from `i` on, in slot order, to the pending queue.
   */
  lemma {:induction false} DeferAppendsInOrder(a: Adapter, i: nat)
    requires Valid(a) && i <= |a.pool.cmds|
    requires forall x :: x in a.pending ==> x < i
    ensures DeferFrom(a, i).pending == a.pending + OutstandingFrom(a.pool.cmds, i)
    decreases |a.pool.cmds| - i
  {
    if i < |a.pool.cmds| {
      var a1 := DeferOne(a, i);
      var head := if Outstanding(a.pool.cmds[i]) then [i] else [];
      DeferOneAppends(a, i);
      DeferAppendsInOrder(a1, i + 1);
      assert DeferFrom(a, i) == DeferFrom(a1, i + 1);
      assert OutstandingFrom(a.pool.cmds, i) == head + OutstandingFrom(a.pool.cmds, i + 1);
      Glue(a.pending, head, OutstandingFrom(a.pool.cmds, i + 1), DeferFrom(a, i).pending, OutstandingFrom(a.pool.cmds, i));
    }
  }

  /** A slot not yet pending goes to the tail of the queue when outstanding; nothing else moves. */
  lemma DeferOneAppends(a: Adapter, i: nat)
    requires Valid(a) && i < |a.pool.cmds|
    requires forall x :: x in a.pending ==> x < i
    ensures DeferOne(a, i).pending == a.pending + (if Outstanding(a.pool.cmds[i]) then [i] else [])
    ensures forall x :: x in DeferOne(a, i).pending ==> x < i + 1
  {
    assert i !in a.pending;
    assert Without(a.pending, i) == a.pending;
  }

  lemma Glue(p: seq<nat>, head: seq<nat>, rest: seq<nat>, got: seq<nat>, total: seq<nat>)
    requires got == (p + head) + rest && total == head + rest
    ensures got == p + total
  {
  }

  /** From an empty pending queue, deferral leaves it holding the outstanding slots in index order. */
  lemma DeferCollectsOutstanding(a: Adapter)
    requires Valid(a) && a.pending == []
    ensures DeferCmds(a).pending == OutstandingFrom(a.pool.cmds, 0)
  {
    DeferAppendsInOrder(a, 0);
  }
}

=== FILE: dispatch.dfy ===
/**
 * The synchronous issue paths for internal commands: megasas_issue_polled,
 * megasas_issue_blocked_cmd and megasas_issue_blocked_abort_cmd.
 *
 * A blocked issue is split at the sleep: a start step that posts the frame,
 * and a finish step taken when the sleeper wakes or its timer expires. What
 * happens in between (the interrupt path running megasas_complete_cmd) is an
 * ordinary call of Completion.CompleteCmd.
 */
module Dispatch {
  import opened Wrappers
  import opened MfiDefs
  import opened Cmds
  import opened CmdPool
  import opened Instance
  import opened Completion

  /**
   * instancet->issue_dcmd. The MFI templates fire the frame with no extra
   * frames and report success. The fusion template's routine is not part of
   * this model: whether it refuses the frame is an input, and an accepted
   * frame is recorded as fired.
   */
  function IssueDcmd(a: Adapter, i: nat, refused: bool): (r: (Adapter, bool))
    requires i < |a.pool.cmds|
    ensures r.1 <==> a.hw.fusion && refused
    ensures r.1 ==> r.0 == a
    ensures !r.1 ==> r.0 == Emit(a, Fire(a.pool.cmds[i].frameAddr, 0))
  {
    if a.hw.fusion && refused then (a, true)
    else (Emit(a, Fire(a.pool.cmds[i].frameAddr, 0)), false)
  }

  /** The frame a polled issue posts: status INVALID, and the firmware told not to post a reply. */
  function PolledFrame(f: Frame): (g: Frame)
    ensures g.cmdStatus == STAT_INVALID_STATUS
    ensures g.flags & FRAME_DONT_POST_IN_REPLY_QUEUE != 0
    ensures g.flags & !FRAME_DONT_POST_IN_REPLY_QUEUE == f.flags & !FRAME_DONT_POST_IN_REPLY_QUEUE
    ensures g.(cmdStatus := f.cmdStatus, flags := f.flags) == f
  {
    f.(cmdStatus := STAT_INVALID_STATUS, flags := f.flags | FRAME_DONT_POST_IN_REPLY_QUEUE)
  }

  /**
   * megasas_issue_polled. The frame is prepared first; a dead adapter or a
   * refused frame gives DCMD_NOT_FIRED without touching the doorbell.
   * Otherwise the result is whatever wait_and_poll reports, which is not
   * part of this model and is the input `polled`.
   */
  function IssuePolled(a: Adapter, i: nat, refused: bool, polled: DcmdStatus): (r: (Adapter, DcmdStatus))
    requires Valid(a) && i < |a.pool.cmds|
    ensures Valid(r.0) && r.0.pool.free == a.pool.free && |r.0.pool.cmds| == |a.pool.cmds|
    ensures r.0.pool.cmds[i] == a.pool.cmds[i].(frame := PolledFrame(a.pool.cmds[i].frame))
    ensures r.1 == DcmdNotFired <==> a.health.adprecovery == HwCriticalError || (a.hw.fusion && refused) || polled == DcmdNotFired
    ensures a.health.adprecovery == HwCriticalError || (a.hw.fusion && refused) ==> r.1 == DcmdNotFired && r.0.log == a.log
    ensures !(a.health.adprecovery == HwCriticalError || (a.hw.fusion && refused)) ==>
              r.1 == polled && r.0.log == a.log + [Fire(a.pool.cmds[i].frameAddr, 0)]
  {
    var c := a.pool.cmds[i];
    var a1 := SetCmd(a, i, c.(frame := PolledFrame(c.frame)));
    if a1.health.adprecovery == HwCriticalError then (a1, DcmdNotFired)
    else
      var (a2, failed) := IssueDcmd(a1, i, refused);
      if failed then (a2, DcmdNotFired) else (a2, polled)
  }

  /**
   * The posting half of megasas_issue_blocked_cmd: cmd_status_drv is set to
   * INVALID, then the frame is issued. `Some(DcmdNotFired)` is the early
   * return; `None` means the caller now sleeps.
   */
  function IssueBlockedStart(a: Adapter, i: nat, refused: bool): (r: (Adapter, Option<DcmdStatus>))
    requires Valid(a) && i < |a.pool.cmds|
    ensures Valid(r.0) && r.0.pool.free == a.pool.free && |r.0.pool.cmds| == |a.pool.cmds|
    ensures r.0.pool.cmds[i] == a.pool.cmds[i].(statusDrv := STAT_INVALID_STATUS)
    ensures r.0.ring == a.ring && r.0.health == a.health && r.0.hw == a.hw && r.0.pending == a.pending
    ensures r.0.internal == a.internal && r.0.fwOutstanding == a.fwOutstanding && r.0.done == a.done
    ensures forall j :: 0 <= j < |a.pool.cmds| && j != i ==> r.0.pool.cmds[j] == a.pool.cmds[j]
    ensures r.1.Some? <==> a.health.adprecovery == HwCriticalError || (a.hw.fusion && refused)
    ensures r.1.Some? ==> r.1.value == DcmdNotFired && r.0.log == a.log
    ensures r.1.None? ==> r.0.log == a.log + [Fire(a.pool.cmds[i].frameAddr, 0)]
  {
    var a1 := SetCmd(a, i, a.pool.cmds[i].(statusDrv := STAT_INVALID_STATUS));
    if a1.health.adprecovery == HwCriticalError then (a1, Some(DcmdNotFired))
    else
      var (a2, failed) := IssueDcmd(a1, i, refused);
      if failed then (a2, Some(DcmdNotFired)) else (a2, None)
  }

  /**
   * The waking half of megasas_issue_blocked_cmd, from the slot as the
   * sleeper finds it. A zero timeout sleeps until the status changes, so an
   * unchanged status is still `None`; with a timeout, an unchanged status is
   * DCMD_TIMEOUT. A changed status is success exactly when it is MFI_STAT_OK.
   */
  function BlockedResult(c: Cmd, timeout: nat): (r: Option<DcmdStatus>)
    ensures r.None? <==> timeout == 0 && c.statusDrv == STAT_INVALID_STATUS
    ensures r == Some(DcmdTimeout) <==> timeout != 0 && c.statusDrv == STAT_INVALID_STATUS
    ensures r == Some(DcmdSuccess) <==> c.statusDrv == STAT_OK
    ensures r == Some(DcmdFailed) <==> c.statusDrv != STAT_OK && c.statusDrv != STAT_INVALID_STATUS
    ensures r != Some(DcmdNotFired)
  {
    if c.statusDrv == STAT_INVALID_STATUS then
      if timeout != 0 then Some(DcmdTimeout) else None
    else if c.statusDrv == STAT_OK then Some(DcmdSuccess)
    else Some(DcmdFailed)
  }

  /** The firmware's side of a command: it writes its status into the frame and posts the context. */
  function FirmwareAnswers(a: Adapter, i: nat, status: bv8): (r: Adapter)
    requires Valid(a) && i < |a.pool.cmds|
    ensures Valid(r) && SameFrame(a, r) && r.pool.free == a.pool.free
    ensures r.pool.cmds[i] == a.pool.cmds[i].(frame := a.pool.cmds[i].frame.(cmdStatus := status))
    ensures forall j :: 0 <= j < |a.pool.cmds| && j != i ==> r.pool.cmds[j] == a.pool.cmds[j]
  {
    var c := a.pool.cmds[i];
    SetCmd(a, i, c.(frame := c.frame.(cmdStatus := status)))
  }

  /** An internal DCMD: completed through megasas_complete_int_cmd, not one of the map or event DCMDs. */
  predicate IsPlainDcmd(c: Cmd) {
    && c.frame.cmd == CMD_DCMD
    && !IsLdMapUpdate(c) && !IsPdSeqUpdate(c) && c.frame.opcode != DCMD_CTRL_EVENT_WAIT
  }

  /** On a plain DCMD, megasas_complete_cmd hands the frame's status to the waiter and touches nothing else of the slot. */
  lemma CompletePlainDcmd(a: Adapter, i: nat)
    requires Valid(a) && i < |a.pool.cmds| && IsPlainDcmd(a.pool.cmds[i])
    ensures CompleteCmd(a, i, 0).Done?
    ensures CompleteCmd(a, i, 0).value.pool.cmds[i] == a.pool.cmds[i].(retry := 0, statusDrv := a.pool.cmds[i].frame.cmdStatus)
    ensures CompleteCmd(a, i, 0).value.pool.free == a.pool.free
  {
    var a0 := ClearRetry(a, i);
    assert a0.pool.cmds[i] == a.pool.cmds[i].(retry := 0);
    assert IsPlainDcmd(a0.pool.cmds[i]);
    assert CompleteCmd(a, i, 0) == CompleteDcmd(a0, i);
  }

  /**
   * A blocked DCMD that the firmware answers with `status` ends in success
   * exactly when the status is MFI_STAT_OK, in failure for any other real
   * status, and never reports NOT_FIRED once it was posted.
   */
  lemma BlockedDcmdOutcome(a: Adapter, i: nat, status: bv8, timeout: nat)
    requires Valid(a) && i < |a.pool.cmds| && IsPlainDcmd(a.pool.cmds[i])
    requires a.health.adprecovery != HwCriticalError
    ensures var (a1, early) := IssueBlockedStart(a, i, false);
            && early.None?
            && var o := CompleteCmd(FirmwareAnswers(a1, i, status), i, 0);
            && o.Done?
            && (status == STAT_OK ==> BlockedResult(o.value.pool.cmds[i], timeout) == Some(DcmdSuccess))
            && (status != STAT_OK && status != STAT_INVALID_STATUS ==> BlockedResult(o.value.pool.cmds[i], timeout) == Some(DcmdFailed))
            && (status == STAT_INVALID_STATUS && timeout != 0 ==> BlockedResult(o.value.pool.cmds[i], timeout) == Some(DcmdTimeout))
  {
    var (a1, early) := IssueBlockedStart(a, i, false);
    var a2 := FirmwareAnswers(a1, i, status);
    assert a2.pool.cmds[i].frame.cmdStatus == status;
    assert IsPlainDcmd(a2.pool.cmds[i]);
    CompletePlainDcmd(a2, i);
  }

  /** Where a blocked abort stands. */
  datatype AbortStep = NoFreeSlot | AbortIssued(slot: nat) | AbortEnded(status: DcmdStatus)

  /** The abort frame for the command in `target`: its context and the bus address of its frame. */
  function AbortFrame(f: Frame, target: Cmd): (g: Frame)
    ensures g.cmd == CMD_ABORT && g.cmdStatus == STAT_INVALID_STATUS && g.flags == 0
    ensures g.abortContext == target.index && g.abortAddr == target.frameAddr
  {
    f.(cmd := CMD_ABORT, cmdStatus := STAT_INVALID_STATUS, flags := 0,
       abortContext := target.index, abortAddr := target.frameAddr)
  }

  /**
   * The posting half of megasas_issue_blocked_abort_cmd: take a slot (-1 if
   * there is none), build the abort frame, mark the slot synchronous, post
   * it. A dead adapter or a refused frame returns DCMD_NOT_FIRED with the
   * slot still taken: the driver does not hand it back on that path.
   */
  function AbortStart(a: Adapter, target: nat, refused: bool): (r: (Adapter, AbortStep))
    requires Valid(a) && target < |a.pool.cmds|
    ensures Valid(r.0) && |r.0.pool.cmds| == |a.pool.cmds| && r.0.pending == a.pending
    ensures r.1 == NoFreeSlot <==> |a.pool.free| == 0
    ensures r.1 == NoFreeSlot ==> r.0 == a
    ensures r.1 != NoFreeSlot ==>
              var j: nat := a.pool.free[0];
              && j < |a.pool.cmds| && !IsFree(r.0.pool, j) && multiset(r.0.pool.free) + multiset{j} == multiset(a.pool.free)
              && r.0.pool.cmds[j].frame == AbortFrame(a.pool.cmds[j].frame, a.pool.cmds[target])
              && r.0.pool.cmds[j].syncCmd && r.0.pool.cmds[j].statusDrv == STAT_INVALID_STATUS
    ensures r.1.AbortEnded? <==> |a.pool.free| > 0 && (a.health.adprecovery == HwCriticalError || (a.hw.fusion && refused))
    ensures r.1.AbortEnded? ==> r.1.status == DcmdNotFired && r.0.log == a.log
    ensures r.1.AbortIssued? ==>
              && r.1.slot == a.pool.free[0] && r.1.slot < |a.pool.cmds|
              && r.0.log == a.log + [Fire(a.pool.cmds[r.1.slot].frameAddr, 0)]
  {
    var (pool, got) := GetCmd(a.pool);
    if got.None? then (a, NoFreeSlot)
    else
      var j := got.value;
      var c := pool.cmds[j];
      var a1 := a.(pool := pool.(cmds := pool.cmds[j := c.(frame := AbortFrame(c.frame, a.pool.cmds[target]),
                                                         syncCmd := true, statusDrv := STAT_INVALID_STATUS)]));
      if a1.health.adprecovery == HwCriticalError then (a1, AbortEnded(DcmdNotFired))
      else
        var (a2, failed) := IssueDcmd(a1, j, refused);
        if failed then (a2, AbortEnded(DcmdNotFired)) else (a2, AbortIssued(j))
  }

  /**
   * The waking half of megasas_issue_blocked_abort_cmd for abort slot `j`:
   * an unchanged status is a timeout (the slot stays taken) or, with no
   * timeout, still sleeping; otherwise sync_cmd is cleared, the slot is
   * handed back, and the result is success exactly when the status is OK.
   */
  function AbortFinish(a: Adapter, j: nat, timeout: nat): (r: Outcome<(Adapter, Option<DcmdStatus>)>)
    requires Valid(a) && j < |a.pool.cmds|
    ensures a.pool.cmds[j].statusDrv == STAT_INVALID_STATUS ==> r == Done((a, if timeout != 0 then Some(DcmdTimeout) else None))
    ensures a.pool.cmds[j].statusDrv != STAT_INVALID_STATUS ==> (r.Halted? <==> !Held(a, j))
    ensures r.Done? && a.pool.cmds[j].statusDrv != STAT_INVALID_STATUS ==>
              && Valid(r.value.0) && SameFrame(a, r.value.0)
              && r.value.1 == Some(if a.pool.cmds[j].statusDrv == STAT_OK then DcmdSuccess else DcmdFailed)
              && !r.value.0.pool.cmds[j].syncCmd
              && (a.pool.cmds[j].flags & DRV_DCMD_POLLED_MODE == 0 ==>
                    multiset(r.value.0.pool.free) == multiset(a.pool.free) + multiset{j})
  {
    var c := a.pool.cmds[j];
    if c.statusDrv == STAT_INVALID_STATUS then Done((a, if timeout != 0 then Some(DcmdTimeout) else None))
    else if !Held(a, j) then Halted(ListCorruption(j))
    else
      var a1 := SetCmd(a, j, c.(syncCmd := false));
      Done((Release(a1, j), Some(if c.statusDrv == STAT_OK then DcmdSuccess else DcmdFailed)))
  }

  /** On an abort frame with a sleeper, megasas_complete_cmd wakes it with status 0 whatever the firmware wrote. */
  lemma CompleteSyncAbort(a: Adapter, j: nat, status: bv8)
    requires Valid(a) && j < |a.pool.cmds|
    requires a.pool.cmds[j].frame.cmd == CMD_ABORT && a.pool.cmds[j].syncCmd
    ensures CompleteCmd(a, j, 0).Done?
    ensures CompleteCmd(a, j, 0).value.pool.cmds[j] == a.pool.cmds[j].(retry := 0, syncCmd := false, statusDrv := STAT_OK)
    ensures CompleteCmd(a, j, 0).value.pool.free == a.pool.free
    ensures CompleteCmd(a, j, 0).value.pending == a.pending
  {
    var a0 := ClearRetry(a, j);
    assert a0.pool.cmds[j] == a.pool.cmds[j].(retry := 0);
    assert CompleteCmd(a, j, 0) == Done(WakeWaiter(a0, j, 0));
  }

  /**
   * An abort that is posted and answered succeeds, whatever status the
   * firmware gives it, and its slot goes back to the free list.
   */
  lemma AbortRoundTrip(a: Adapter, target: nat, status: bv8, timeout: nat)
    requires Valid(a) && target < |a.pool.cmds| && |a.pool.free| > 0
    requires a.health.adprecovery != HwCriticalError
    requires forall k :: k in a.pool.free ==> a.pool.cmds[k].flags & DRV_DCMD_POLLED_MODE == 0
    ensures var (a1, step) := AbortStart(a, target, false);
            && step.AbortIssued?
            && var a2 := FirmwareAnswers(a1, step.slot, status);
            && var o := CompleteCmd(a2, step.slot, 0);
            && o.Done?
            && var f := AbortFinish(o.value, step.slot, timeout);
            && f.Done? && f.value.1 == Some(DcmdSuccess)
            && multiset(f.value.0.pool.free) == multiset(a.pool.free)
  {
    var (a1, step) := AbortStart(a, target, false);
    var j := step.slot;
    assert j == a.pool.free[0] && j in a.pool.free;
    assert j !in a.pending;
    var a2 := FirmwareAnswers(a1, j, status);
    CompleteSyncAbort(a2, j, status);
    var o := CompleteCmd(a2, j, 0);
    assert Held(o.value, j);
    assert o.value.pool.cmds[j].flags == a.pool.cmds[j].flags;
  }
}

=== FILE: doorbell.dfy ===
/**
 * The per-generation register encoders of the MFI templates: how fire_cmd
 * turns a frame address and an extra-frame count into inbound queue port
 * writes, and how clear_intr turns the outbound interrupt status into the
 * driver's interrupt flags and an acknowledging write.
 *
 * Register values are 32 bits wide; they are held here in 64-bit words
 * whose upper half is zero, so that no width conversion is needed next to
 * the 64-bit DMA address.
 */
module Doorbell {
  import opened Wrappers
  import opened MfiDefs
  import opened Instance

  const M32: bv64 := 0xFFFF_FFFF

  /** The frame pool hands out frames on 256-byte boundaries, so the low byte of a frame address is free. */
  predicate FrameAligned(addr: bv64) {
    addr & 0xFF == 0
  }

  datatype QueuePort = InboundQueuePort | InboundHighQueuePort | InboundLowQueuePort
  datatype PortWrite = PortWrite(port: QueuePort, value: bv64)

  predicate IsRegValue(v: bv64) {
    v & M32 == v
  }

  // ---------------------------------------------------------------------
  // fire_cmd
  // ---------------------------------------------------------------------

  /** megasas_fire_cmd_xscale: the address shifted right by three, the count in the freed low bits. */
  function FireXscale(addr: bv64, count: bv64): (w: PortWrite)
    ensures w.port == InboundQueuePort && IsRegValue(w.value)
  {
    PortWrite(InboundQueuePort, ((addr >> 3) | count) & M32)
  }

  /** megasas_fire_cmd_ppc and megasas_fire_cmd_gen2: the address, the count shifted left by one, and bit 0 set. */
  function FirePpc(addr: bv64, count: bv64): (w: PortWrite)
    ensures w.port == InboundQueuePort && IsRegValue(w.value)
    ensures w.value & 1 == 1
  {
    PortWrite(InboundQueuePort, ((addr | (count << 1)) | 1) & M32)
  }

  /** megasas_fire_cmd_skinny: the upper address half first, then the lower half tagged like ppc. */
  function FireSkinny(addr: bv64, count: bv64): (ws: seq<PortWrite>)
    ensures |ws| == 2
    ensures ws[0].port == InboundHighQueuePort && ws[1].port == InboundLowQueuePort
    ensures IsRegValue(ws[0].value) && IsRegValue(ws[1].value)
    ensures ws[1].value & 1 == 1
  {
    [PortWrite(InboundHighQueuePort, addr >> 32),
     PortWrite(InboundLowQueuePort, (((addr & M32) | (count << 1)) | 1) & M32)]
  }

  /** What the firmware recovers from an xscale queue-port word. */
  function DecodeXscale(v: bv64): (bv64, bv64) {
    ((v & !7 & M32) << 3, v & 7)
  }

  /** What the firmware recovers from a ppc/gen2 queue-port word or a skinny low word. */
  function DecodeTagged(v: bv64): (bv64, bv64) {
    (v & !0xFF & M32, (v >> 1) & 0x7F)
  }

  /** An aligned frame below 2^35 and a count of at most seven survive the xscale encoding. */
  lemma FireXscaleRoundTrip(addr: bv64, count: bv64)
    requires FrameAligned(addr) && addr < 0x8_0000_0000 && count < 8
    ensures DecodeXscale(FireXscale(addr, count).value) == (addr, count)
  {
  }

  /** An aligned 32-bit frame address and a count below 128 survive the ppc/gen2 encoding. */
  lemma FirePpcRoundTrip(addr: bv64, count: bv64)
    requires FrameAligned(addr) && IsRegValue(addr) && count < 128
    ensures DecodeTagged(FirePpc(addr, count).value) == (addr, count)
  {
  }

  /** On skinny controllers any aligned 64-bit address survives: the high word carries the upper half. */
  lemma FireSkinnyRoundTrip(addr: bv64, count: bv64)
    requires FrameAligned(addr) && count < 128
    ensures var ws := FireSkinny(addr, count);
            var (lo, n) := DecodeTagged(ws[1].value);
            (ws[0].value << 32) | lo == addr && n == count
  {
  }

  /** What the firmware reads back from a template's queue-port writes. */
  function DecodeFire(t: Template, ws: seq<PortWrite>): (bv64, bv64)
    requires t != FusionTemplate && |ws| > 0
  {
    if t == XscaleTemplate then DecodeXscale(ws[0].value)
    else if t == SkinnyTemplate && |ws| == 2 then
      var (lo, n) := DecodeTagged(ws[1].value);
      ((ws[0].value << 32) | lo, n)
    else DecodeTagged(ws[0].value)
  }

  /** instancet->fire_cmd for the four MFI templates: one queue-port write, two on skinny. */
  function FireCmd(t: Template, addr: bv64, count: bv64): (ws: seq<PortWrite>)
    requires t != FusionTemplate
    ensures |ws| == (if t == SkinnyTemplate then 2 else 1)
    ensures forall k :: 0 <= k < |ws| ==> IsRegValue(ws[k].value)
  {
    if t == XscaleTemplate then [FireXscale(addr, count)]
    else if t == SkinnyTemplate then FireSkinny(addr, count)
    else [FirePpc(addr, count)]
  }

  /**
   * Every frame the engine fires (an aligned frame and at most seven extra
   * frames) is recovered intact by the firmware, provided an xscale frame
   * lies below 2^35 and a ppc or gen2 frame below 4 GiB.
   */
  lemma FireCmdRoundTrip(t: Template, addr: bv64, count: bv64)
    requires t != FusionTemplate
    requires FrameAligned(addr) && count < 8
    requires t == XscaleTemplate ==> addr < 0x8_0000_0000
    requires t == PpcTemplate || t == Gen2Template ==> IsRegValue(addr)
    ensures DecodeFire(t, FireCmd(t, addr, count)) == (addr, count)
  {
    if t == XscaleTemplate {
      XscaleFires(addr, count);
    } else if t == SkinnyTemplate {
      SkinnyFires(addr, count);
    } else {
      TaggedFires(t, addr, count);
    }
  }

  lemma XscaleFires(addr: bv64, count: bv64)
    requires FrameAligned(addr) && addr < 0x8_0000_0000 && count < 8
    ensures DecodeFire(XscaleTemplate, FireCmd(XscaleTemplate, addr, count)) == (addr, count)
  {
    FireXscaleRoundTrip(addr, count);
  }

  lemma SkinnyFires(addr: bv64, count: bv64)
    requires FrameAligned(addr) && count < 8
    ensures DecodeFire(SkinnyTemplate, FireCmd(SkinnyTemplate, addr, count)) == (addr, count)
  {
    FireSkinnyRoundTrip(addr, count);
  }

  lemma TaggedFires(t: Template, addr: bv64, count: bv64)
    requires t == PpcTemplate || t == Gen2Template
    requires FrameAligned(addr) && IsRegValue(addr) && count < 8
    ensures DecodeFire(t, FireCmd(t, addr, count)) == (addr, count)
  {
    FirePpcRoundTrip(addr, count);
  }

  // ---------------------------------------------------------------------
  // clear_intr
  // ---------------------------------------------------------------------

  const INTR_FLAG_REPLY_MESSAGE: bv32 := 0x1
  const INTR_FLAG_FIRMWARE_STATE_CHANGE: bv32 := 0x2
  const XSCALE_OMR0_CHANGE_INTERRUPT: bv32 := 0x1
  const OB_INTR_STATUS_MASK: bv32 := 0x2
  const G2_OUTBOUND_DOORBELL_CHANGE_INTERRUPT: bv32 := 0x4
  const REPLY_1078_MESSAGE_INTERRUPT: bv32 := 0x8000_0000
  const SKINNY_ENABLE_INTERRUPT_MASK: bv32 := 0x1
  const REPLY_G2_MESSAGE_INTERRUPT: bv32 := 0x1

  /** The interrupt flags the ISR acts on, and the write (if any) that acknowledged the status. */
  datatype IntrAck = IntrAck(flags: bv32, ack: Option<(Reg, bv32)>)

  function Flag(cond: bool, f: bv32): bv32 {
    if cond then f else 0
  }

  /** megasas_clear_intr_xscale: acknowledges on the status register, only when it claims the interrupt. */
  function ClearIntrXscale(status: bv32): (r: IntrAck)
    ensures r.flags & !3 == 0
    ensures (r.flags & INTR_FLAG_REPLY_MESSAGE != 0) <==> (status & OB_INTR_STATUS_MASK != 0)
    ensures (r.flags & INTR_FLAG_FIRMWARE_STATE_CHANGE != 0) <==> (status & XSCALE_OMR0_CHANGE_INTERRUPT != 0)
    ensures r.ack.Some? <==> r.flags != 0
    ensures r.ack.Some? ==> r.ack.value == (OutboundIntrStatus, status)
  {
    var f := Flag(status & OB_INTR_STATUS_MASK != 0, INTR_FLAG_REPLY_MESSAGE)
           | Flag(status & XSCALE_OMR0_CHANGE_INTERRUPT != 0, INTR_FLAG_FIRMWARE_STATE_CHANGE);
    IntrAck(f, if f != 0 then Some((OutboundIntrStatus, status)) else None)
  }

  /** megasas_clear_intr_ppc: always writes the status back to the doorbell-clear register. */
  function ClearIntrPpc(status: bv32): (r: IntrAck)
    ensures r.flags & !3 == 0
    ensures (r.flags & INTR_FLAG_REPLY_MESSAGE != 0) <==> (status & REPLY_1078_MESSAGE_INTERRUPT != 0)
    ensures (r.flags & INTR_FLAG_FIRMWARE_STATE_CHANGE != 0) <==> (status & G2_OUTBOUND_DOORBELL_CHANGE_INTERRUPT != 0)
    ensures r.ack == Some((OutboundDoorbellClear, status))
  {
    var f := Flag(status & REPLY_1078_MESSAGE_INTERRUPT != 0, INTR_FLAG_REPLY_MESSAGE)
           | Flag(status & G2_OUTBOUND_DOORBELL_CHANGE_INTERRUPT != 0, INTR_FLAG_FIRMWARE_STATE_CHANGE);
    IntrAck(f, Some((OutboundDoorbellClear, status)))
  }

  /**
   * megasas_clear_intr_skinny: an interrupt without the enable bit is not
   * ours and is not acknowledged; otherwise a faulted firmware makes it a
   * state change and anything else a reply, never both.
   */
  function ClearIntrSkinny(status: bv32, fwStatus: bv32): (r: IntrAck)
    ensures status & SKINNY_ENABLE_INTERRUPT_MASK == 0 ==> r == IntrAck(0, None)
    ensures status & SKINNY_ENABLE_INTERRUPT_MASK != 0 ==>
              && r.ack == Some((OutboundIntrStatus, status))
              && (r.flags == INTR_FLAG_FIRMWARE_STATE_CHANGE <==> fwStatus & STATE_MASK == STATE_FAULT)
              && (r.flags == INTR_FLAG_REPLY_MESSAGE <==> fwStatus & STATE_MASK != STATE_FAULT)
  {
    if status & SKINNY_ENABLE_INTERRUPT_MASK == 0 then IntrAck(0, None)
    else if fwStatus & STATE_MASK == STATE_FAULT then
      IntrAck(INTR_FLAG_FIRMWARE_STATE_CHANGE, Some((OutboundIntrStatus, status)))
    else
      IntrAck(INTR_FLAG_REPLY_MESSAGE, Some((OutboundIntrStatus, status)))
  }

  /** megasas_clear_intr_gen2: acknowledges on the doorbell-clear register, only when it claims the interrupt. */
  function ClearIntrGen2(status: bv32): (r: IntrAck)
    ensures r.flags & !3 == 0
    ensures (r.flags & INTR_FLAG_REPLY_MESSAGE != 0) <==> (status & REPLY_G2_MESSAGE_INTERRUPT != 0)
    ensures (r.flags & INTR_FLAG_FIRMWARE_STATE_CHANGE != 0) <==> (status & G2_OUTBOUND_DOORBELL_CHANGE_INTERRUPT != 0)
    ensures r.ack.Some? <==> r.flags != 0
    ensures r.ack.Some? ==> r.ack.value == (OutboundDoorbellClear, status)
  {
    var f := Flag(status & REPLY_G2_MESSAGE_INTERRUPT != 0, INTR_FLAG_REPLY_MESSAGE)
           | Flag(status & G2_OUTBOUND_DOORBELL_CHANGE_INTERRUPT != 0, INTR_FLAG_FIRMWARE_STATE_CHANGE);
    IntrAck(f, if f != 0 then Some((OutboundDoorbellClear, status)) else None)
  }

  /**
   * Across the four templates, an interrupt the driver claims is always
   * acknowledged by writing back exactly the status it read, and a status
   * with none of the template's bits is never claimed.
   */
  lemma ClaimedInterruptsAreAcknowledged(status: bv32, fwStatus: bv32)
    ensures ClearIntrXscale(status).flags != 0 ==> ClearIntrXscale(status).ack.value.1 == status
    ensures ClearIntrPpc(status).flags != 0 ==> ClearIntrPpc(status).ack.value.1 == status
    ensures ClearIntrSkinny(status, fwStatus).flags != 0 ==> ClearIntrSkinny(status, fwStatus).ack.value.1 == status
    ensures ClearIntrGen2(status).flags != 0 ==> ClearIntrGen2(status).ack.value.1 == status
    ensures status & 0x3 == 0 ==> ClearIntrXscale(status).flags == 0
    ensures status & 0x8000_0004 == 0 ==> ClearIntrPpc(status).flags == 0
    ensures status & 0x1 == 0 ==> ClearIntrSkinny(status, fwStatus).flags == 0
    ensures status & 0x5 == 0 ==> ClearIntrGen2(status).flags == 0
  {
  }

  /** instancet->clear_intr of the template in use; the fusion template has its own interrupt path. */
  function ClearIntr(t: Template, status: bv32, fwStatus: bv32): (r: IntrAck)
    requires t != FusionTemplate
    ensures r.flags & !3 == 0
    ensures r.flags != 0 ==> r.ack.Some? && r.ack.value.1 == status
  {
    match t
      case XscaleTemplate => ClearIntrXscale(status)
      case PpcTemplate => ClearIntrPpc(status)
      case SkinnyTemplate => ClearIntrSkinny(status, fwStatus)
      case Gen2Template => ClearIntrGen2(status)
  }
}

=== FILE: fusion_context.dfy ===
/**
 * The two-byte SGE-count/stream field of the generation-3.5 RAID context
 * (RAID_CONTEXT_G35 in megaraid_sas_fusion.h), the span/arm byte masks and
 * the stream-tracking bitmap constants.
 */
module FusionContext {

  const NUM_SGE_MASK_LOWER: bv16 := 0xFF
  const NUM_SGE_MASK_UPPER: bv16 := 0x0F
  const NUM_SGE_SHIFT_UPPER: nat := 8
  const STREAM_DETECT_MASK: bv16 := 0x80
  /** STREAM_DETECT_MASK at its position in the 16-bit word (bit 7 of bytes[1]). */
  const STREAM_DETECT_BIT: bv16 := 0x8000

  /**
   * The `u.bytes[0..1]` view of the RAID context field, held as one 16-bit
   * word: bytes[0] is bits 0..7 and bytes[1] is bits 8..15, as in the
   * structure's little-endian bitfield layout.
   */
  datatype RaidContextG35 = RaidContextG35(word: bv16)

  /** bytes[1], still in the low eight bits of a 16-bit value. */
  function Byte1(c: RaidContextG35): bv16 {
    c.word >> 8
  }

  /** The 12-bit SGE count: the low nibble of byte 1 above byte 0. */
  function GetNumSge(c: RaidContextG35): (n: bv16)
    ensures n < 4096
  {
    ((Byte1(c) & NUM_SGE_MASK_UPPER) << 8) | (c.word & 0xFF)
  }

  function IsStreamDetected(c: RaidContextG35): bool {
    Byte1(c) & STREAM_DETECT_MASK != 0
  }

  /**
   * set_num_sge: byte 0 is overwritten with the low eight bits of the count,
   * byte 1 is only OR-ed into with its upper four bits, so bits already set
   * there (the stream-detected bit among them) survive, and the count reads
   * back only when the low nibble of byte 1 was clear.
   */
  function SetNumSge(c: RaidContextG35, n: bv16): (r: RaidContextG35)
    ensures r.word & 0xFF == n & 0xFF
  {
    var lower := n & NUM_SGE_MASK_LOWER;
    var upper := (n >> 8) & NUM_SGE_MASK_UPPER;
    RaidContextG35(((Byte1(c) | upper) << 8) | lower)
  }

  /** Setting the count leaves the upper nibble of byte 1, and with it the stream-detected flag, as it was. */
  lemma SetNumSgeKeepsFlags(c: RaidContextG35, n: bv16)
    ensures Byte1(SetNumSge(c, n)) & 0xF0 == Byte1(c) & 0xF0
    ensures IsStreamDetected(SetNumSge(c, n)) == IsStreamDetected(c)
  {
    OrIntoByte1KeepsHighNibble(c.word, (n >> 8) & NUM_SGE_MASK_UPPER, n & NUM_SGE_MASK_LOWER);
  }

  /** Setting the count never clears a bit of byte 1. */
  lemma SetNumSgeOnlyOrs(c: RaidContextG35, n: bv16)
    ensures Byte1(SetNumSge(c, n)) & Byte1(c) == Byte1(c)
  {
    OrIntoByte1KeepsBits(c.word, (n >> 8) & NUM_SGE_MASK_UPPER, n & NUM_SGE_MASK_LOWER);
  }

  lemma OrIntoByte1KeepsHighNibble(w: bv16, upper: bv16, lower: bv16)
    requires upper < 0x10 && lower < 0x100
    ensures (((((w >> 8) | upper) << 8) | lower) >> 8) & 0xF0 == (w >> 8) & 0xF0
  {
  }

  lemma OrIntoByte1KeepsBits(w: bv16, upper: bv16, lower: bv16)
    requires lower < 0x100
    ensures ((((((w >> 8) | upper) << 8) | lower) >> 8) & (w >> 8)) == w >> 8
  {
  }

  lemma OrIntoByte1ReadsBack(w: bv16, n: bv16)
    requires n < 4096 && (w >> 8) & 0x0F == 0
    ensures var r := (((w >> 8) | ((n >> 8) & 0x0F)) << 8) | (n & 0xFF);
            (((r >> 8) & 0x0F) << 8) | (r & 0xFF) == n
  {
  }

  /** SET_STREAM_DETECTED: the flag reads true and the SGE count is untouched. */
  function SetStreamDetected(c: RaidContextG35): (r: RaidContextG35)
    ensures IsStreamDetected(r)
    ensures GetNumSge(r) == GetNumSge(c)
  {
    RaidContextG35(c.word | STREAM_DETECT_BIT)
  }

  /** CLEAR_STREAM_DETECTED: the flag reads false and the SGE count is untouched. */
  function ClearStreamDetected(c: RaidContextG35): (r: RaidContextG35)
    ensures !IsStreamDetected(r)
    ensures GetNumSge(r) == GetNumSge(c)
  {
    RaidContextG35(c.word & !STREAM_DETECT_BIT)
  }

  /** Writing a count into a fresh context and reading it back is the identity. */
  lemma SgeCountRoundTrip(c: RaidContextG35, n: bv16)
    requires n < 4096
    requires Byte1(c) & 0x0F == 0
    ensures GetNumSge(SetNumSge(c, n)) == n
    ensures GetNumSge(SetStreamDetected(SetNumSge(c, n))) == n
    ensures IsStreamDetected(SetStreamDetected(SetNumSge(c, n)))
    ensures !IsStreamDetected(ClearStreamDetected(SetNumSge(c, n)))
  {
    OrIntoByte1ReadsBack(c.word, n);
  }

  // ---------------------------------------------------------------------
  // span/arm byte and stream bitmap
  // ---------------------------------------------------------------------

  const SPANARM_ARM_SHIFT: nat := 0
  const SPANARM_ARM_MASK: bv8 := 0x1f
  const SPANARM_SPAN_SHIFT: nat := 5
  const SPANARM_SPAN_MASK: bv8 := 0xE0

  /** Packs a span (< 8) and an arm (< 32) into the span/arm byte. */
  function SpanArm(span: bv8, arm: bv8): (b: bv8)
    requires span < 8 && arm < 32
    ensures (b & SPANARM_SPAN_MASK) >> SPANARM_SPAN_SHIFT == span
    ensures (b & SPANARM_ARM_MASK) >> SPANARM_ARM_SHIFT == arm
  {
    (span << SPANARM_SPAN_SHIFT) | (arm << SPANARM_ARM_SHIFT)
  }

  /** The arm and span masks are disjoint, cover the byte, and the span shift aligns with its mask. */
  lemma SpanArmMasks()
    ensures SPANARM_ARM_MASK & SPANARM_SPAN_MASK == 0
    ensures SPANARM_ARM_MASK | SPANARM_SPAN_MASK == 0xFF
    ensures ((0x7 as bv8) << SPANARM_SPAN_SHIFT) == SPANARM_SPAN_MASK
    ensures ((0x1f as bv8) << SPANARM_ARM_SHIFT) == SPANARM_ARM_MASK
  {
  }

  const BITS_PER_INDEX_STREAM: nat := 4
  const MR_STREAM_BITMAP: bv32 := 0x7654_3210
  const STREAM_MASK: bv32 := ((1 as bv32) << BITS_PER_INDEX_STREAM) - 1
  const MAX_STREAMS_TRACKED: nat := 8

  /** Slot `i` of a stream-tracking word. */
  function StreamNibble(w: bv32, i: nat): bv32
    requires i < MAX_STREAMS_TRACKED
  {
    (w >> (BITS_PER_INDEX_STREAM * i)) & STREAM_MASK
  }

  /** The initial stream bitmap holds the identity permutation 0..7, one nibble per slot. */
  lemma StreamBitmapIsIdentity(i: nat)
    requires i < MAX_STREAMS_TRACKED
    ensures STREAM_MASK == 0xF
    ensures StreamNibble(MR_STREAM_BITMAP, i) == i as bv32
  {
  }
}

=== FILE: fw_ready.dfy ===
/**
 * Bringing the firmware to READY (megasas_transition_to_ready) and the gen2
 * adapter reset (megasas_adp_reset_gen2). Both read a status register in a
 * loop; the register is a supplied trace of the values successive reads
 * return, and the register writes are returned as events. Running off the
 * end of a trace is its own outcome: the hardware stopped being described.
 */
module FwReady {
  import opened Wrappers
  import opened MfiDefs
  import opened Instance

  /** MEGASAS_RESET_WAIT_TIME seconds of one-millisecond polls per state. */
  const STATE_POLL_BUDGET: nat := RESET_WAIT_TIME * 1000

  predicate IsReady(v: bv32) {
    v & STATE_MASK == STATE_READY
  }

  datatype ReadyResult = ReadyOk | NoDevice | ReadyTraceEnded

  /** The outcome, the writes issued, and how many register reads were consumed. */
  datatype ReadyRun = ReadyRun(result: ReadyResult, events: seq<Event>, consumed: nat)

  /** The inbound-doorbell register used for the handshake: `doorbell` on skinny and fusion, else `inbound_doorbell`. */
  function HandshakeReg(hw: Hw): Reg {
    if IsSkinny(hw) || hw.fusion then Doorbell else InboundDoorbell
  }

  /** The only effects transition_to_ready has. */
  predicate ReadyEvent(hw: Hw, e: Event) {
    || e == DisableIntr
    || e == RegWrite(HandshakeReg(hw), INIT_CLEAR_HANDSHAKE | INIT_HOTPLUG)
    || e == RegWrite(HandshakeReg(hw), INIT_HOTPLUG)
    || e == RegWrite(HandshakeReg(hw), RESET_FLAGS)
  }

  /**
   * The writes issued on entering a state before waiting for it to change,
   * or None where the driver gives up with -ENODEV (FAULT without ocr, and
   * any state the switch does not list).
   */
  function StateAction(hw: Hw, ocr: bool, reg: bv32): (r: Option<seq<Event>>)
    ensures r.Some? ==> forall e :: e in r.value ==> ReadyEvent(hw, e)
    ensures DecodeState(reg).None? ==> r.None?
    ensures DecodeState(reg) == Some(Fault) ==> (r.None? <==> !ocr)
    ensures DecodeState(reg).Some? && DecodeState(reg) != Some(Fault) && DecodeState(reg) != Some(Ready) ==> r.Some?
  {
    match DecodeState(reg)
    case None => None
    case Some(s) =>
      match s
      case Fault => if ocr then Some([]) else None
      case WaitHandshake => Some([RegWrite(HandshakeReg(hw), INIT_CLEAR_HANDSHAKE | INIT_HOTPLUG)])
      case BootMessagePending => Some([RegWrite(HandshakeReg(hw), INIT_HOTPLUG)])
      case Operational => Some([DisableIntr, RegWrite(HandshakeReg(hw), RESET_FLAGS)])
      case Ready => None
      case _ => Some([])
  }

  datatype Poll = Changed(at: nat) | Unchanged | PollTraceEnded

  /**
   * The inner wait: reads from position `i` until one differs from `abs` in
   * any of its 32 bits, for reads below position `limit`.
   */
  function PollChange(abs: bv32, trace: seq<bv32>, i: nat, limit: nat): (r: Poll)
    requires i <= limit && i <= |trace|
    decreases limit - i
    ensures r.Changed? ==> && i <= r.at < limit && r.at < |trace| && trace[r.at] != abs
                           && forall j :: i <= j < r.at ==> trace[j] == abs
    ensures r.Unchanged? ==> limit <= |trace| && forall j :: i <= j < limit ==> trace[j] == abs
    ensures r.PollTraceEnded? ==> i <= |trace| < limit && forall j :: i <= j < |trace| ==> trace[j] == abs
  {
    if i >= limit then Unchanged
    else if i >= |trace| then PollTraceEnded
    else if trace[i] != abs then Changed(i)
    else PollChange(abs, trace, i + 1, limit)
  }

  /**
   * The outer loop, with `trace[pos - 1]` the last value read. Every pass
   * through a non-READY state consumes at least one read, so the loop ends
   * on every finite trace.
   */
  function ReadyLoop(hw: Hw, ocr: bool, trace: seq<bv32>, pos: nat, ev: seq<Event>): (r: ReadyRun)
    requires 0 < pos <= |trace|
    requires forall e :: e in ev ==> ReadyEvent(hw, e)
    decreases |trace| - pos
    ensures pos <= r.consumed <= |trace|
    ensures r.result == ReadyOk ==> IsReady(trace[r.consumed - 1])
    ensures forall e :: e in r.events ==> ReadyEvent(hw, e)
  {
    var abs := trace[pos - 1];
    if IsReady(abs) then ReadyRun(ReadyOk, ev, pos)
    else match StateAction(hw, ocr, abs)
      case None => ReadyRun(NoDevice, ev, pos)
      case Some(w) =>
        var ev' := ev + w;
        match PollChange(abs, trace, pos, pos + STATE_POLL_BUDGET)
        case Changed(k) => ReadyLoop(hw, ocr, trace, k + 1, ev')
        case Unchanged => ReadyRun(NoDevice, ev', pos + STATE_POLL_BUDGET)
        case PollTraceEnded => ReadyRun(ReadyTraceEnded, ev', |trace|)
  }

  /** The loop only ever appends writes to those already issued. */
  lemma {:induction false} ReadyLoopExtendsLog(hw: Hw, ocr: bool, trace: seq<bv32>, pos: nat, ev: seq<Event>)
    requires 0 < pos <= |trace|
    requires forall e :: e in ev ==> ReadyEvent(hw, e)
    decreases |trace| - pos
    ensures ev <= ReadyLoop(hw, ocr, trace, pos, ev).events
  {
    var abs := trace[pos - 1];
    ReadyLoopStep(hw, ocr, trace, pos, ev);
    if !IsReady(abs) && StateAction(hw, ocr, abs).Some? {
      var ev' := ev + StateAction(hw, ocr, abs).value;
      var p := PollChange(abs, trace, pos, pos + STATE_POLL_BUDGET);
      if p.Changed? {
        ReadyLoopExtendsLog(hw, ocr, trace, p.at + 1, ev');
      }
    }
  }

  /** One pass of the outer loop: the writes of the state just read are appended, then the loop goes on from the change or stops. */
  lemma ReadyLoopStep(hw: Hw, ocr: bool, trace: seq<bv32>, pos: nat, ev: seq<Event>)
    requires 0 < pos <= |trace|
    requires forall e :: e in ev ==> ReadyEvent(hw, e)
    ensures var abs := trace[pos - 1];
            var r := ReadyLoop(hw, ocr, trace, pos, ev);
            var sa := StateAction(hw, ocr, abs);
            && (IsReady(abs) || sa.None? ==> r.events == ev)
            && (!IsReady(abs) && sa.Some? ==>
                  var p := PollChange(abs, trace, pos, pos + STATE_POLL_BUDGET);
                  && ev <= ev + sa.value
                  && (p.Changed? ==> r == ReadyLoop(hw, ocr, trace, p.at + 1, ev + sa.value))
                  && (!p.Changed? ==> r.events == ev + sa.value)
                  && (p.Unchanged? ==> r.result == NoDevice && r.consumed == pos + STATE_POLL_BUDGET)
                  && (p.PollTraceEnded? ==> r.result == ReadyTraceEnded && r.consumed == |trace|))
  {
  }

  /** megasas_transition_to_ready(instance, ocr) over a trace of firmware status reads. */
  function TransitionToReady(hw: Hw, ocr: bool, trace: seq<bv32>): (r: ReadyRun)
    ensures r.consumed <= |trace|
    ensures r.result == ReadyOk ==> r.consumed > 0 && IsReady(trace[r.consumed - 1])
    ensures forall e :: e in r.events ==> ReadyEvent(hw, e)
  {
    if |trace| == 0 then ReadyRun(ReadyTraceEnded, [], 0)
    else ReadyLoop(hw, ocr, trace, 1, [])
  }

  /** Firmware already READY: success after one read and no writes. */
  lemma AlreadyReady(hw: Hw, ocr: bool, trace: seq<bv32>)
    requires |trace| > 0 && trace[0] & STATE_MASK == STATE_READY
    ensures TransitionToReady(hw, ocr, trace) == ReadyRun(ReadyOk, [], 1)
  {
  }

  /** FAULT without ocr, or a state the switch does not list, fails at once, writing nothing. */
  lemma FaultOrUnknownFailsAtOnce(hw: Hw, ocr: bool, trace: seq<bv32>)
    requires |trace| > 0
    requires (DecodeState(trace[0]) == Some(Fault) && !ocr) || DecodeState(trace[0]).None?
    ensures TransitionToReady(hw, ocr, trace) == ReadyRun(NoDevice, [], 1)
  {
    assert trace[0] & STATE_MASK != STATE_READY by {
      if DecodeState(trace[0]).None? {
        assert StateCode(Ready) != trace[0] & STATE_MASK;
      }
    }
  }

  /**
   * A listed, non-READY state whose raw register value then stays the same
   * for the whole polling budget makes the driver give up with -ENODEV
   * after exactly that many further reads, wherever in the run that state
   * was reached and whatever was written before.
   */
  lemma StuckStateFailsAt(hw: Hw, ocr: bool, trace: seq<bv32>, pos: nat, ev: seq<Event>)
    requires 0 < pos && pos + STATE_POLL_BUDGET <= |trace|
    requires forall e :: e in ev ==> ReadyEvent(hw, e)
    requires !IsReady(trace[pos - 1])
    requires StateAction(hw, ocr, trace[pos - 1]).Some?
    requires forall j :: pos <= j < pos + STATE_POLL_BUDGET ==> trace[j] == trace[pos - 1]
    ensures ReadyLoop(hw, ocr, trace, pos, ev)
              == ReadyRun(NoDevice, ev + StateAction(hw, ocr, trace[pos - 1]).value, pos + STATE_POLL_BUDGET)
  {
    PollStaysUnchanged(trace[pos - 1], trace, pos, pos + STATE_POLL_BUDGET);
  }

  /** The first read stuck in a listed, non-READY state: the whole handshake fails with -ENODEV. */
  lemma StuckStateFails(hw: Hw, ocr: bool, trace: seq<bv32>)
    requires |trace| > STATE_POLL_BUDGET
    requires trace[0] & STATE_MASK != STATE_READY
    requires StateAction(hw, ocr, trace[0]).Some?
    requires forall j :: 1 <= j <= STATE_POLL_BUDGET ==> trace[j] == trace[0]
    ensures TransitionToReady(hw, ocr, trace).result == NoDevice
    ensures TransitionToReady(hw, ocr, trace).consumed == 1 + STATE_POLL_BUDGET
  {
    StuckStateFailsAt(hw, ocr, trace, 1, []);
  }

  lemma {:induction false} PollStaysUnchanged(abs: bv32, trace: seq<bv32>, i: nat, limit: nat)
    requires i <= limit <= |trace|
    requires forall j :: i <= j < limit ==> trace[j] == abs
    ensures PollChange(abs, trace, i, limit) == Unchanged
    decreases limit - i
  {
    if i < limit {
      PollStaysUnchanged(abs, trace, i + 1, limit);
    }
  }

  /** The wait ends at the first read that differs from `abs`, if it comes before the limit. */
  lemma {:induction false} PollFindsFirstChange(abs: bv32, trace: seq<bv32>, i: nat, limit: nat, k: nat)
    requires i <= k < limit && k < |trace|
    requires forall j :: i <= j < k ==> trace[j] == abs
    requires trace[k] != abs
    ensures PollChange(abs, trace, i, limit) == Changed(k)
    decreases k - i
  {
    if i < k {
      PollFindsFirstChange(abs, trace, i + 1, limit, k);
    }
  }

  /** The action taken for a status word depends only on its state nibble. */
  lemma SameStateSameAction(hw: Hw, ocr: bool, u: bv32, v: bv32)
    requires u & STATE_MASK == v & STATE_MASK
    ensures DecodeState(u) == DecodeState(v)
    ensures IsReady(u) <==> IsReady(v)
    ensures StateAction(hw, ocr, u) == StateAction(hw, ocr, v)
  {
  }

  /**
   * Only a change of the full 32-bit value ends a wait: a register whose
   * state nibble is unchanged but whose low bits move does end it, and the
   * loop goes on from that read, in the same state, so the state's writes
   * are issued a second time.
   */
  lemma RawChangeReappliesState(hw: Hw, ocr: bool, trace: seq<bv32>, pos: nat, k: nat, ev: seq<Event>)
    requires 0 < pos <= k < pos + STATE_POLL_BUDGET && k < |trace|
    requires forall e :: e in ev ==> ReadyEvent(hw, e)
    requires !IsReady(trace[pos - 1])
    requires StateAction(hw, ocr, trace[pos - 1]).Some?
    requires forall j :: pos <= j < k ==> trace[j] == trace[pos - 1]
    requires trace[k] != trace[pos - 1] && trace[k] & STATE_MASK == trace[pos - 1] & STATE_MASK
    ensures ReadyLoop(hw, ocr, trace, pos, ev)
              == ReadyLoop(hw, ocr, trace, k + 1, ev + StateAction(hw, ocr, trace[pos - 1]).value)
    ensures !IsReady(trace[k]) && StateAction(hw, ocr, trace[k]) == StateAction(hw, ocr, trace[pos - 1])
  {
    PollFindsFirstChange(trace[pos - 1], trace, pos, pos + STATE_POLL_BUDGET, k);
    SameStateSameAction(hw, ocr, trace[k], trace[pos - 1]);
  }

  /**
   * An example of the above: FW_INIT, then FW_INIT with other low bits,
   * then READY succeeds after three reads and no writes.
   */
  lemma RawChangeRestartsState(hw: Hw, trace: seq<bv32>)
    requires |trace| >= 3
    requires DecodeState(trace[0]) == Some(FwInit)
    requires trace[1] != trace[0] && trace[1] & STATE_MASK == trace[0] & STATE_MASK
    requires trace[2] & STATE_MASK == STATE_READY
    ensures TransitionToReady(hw, false, trace) == ReadyRun(ReadyOk, [], 3)
  {
    DecodeStateInjective(FwInit, trace[0]);
    assert trace[0] & STATE_MASK != STATE_READY;
    assert StateAction(hw, false, trace[0]) == Some([]);
    RawChangeReappliesState(hw, false, trace, 1, 1, []);
    assert trace[2] != trace[1];
    PollFindsFirstChange(trace[1], trace, 2, 2 + STATE_POLL_BUDGET, 2);
    assert ReadyLoop(hw, false, trace, 2, []) == ReadyLoop(hw, false, trace, 3, [] + []);
  }

  // ---------------------------------------------------------------------
  // megasas_adp_reset_gen2
  // ---------------------------------------------------------------------

  /** The six-key unlock sequence written to the sequence register. */
  const RESET_KEYS: seq<bv32> := [0, 4, 0xb, 2, 7, 0xd]
  const DIAG_ENABLE_RETRIES: nat := 100
  const DIAG_RESET_RETRIES: nat := 1000

  datatype ResetResult = ResetOk | ResetFailed | ResetTraceEnded
  datatype ResetRun = ResetRun(result: ResetResult, events: seq<Event>, consumed: nat)
  datatype DiagPoll = Satisfied(pos: nat, retry: nat) | GaveUp(pos: nat) | DiagTraceEnded

  /** The loop condition of either wait: bit 7 not yet set (first), bit 2 still set (second). */
  predicate StillWaiting(v: bv32, waitForSet: bool, bit: bv32) {
    if waitForSet then v & bit == 0 else v & bit != 0
  }

  /**
   * One of the two host-diag waits: while the last read `trace[pos - 1]`
   * still waits, read again, and give up once the shared counter, tested
   * before it is incremented, has reached `limit`.
   */
  function DiagWait(trace: seq<bv32>, pos: nat, retry: nat, limit: nat, waitForSet: bool, bit: bv32): (r: DiagPoll)
    requires 0 < pos <= |trace|
    decreases |trace| - pos
    ensures r.Satisfied? ==> && pos <= r.pos <= |trace| && !StillWaiting(trace[r.pos - 1], waitForSet, bit)
                             && r.retry == retry + (r.pos - pos)
                             && (r.pos > pos ==> r.retry <= limit)
    ensures r.GaveUp? ==> pos < r.pos <= |trace| && (retry <= limit ==> r.pos - pos == limit - retry + 1)
  {
    if !StillWaiting(trace[pos - 1], waitForSet, bit) then Satisfied(pos, retry)
    else if pos == |trace| then DiagTraceEnded
    else if retry >= limit then GaveUp(pos + 1)
    else DiagWait(trace, pos + 1, retry + 1, limit, waitForSet, bit)
  }

  /** The unlock keys as register writes on the template's sequence register. */
  function KeyWrites(seqReg: Reg): (ws: seq<Event>)
    ensures |ws| == 6
    ensures forall k :: 0 <= k < 6 ==> ws[k] == RegWrite(seqReg, RESET_KEYS[k])
  {
    [RegWrite(seqReg, 0), RegWrite(seqReg, 4), RegWrite(seqReg, 0xb),
     RegWrite(seqReg, 2), RegWrite(seqReg, 7), RegWrite(seqReg, 0xd)]
  }

  /**
   * megasas_adp_reset_gen2 over a trace of host-diag reads. The skinny
   * template uses the fusion sequence and host-diag registers.
   */
  function AdpResetGen2(skinnyTemplate: bool, trace: seq<bv32>): (r: ResetRun)
    ensures r.consumed <= |trace|
    ensures |r.events| >= 6 && r.events[..6] == KeyWrites(if skinnyTemplate then FusionSeqOffset else SeqOffset)
    ensures r.result == ResetOk ==>
              && |r.events| == 7 && r.consumed >= 2
              && r.events[6].RegWrite? && r.events[6].value & DIAG_RESET_ADAPTER != 0
              && trace[r.consumed - 1] & DIAG_RESET_ADAPTER == 0
    ensures r.result != ResetTraceEnded ==> r.consumed <= 3 + DIAG_RESET_RETRIES
  {
    var seqReg := if skinnyTemplate then FusionSeqOffset else SeqOffset;
    var diagReg := if skinnyTemplate then FusionHostDiag else HostDiag;
    var keys := KeyWrites(seqReg);
    if |trace| == 0 then ResetRun(ResetTraceEnded, keys, 0)
    else match DiagWait(trace, 1, 0, DIAG_ENABLE_RETRIES, true, DIAG_WRITE_ENABLE)
      case DiagTraceEnded => ResetRun(ResetTraceEnded, keys, |trace|)
      case GaveUp(p) => ResetRun(ResetFailed, keys, p)
      case Satisfied(p, retry) =>
        var ev := keys + [RegWrite(diagReg, trace[p - 1] | DIAG_RESET_ADAPTER)];
        assert ev[..6] == keys;
        if p == |trace| then ResetRun(ResetTraceEnded, ev, p)
        else match DiagWait(trace, p + 1, retry, DIAG_RESET_RETRIES, false, DIAG_RESET_ADAPTER)
          case DiagTraceEnded => ResetRun(ResetTraceEnded, ev, |trace|)
          case GaveUp(q) => ResetRun(ResetFailed, ev, q)
          case Satisfied(q, _) => ResetRun(ResetOk, ev, q)
  }

  /** A controller that never raises DIAG_WRITE_ENABLE is given up on after the first read and 101 retries. */
  lemma {:induction false} WriteEnableNeverSet(skinnyTemplate: bool, trace: seq<bv32>)
    requires |trace| >= 2 + DIAG_ENABLE_RETRIES
    requires forall j :: 0 <= j < |trace| ==> trace[j] & DIAG_WRITE_ENABLE == 0
    ensures AdpResetGen2(skinnyTemplate, trace).result == ResetFailed
    ensures AdpResetGen2(skinnyTemplate, trace).consumed == 2 + DIAG_ENABLE_RETRIES
    ensures |AdpResetGen2(skinnyTemplate, trace).events| == 6
  {
    DiagNeverSatisfied(trace, 1, 0, DIAG_ENABLE_RETRIES, true, DIAG_WRITE_ENABLE);
  }

  lemma {:induction false} DiagNeverSatisfied(trace: seq<bv32>, pos: nat, retry: nat, limit: nat, waitForSet: bool, bit: bv32)
    requires 0 < pos <= |trace| && retry <= limit
    requires pos + limit - retry + 1 <= |trace|
    requires forall j :: pos - 1 <= j < |trace| ==> StillWaiting(trace[j], waitForSet, bit)
    ensures DiagWait(trace, pos, retry, limit, waitForSet, bit) == GaveUp(pos + limit - retry + 1)
    decreases limit - retry
  {
    if retry < limit {
      DiagNeverSatisfied(trace, pos + 1, retry + 1, limit, waitForSet, bit);
    }
  }
}

=== FILE: geometry.dfy ===
/**
 * Small arithmetic the driver does on values the firmware or the block
 * layer hands it: the BIOS disk geometry (megasas_bios_param), the OS
 * channel and target of the boot drive (megasas_get_ctrl_info), and the
 * command limits read from the status register at initialisation
 * (megasas_init_adapter_mfi).
 */
module Geometry {
  import opened Wrappers
  import opened MfiDefs

  const U16: nat := 0x1_0000
  const U8: nat := 0x100

  /** C's conversion of an unsigned value to a 32-bit int. */
  function ToInt32(x: nat): (r: int)
    ensures -0x8000_0000 <= r < 0x8000_0000
    ensures x < 0x8000_0000 ==> r == x
  {
    var m := x % 0x1_0000_0000;
    if m >= 0x8000_0000 then m - 0x1_0000_0000 else m
  }

  datatype Geom = Geom(heads: int, sectors: int, cylinders: int)

  /** Capacities from this many sectors on (1 GiB of 512-byte sectors) get the extended translation. */
  const EXTENDED_TRANSLATION_SECTORS: nat := 0x200000

  /**
   * megasas_bios_param: 64 heads and 32 sectors, or 255 and 63 from 1 GiB
   * on; the cylinder count is the capacity divided by one cylinder's
   * sectors, stored in an int.
   */
  function BiosParam(capacity: nat): (g: Geom)
    requires capacity < 0x1_0000_0000_0000_0000
    ensures capacity < EXTENDED_TRANSLATION_SECTORS ==> g.heads == 64 && g.sectors == 32
    ensures capacity >= EXTENDED_TRANSLATION_SECTORS ==> g.heads == 255 && g.sectors == 63
  {
    var heads := 64;
    var sectors := 32;
    var cylinders := capacity / (heads * sectors);
    if capacity >= EXTENDED_TRANSLATION_SECTORS then
      Geom(255, 63, ToInt32(capacity / (255 * 63)))
    else Geom(heads, sectors, ToInt32(cylinders))
  }

  /** While the cylinder count fits an int, the geometry covers the capacity to within one cylinder. */
  lemma BiosParamCoversCapacity(capacity: nat)
    requires capacity < 0x1_0000_0000_0000_0000
    requires capacity / (255 * 63) < 0x8000_0000
    ensures var g := BiosParam(capacity);
            && g.cylinders >= 0
            && g.cylinders * g.heads * g.sectors <= capacity < (g.cylinders + 1) * g.heads * g.sectors
  {
    var g := BiosParam(capacity);
    if capacity >= EXTENDED_TRANSLATION_SECTORS {
      assert g.cylinders == capacity / 16065;
      assert g.cylinders * 255 * 63 == g.cylinders * 16065;
    } else {
      assert g.cylinders == capacity / 2048;
      assert g.cylinders * 64 * 32 == g.cylinders * 2048;
    }
  }

  /** Where the OS sees the boot drive: channel and target id. */
  datatype BootDrive = BootDrive(channel: nat, target: nat)

  /**
   * The boot-drive mapping in megasas_get_ctrl_info. The firmware target id
   * is a u16, the channel a u8 and the OS target a u16, and the arithmetic
   * wraps into them. MEGASAS_INVALID_TARGET_ID means there is no boot drive.
   */
  function BootTarget(fwTgt: nat, isPd: bool): (r: Option<BootDrive>)
    requires fwTgt < U16
    ensures r.None? <==> fwTgt == INVALID_TARGET_ID
    ensures r.Some? ==> r.value.channel < U8 && r.value.target < U16
    ensures r.Some? && isPd ==> r.value.channel * MAX_DEV_PER_CHANNEL + r.value.target == fwTgt
    ensures r.Some? && !isPd && fwTgt < (U8 - MAX_PD_CHANNELS) * MAX_DEV_PER_CHANNEL ==>
              r.value.channel >= MAX_PD_CHANNELS
              && (r.value.channel - MAX_PD_CHANNELS) * MAX_DEV_PER_CHANNEL + r.value.target == fwTgt
  {
    if fwTgt == INVALID_TARGET_ID then None
    else if isPd then
      var ch := (fwTgt / MAX_DEV_PER_CHANNEL) % U8;
      Some(BootDrive(ch, (fwTgt - ch * MAX_DEV_PER_CHANNEL) % U16))
    else
      var ch := (MAX_PD_CHANNELS + fwTgt / MAX_DEV_PER_CHANNEL) % U8;
      Some(BootDrive(ch, (fwTgt - (ch - MAX_PD_CHANNELS) * MAX_DEV_PER_CHANNEL) % U16))
  }

  /**
   * For the target ids the firmware uses (below 256), the mapping is the
   * inverse of the driver's index macros: a system PD lands on channel 0 or
   * 1 and PD_INDEX brings it back, a logical drive on channel 2 or 3 and
   * DEV_INDEX brings it back.
   */
  lemma BootTargetInvertsIndex(fwTgt: nat, isPd: bool)
    requires fwTgt < 2 * MAX_DEV_PER_CHANNEL
    ensures var d := BootTarget(fwTgt, isPd).value;
            && d.target < MAX_DEV_PER_CHANNEL
            && (isPd ==> d.channel < MAX_PD_CHANNELS && PdIndex(d.channel, d.target) == fwTgt)
            && (!isPd ==> IsLogical(d.channel) == 1 && d.channel < 4 && DevIndex(d.channel, d.target) == fwTgt)
  {
  }

  /** Bits 0-15 of the firmware status register (status & 0x00FFFF): the commands the firmware accepts. */
  function FwCmdField(status: bv32): (n: nat)
    ensures n < U16
  {
    status as nat % U16
  }

  /** Bits 16-23 of the firmware status register ((status & 0xFF0000) >> 0x10): the SGE limit. */
  function SgeField(status: bv32): (n: nat)
    ensures n < U8
  {
    status as nat / U16 % U8
  }

  /** The limits megasas_init_adapter_mfi derives from the firmware status register. */
  datatype FwCmdLimits = FwCmdLimits(maxFwCmds: nat, maxNumSge: nat, maxScsiCmds: nat, ioctlSlots: nat)

  /**
   * megasas_init_adapter_mfi: the low 16 bits are the firmware's command
   * count, one of which is given up so the reply queue (one longer) stays
   * within it; bits 16-23 are the SGE limit; 5 (skinny) or 32 commands are
   * reserved for IOCTLs and internal DCMDs, of which the IOCTL semaphore
   * admits all 5 or all but 5, so SCSI commands and admitted IOCTLs
   * together stay within the firmware's count. All of these are u16 and
   * wrap.
   */
  function InitLimits(status: bv32, skinny: bool): (r: FwCmdLimits)
    ensures r.maxFwCmds < U16 && r.maxScsiCmds < U16
    ensures r.maxNumSge == SgeField(status)
    ensures FwCmdField(status) != 0 ==> r.maxFwCmds + 1 == FwCmdField(status)
    ensures FwCmdField(status) == 0 ==> r.maxFwCmds == U16 - 1
    ensures var reserved := if skinny then SKINNY_INT_CMDS else INT_CMDS;
            && (r.maxFwCmds >= reserved ==> r.maxScsiCmds + reserved == r.maxFwCmds)
            && (r.maxFwCmds < reserved ==> r.maxScsiCmds == r.maxFwCmds + U16 - reserved)
    ensures var reserved := if skinny then SKINNY_INT_CMDS else INT_CMDS;
            && 0 < r.ioctlSlots <= reserved
            && (r.maxFwCmds >= reserved ==> r.maxScsiCmds + r.ioctlSlots <= r.maxFwCmds)
            && (skinny ==> r.ioctlSlots == reserved)
            && (!skinny ==> r.ioctlSlots + 5 == reserved)
  {
    var fw := SubU16(FwCmdField(status), 1);
    var sge := SgeField(status);
    if skinny then FwCmdLimits(fw, sge, SubU16(fw, SKINNY_INT_CMDS), SKINNY_INT_CMDS)
    else FwCmdLimits(fw, sge, SubU16(fw, INT_CMDS), INT_CMDS - 5)
  }

  /** a - b on u16 values, wrapping below zero. */
  function SubU16(a: nat, b: nat): (r: nat)
    requires a < U16 && b < U16
    ensures r < U16 && (r + b) % U16 == a
  {
    if a >= b then a - b else a + U16 - b
  }

  /** The reply queue the driver sizes from the limits never exceeds the firmware's own count. */
  lemma ReplyQueueFits(status: bv32, skinny: bool)
    requires FwCmdField(status) != 0
    ensures InitLimits(status, skinny).maxFwCmds + 1 <= FwCmdField(status)
    ensures FwCmdField(status) > (if skinny then SKINNY_INT_CMDS else INT_CMDS) ==>
              InitLimits(status, skinny).maxScsiCmds < InitLimits(status, skinny).maxFwCmds
  {
  }
}

=== FILE: instance.dfy ===
/**
 * The adapter soft state (struct megasas_instance) as far as the MFI command
 * engine uses it, with register writes and other externally visible effects
 * collected in an event log and finished SCSI requests in a completion list.
 */
module Instance {
  import opened Wrappers
  import opened MfiDefs
  import opened Cmds
  import opened CmdPool

  /** The PCI device IDs the command engine distinguishes. */
  datatype Controller =
    | Sas1064R | Perc5 | VerdeZcr
    | Sas1078R | Sas1078DE
    | Sas1078Gen2 | Sas0079Gen2
    | Sas0073Skinny | Sas0071Skinny
    | OtherController

  /** The register-access template (instance->instancet) chosen at probe time. */
  datatype Template = XscaleTemplate | PpcTemplate | Gen2Template | SkinnyTemplate | FusionTemplate

  /**
   * Fixed facts about the controller. `fusion` is a non-NULL ctrl_context;
   * `resetDevices` is the reset_devices boot parameter; `cpxSupported` is
   * instance->cpx_supported.
   */
  datatype Hw = Hw(ctrl: Controller, fusion: bool, requestorId: nat, peerIsPresent: bool,
                   msixVectors: nat, resetDevices: bool, cpxSupported: bool)

  /** Template selection in megasas_probe_one: a fusion context wins, then the device ID, xscale by default. */
  function TemplateOf(hw: Hw): (t: Template)
    ensures hw.fusion <==> t == FusionTemplate
    ensures t == XscaleTemplate ==> !IsSkinny(hw)
  {
    if hw.fusion then FusionTemplate
    else match hw.ctrl
      case Sas1078R => PpcTemplate
      case Sas1078DE => PpcTemplate
      case Sas1078Gen2 => Gen2Template
      case Sas0079Gen2 => Gen2Template
      case Sas0073Skinny => SkinnyTemplate
      case Sas0071Skinny => SkinnyTemplate
      case _ => XscaleTemplate
  }

  /** The two skinny device IDs, tested directly in several places. */
  predicate IsSkinny(hw: Hw) {
    hw.ctrl == Sas0073Skinny || hw.ctrl == Sas0071Skinny
  }

  /** 1064R, PERC5 and Verde ZCR mark the reply consumer index with a reset signature. */
  predicate SignsConsumer(hw: Hw) {
    hw.ctrl == Sas1064R || hw.ctrl == Perc5 || hw.ctrl == VerdeZcr
  }

  /** Registers of the MFI register set that the engine writes. */
  datatype Reg =
    | InboundDoorbell | Doorbell | SeqOffset | HostDiag | FusionSeqOffset | FusionHostDiag
    | OutboundIntrStatus | OutboundDoorbellClear    // where clear_intr acknowledges an interrupt

  /** Externally visible effects, in the order the driver causes them. */
  datatype Event =
    | Fire(addr: bv64, frameCount: nat)    // instancet->fire_cmd
    | DisableIntr
    | EnableIntr
    | RegWrite(reg: Reg, value: bv32)
    | AdpReset                             // instancet->adp_reset
    | ServiceAen(index: nat)               // megasas_service_aen
    | RegisterAen                          // megasas_register_aen with class DEBUG, locale ALL
    | SyncMapInfo                          // MR_ValidateMapInfo and megasas_sync_map_info
    | SyncPdSeqNum                         // megasas_sync_pd_seq_num
    | ScheduleTasklet
    | ScheduleWork
    | ClearLdIds                           // memset(ld_ids, 0xff, ...)
    | HandleCpxRequests                    // megasas_handle_cpx_requests
    | RestoreQueueDepth                    // megasas_check_and_restore_queue_depth

  /** A SCSI request handed back to the mid-layer (scsi_done) with its result word. */
  datatype Completion = Completion(req: Request, result: bv32)

  /** The MFI reply ring: the firmware produces contexts, the driver consumes them. */
  datatype Ring = Ring(consumer: nat, producer: nat, queue: seq<nat>)

  /** Recovery and teardown state. */
  datatype Health = Health(
    adprecovery: AdpRecovery,
    issuependDone: bool,
    unloading: bool,
    disableOcr: bool,            // disableOnlineCtrlReset
    noPciAccess: bool)           // fw_reset_no_pci_access

  /** The driver's own long-lived DCMDs and the map generation counters they advance. */
  datatype Internal = Internal(
    aenCmd: Option<nat>,
    mapUpdateCmd: Option<nat>,
    jbodSeqCmd: Option<nat>,
    mapId: nat,
    pdSeqMapId: nat)

  /** Limits the firmware reported during initialisation. */
  datatype FwLimits = FwLimits(vdCount: nat, syncCacheSupport: bool, maxNumSge: nat)

  datatype Adapter = Adapter(
    hw: Hw,
    pool: Pool,
    pending: seq<nat>,           // internal_reset_pending_q
    ring: Ring,
    health: Health,
    fwOutstanding: int,          // atomic_t fw_outstanding
    internal: Internal,
    limits: FwLimits,
    log: seq<Event>,
    done: seq<Completion>)

  /** max_fw_cmds: on the MFI path every firmware command has a slot. */
  function MaxFwCmds(a: Adapter): nat {
    |a.pool.cmds|
  }

  /** The invariant the engine keeps: a well-formed pool, a pending list of held slots, a reply ring of the right size. */
  predicate Valid(a: Adapter) {
    ValidParts(a.pool, a.pending, |a.ring.queue|, a.internal.aenCmd)
  }

  predicate ValidParts(pool: Pool, pending: seq<nat>, ringSize: nat, aenCmd: Option<nat>) {
    && WellFormed(pool)
    && Distinct(pending)
    && (forall x :: x in pending ==> x < |pool.cmds| && x !in pool.free)
    && ringSize == |pool.cmds| + 1
    && (aenCmd.Some? ==> aenCmd.value < |pool.cmds|)
  }

  /** Appends an event; nothing else changes. */
  function Emit(a: Adapter, e: Event): (r: Adapter)
    ensures r == a.(log := a.log + [e])
    ensures Valid(a) ==> Valid(r)
  {
    a.(log := a.log + [e])
  }

  /** Replaces slot `i`; the free list and every other slot are unchanged. */
  function SetCmd(a: Adapter, i: nat, c: Cmd): (r: Adapter)
    requires i < |a.pool.cmds|
    ensures r == a.(pool := a.pool.(cmds := a.pool.cmds[i := c]))
    ensures Valid(a) && c.index == i ==> Valid(r)
  {
    a.(pool := a.pool.(cmds := a.pool.cmds[i := c]))
  }
}

=== FILE: io_helpers.dfy ===
/**
 * Pure helpers of the I/O build path: how many 64-byte MFI frames a command
 * occupies (megasas_get_frame_count), how a SCSI command is classified
 * (megasas_cmd_type), and how megasas_build_ldio reads the LBA and transfer
 * length out of a READ/WRITE CDB as laid out in clause 5 of SCSI Block
 * Commands (SBC-3).
 */
module IoHelpers {
  import opened Wrappers
  import opened MfiDefs

  // ---------------------------------------------------------------------
  // Frame count
  // ---------------------------------------------------------------------

  /** Bytes per scatter-gather element: sge32, sge64 or the IEEE (skinny) layout. */
  function SgeSize(dma64: bool, ieee: bool): nat {
    if ieee then 16 else if dma64 then 12 else 8
  }

  /** How many SGEs fit in the main frame of an LD I/O frame or a pass-through frame. */
  function SgesInMainFrame(pthru: bool, dma64: bool, ieee: bool): nat {
    if ieee then 1
    else if pthru then (if dma64 then 1 else 2)
    else (if dma64 then 2 else 3)
  }

  /** The SGL bytes that spill past the main frame. */
  function SpillBytes(sgeCount: nat, pthru: bool, dma64: bool, ieee: bool): nat {
    var main := SgesInMainFrame(pthru, dma64, ieee);
    if sgeCount > main then SgeSize(dma64, ieee) * (sgeCount - main) else 0
  }

  /**
   * megasas_get_frame_count: the main frame plus as many further frames as
   * the spilled SGL needs, capped at eight. The count is the least number of
   * frames that holds the spill, or eight when even seven extra frames would
   * not.
   */
  function GetFrameCount(sgeCount: bv8, pthru: bool, dma64: bool, ieee: bool): (fc: nat)
    ensures 1 <= fc <= 8
    ensures var spill := SpillBytes(sgeCount as nat, pthru, dma64, ieee);
            && (fc < 8 ==> (fc - 1) * MEGAMFI_FRAME_SIZE >= spill)
            && (fc >= 2 ==> (fc - 2) * MEGAMFI_FRAME_SIZE < spill)
            && (fc == 8 <==> spill > 6 * MEGAMFI_FRAME_SIZE)
  {
    var n: nat := sgeCount as nat;
    var numCnt: int := n - SgesInMainFrame(pthru, dma64, ieee);
    var extra := if numCnt > 0 then ExtraFrames(SpillBytes(n, pthru, dma64, ieee)) else 0;
    var fc := extra + 1;
    if fc > 7 then 8 else fc
  }

  /** The rounded-up division of the spilled SGL bytes by the frame size: the fewest frames that hold them. */
  function ExtraFrames(sgeBytes: nat): (extra: nat)
    ensures extra * MEGAMFI_FRAME_SIZE >= sgeBytes
    ensures extra >= 1 ==> (extra - 1) * MEGAMFI_FRAME_SIZE < sgeBytes
  {
    sgeBytes / MEGAMFI_FRAME_SIZE + (if sgeBytes % MEGAMFI_FRAME_SIZE != 0 then 1 else 0)
  }

  /** A command whose SGL fits in the main frame needs exactly one frame. */
  lemma SingleFrame(sgeCount: bv8, pthru: bool, dma64: bool, ieee: bool)
    ensures GetFrameCount(sgeCount, pthru, dma64, ieee) == 1
            <==> sgeCount as nat <= SgesInMainFrame(pthru, dma64, ieee)
  {
  }

  // ---------------------------------------------------------------------
  // Command classification
  // ---------------------------------------------------------------------

  const READ_6: bv8 := 0x08
  const WRITE_6: bv8 := 0x0a
  const READ_10: bv8 := 0x28
  const WRITE_10: bv8 := 0x2a
  const READ_12: bv8 := 0xa8
  const WRITE_12: bv8 := 0xaa
  const READ_16: bv8 := 0x88
  const WRITE_16: bv8 := 0x8a
  const SYNCHRONIZE_CACHE: bv8 := 0x35

  const READ_WRITE_LDIO: nat := 0
  const NON_READ_WRITE_LDIO: nat := 1
  const READ_WRITE_SYSPDIO: nat := 2
  const NON_READ_WRITE_SYSPDIO: nat := 3

  /** The eight SBC-3 READ and WRITE opcodes the driver turns into LD I/O frames. */
  const RW_OPCODES: set<bv8> := {READ_6, WRITE_6, READ_10, WRITE_10, READ_12, WRITE_12, READ_16, WRITE_16}

  /** megasas_cmd_type: a read/write or other command, to a logical drive or a system PD. */
  function CmdType(opcode: bv8, channel: nat): (t: nat)
    ensures t < 4
    ensures (t == READ_WRITE_LDIO || t == NON_READ_WRITE_LDIO) <==> IsLogical(channel) == 1
    ensures (t == READ_WRITE_LDIO || t == READ_WRITE_SYSPDIO) <==> opcode in RW_OPCODES
  {
    match opcode
      case 0x28 => if IsLogical(channel) == 1 then READ_WRITE_LDIO else READ_WRITE_SYSPDIO
      case 0x2a => if IsLogical(channel) == 1 then READ_WRITE_LDIO else READ_WRITE_SYSPDIO
      case 0xa8 => if IsLogical(channel) == 1 then READ_WRITE_LDIO else READ_WRITE_SYSPDIO
      case 0xaa => if IsLogical(channel) == 1 then READ_WRITE_LDIO else READ_WRITE_SYSPDIO
      case 0x08 => if IsLogical(channel) == 1 then READ_WRITE_LDIO else READ_WRITE_SYSPDIO
      case 0x0a => if IsLogical(channel) == 1 then READ_WRITE_LDIO else READ_WRITE_SYSPDIO
      case 0x88 => if IsLogical(channel) == 1 then READ_WRITE_LDIO else READ_WRITE_SYSPDIO
      case 0x8a => if IsLogical(channel) == 1 then READ_WRITE_LDIO else READ_WRITE_SYSPDIO
      case _ => if IsLogical(channel) == 1 then NON_READ_WRITE_LDIO else NON_READ_WRITE_SYSPDIO
  }

  // ---------------------------------------------------------------------
  // LD I/O frame fields from a READ/WRITE CDB
  // ---------------------------------------------------------------------

  /** The size of the mid-layer's CDB buffer (MAX_COMMAND_SIZE). */
  const MAX_COMMAND_SIZE: nat := 16

  /**
   * The LBA fields of an LD I/O frame as megasas_build_ldio leaves them. A
   * CDB length other than 6, 10, 12 or 16 leaves lba_count and start_lba_lo
   * as the previous user of the frame left them, shown here as None.
   */
  datatype Ldio = Ldio(cmd: bv8, accessByte: bv8, lbaCount: Option<bv32>, lbaLo: Option<bv32>, lbaHi: bv32)

  /** Four CDB bytes read most significant first. */
  function Be32(b0: bv8, b1: bv8, b2: bv8, b3: bv8): bv32 {
    (b0 as bv32 << 24) | (b1 as bv32 << 16) | (b2 as bv32 << 8) | b3 as bv32
  }

  /** The big-endian bytes of a 32-bit field. */
  function Be32Bytes(x: bv32): (bs: seq<bv8>)
    ensures |bs| == 4
  {
    [(x >> 24) as bv8, ((x >> 16) & 0xff) as bv8, ((x >> 8) & 0xff) as bv8, (x & 0xff) as bv8]
  }

  lemma Be32RoundTrip(x: bv32)
    ensures Be32(Be32Bytes(x)[0], Be32Bytes(x)[1], Be32Bytes(x)[2], Be32Bytes(x)[3]) == x
  {
  }

  /** megasas_build_ldio's reading of the CDB buffer `cmnd` holding a CDB of `cmdLen` bytes. */
  function DecodeLdio(cmnd: seq<bv8>, cmdLen: nat): (r: Ldio)
    requires |cmnd| == MAX_COMMAND_SIZE
    ensures r.cmd == (if cmnd[0] & 0x02 != 0 then CMD_LD_WRITE else CMD_LD_READ)
    ensures r.accessByte == (if cmdLen != 6 then cmnd[1] else 0)
    ensures r.lbaCount.Some? <==> cmdLen in {6, 10, 12, 16}
    ensures r.lbaLo.Some? <==> cmdLen in {6, 10, 12, 16}
    ensures cmdLen != 16 ==> r.lbaHi == 0
  {
    var cmd := if cmnd[0] & 0x02 != 0 then CMD_LD_WRITE else CMD_LD_READ;
    var access := if cmdLen != 6 then cmnd[1] else 0;
    if cmdLen == 6 then
      Ldio(cmd, access, Some(cmnd[4] as bv32), Some(Be32(0, cmnd[1], cmnd[2], cmnd[3]) & 0x1FFFFF), 0)
    else if cmdLen == 10 then
      Ldio(cmd, access, Some(cmnd[8] as bv32 | (cmnd[7] as bv32 << 8)), Some(Be32(cmnd[2], cmnd[3], cmnd[4], cmnd[5])), 0)
    else if cmdLen == 12 then
      Ldio(cmd, access, Some(Be32(cmnd[6], cmnd[7], cmnd[8], cmnd[9])), Some(Be32(cmnd[2], cmnd[3], cmnd[4], cmnd[5])), 0)
    else if cmdLen == 16 then
      Ldio(cmd, access, Some(Be32(cmnd[10], cmnd[11], cmnd[12], cmnd[13])),
           Some(Be32(cmnd[6], cmnd[7], cmnd[8], cmnd[9])), Be32(cmnd[2], cmnd[3], cmnd[4], cmnd[5]))
    else Ldio(cmd, access, None, None, 0)
  }

  /** A CDB in the mid-layer's buffer, zero-padded to its full size. */
  function Pad(cdb: seq<bv8>): (b: seq<bv8>)
    requires |cdb| <= MAX_COMMAND_SIZE
    ensures |b| == MAX_COMMAND_SIZE && b[..|cdb|] == cdb
  {
    cdb + seq(MAX_COMMAND_SIZE - |cdb|, _ => 0)
  }

  /** SBC-3 READ(6)/WRITE(6): a 21-bit LBA and an 8-bit transfer length. */
  function Rw6(op: bv8, lba: bv32, len: bv8): (cdb: seq<bv8>)
    requires lba < 0x200000
    ensures |cdb| == 6
  {
    [op, ((lba >> 16) & 0x1f) as bv8, ((lba >> 8) & 0xff) as bv8, (lba & 0xff) as bv8, len, 0]
  }

  /** SBC-3 READ(10)/WRITE(10): a 32-bit LBA and a 16-bit transfer length. */
  function Rw10(op: bv8, flags: bv8, lba: bv32, len: bv16): (cdb: seq<bv8>)
    ensures |cdb| == 10
  {
    [op, flags] + Be32Bytes(lba) + [0, (len >> 8) as bv8, (len & 0xff) as bv8, 0]
  }

  /** SBC-3 READ(12)/WRITE(12): a 32-bit LBA and a 32-bit transfer length. */
  function Rw12(op: bv8, flags: bv8, lba: bv32, len: bv32): (cdb: seq<bv8>)
    ensures |cdb| == 12
  {
    [op, flags] + Be32Bytes(lba) + Be32Bytes(len) + [0, 0]
  }

  /** SBC-3 READ(16)/WRITE(16): a 64-bit LBA and a 32-bit transfer length. */
  function Rw16(op: bv8, flags: bv8, lba: bv64, len: bv32): (cdb: seq<bv8>)
    ensures |cdb| == 16
  {
    [op, flags] + Be32Bytes((lba >> 32) as bv32) + Be32Bytes((lba & 0xFFFF_FFFF) as bv32) + Be32Bytes(len) + [0, 0]
  }

  /** The frame's read/write direction follows the SBC-3 opcode. */
  lemma DirectionFollowsOpcode(op: bv8)
    requires op in RW_OPCODES
    ensures (op & 0x02 != 0) <==> op in {WRITE_6, WRITE_10, WRITE_12, WRITE_16}
  {
  }

  lemma Rw6Decodes(op: bv8, lba: bv32, len: bv8)
    requires lba < 0x200000
    ensures DecodeLdio(Pad(Rw6(op, lba, len)), 6).lbaLo == Some(lba)
    ensures DecodeLdio(Pad(Rw6(op, lba, len)), 6).lbaCount == Some(len as bv32)
  {
    var b := Pad(Rw6(op, lba, len));
    assert b[1] == ((lba >> 16) & 0x1f) as bv8 && b[2] == ((lba >> 8) & 0xff) as bv8 && b[3] == (lba & 0xff) as bv8;
    assert b[4] == len;
    Be24RoundTrip(lba);
  }

  lemma Be24RoundTrip(lba: bv32)
    requires lba < 0x200000
    ensures Be32(0, ((lba >> 16) & 0x1f) as bv8, ((lba >> 8) & 0xff) as bv8, (lba & 0xff) as bv8) & 0x1FFFFF == lba
  {
  }

  lemma Rw10Decodes(op: bv8, flags: bv8, lba: bv32, len: bv16)
    ensures DecodeLdio(Pad(Rw10(op, flags, lba, len)), 10)
            == Ldio(if op & 0x02 != 0 then CMD_LD_WRITE else CMD_LD_READ, flags, Some(len as bv32), Some(lba), 0)
  {
    var b := Pad(Rw10(op, flags, lba, len));
    var l := Be32Bytes(lba);
    assert b[0] == op && b[1] == flags;
    assert b[2] == l[0] && b[3] == l[1] && b[4] == l[2] && b[5] == l[3];
    assert b[7] == (len >> 8) as bv8 && b[8] == (len & 0xff) as bv8;
    Be32RoundTrip(lba);
    Be16RoundTrip(len);
  }

  lemma Be16RoundTrip(len: bv16)
    ensures ((len & 0xff) as bv8) as bv32 | (((len >> 8) as bv8) as bv32 << 8) == len as bv32
  {
  }

  lemma Rw12Decodes(op: bv8, flags: bv8, lba: bv32, len: bv32)
    ensures DecodeLdio(Pad(Rw12(op, flags, lba, len)), 12)
            == Ldio(if op & 0x02 != 0 then CMD_LD_WRITE else CMD_LD_READ, flags, Some(len), Some(lba), 0)
  {
    var b := Pad(Rw12(op, flags, lba, len));
    var l := Be32Bytes(lba);
    var n := Be32Bytes(len);
    assert b[0] == op && b[1] == flags;
    assert b[2] == l[0] && b[3] == l[1] && b[4] == l[2] && b[5] == l[3];
    assert b[6] == n[0] && b[7] == n[1] && b[8] == n[2] && b[9] == n[3];
    Be32RoundTrip(lba);
    Be32RoundTrip(len);
  }

  /** The 64-bit LBA of a 16-byte CDB comes back as start_lba_hi:start_lba_lo. */
  lemma Rw16Decodes(op: bv8, flags: bv8, lba: bv64, len: bv32)
    ensures var r := DecodeLdio(Pad(Rw16(op, flags, lba, len)), 16);
            && r.cmd == (if op & 0x02 != 0 then CMD_LD_WRITE else CMD_LD_READ)
            && r.accessByte == flags && r.lbaCount == Some(len)
            && r.lbaLo.Some? && (r.lbaHi as bv64 << 32) | r.lbaLo.value as bv64 == lba
  {
    var b := Pad(Rw16(op, flags, lba, len));
    var hi := (lba >> 32) as bv32;
    var lo := (lba & 0xFFFF_FFFF) as bv32;
    var h := Be32Bytes(hi);
    var l := Be32Bytes(lo);
    var n := Be32Bytes(len);
    assert b[0] == op && b[1] == flags;
    assert b[2] == h[0] && b[3] == h[1] && b[4] == h[2] && b[5] == h[3];
    assert b[6] == l[0] && b[7] == l[1] && b[8] == l[2] && b[9] == l[3];
    assert b[10] == n[0] && b[11] == n[1] && b[12] == n[2] && b[13] == n[3];
    Be32RoundTrip(hi);
    Be32RoundTrip(lo);
    Be32RoundTrip(len);
    SplitJoin64(lba);
  }

  lemma SplitJoin64(x: bv64)
    ensures (((x >> 32) as bv32) as bv64 << 32) | ((x & 0xFFFF_FFFF) as bv32) as bv64 == x
  {
  }
}

=== FILE: kill.dfy ===
/**
 * Declaring the adapter dead: megaraid_sas_kill_hba with the completion of
 * outstanding ioctls it ends with, and the DCMD timeout policy
 * dcmd_timeout_ocr_possible.
 */
module Kill {
  import opened Wrappers
  import opened MfiDefs
  import opened Cmds
  import opened CmdPool
  import opened Instance
  import opened Completion

  /**
   * The stop write of megaraid_sas_kill_hba. Skinny and fusion controllers
   * take MFI_STOP_ADP on the doorbell register, and only when this is not a
   * virtual function; a virtual function with a peer forgets its LD ids
   * instead. Every other controller takes it on the inbound doorbell.
   */
  function StopEvents(hw: Hw): (es: seq<Event>)
    ensures (IsSkinny(hw) || hw.fusion) && hw.requestorId == 0 ==> es == [RegWrite(Doorbell, STOP_ADP)]
    ensures (IsSkinny(hw) || hw.fusion) && hw.requestorId != 0 ==> es == (if hw.peerIsPresent then [ClearLdIds] else [])
    ensures !(IsSkinny(hw) || hw.fusion) ==> es == [RegWrite(InboundDoorbell, STOP_ADP)]
  {
    if IsSkinny(hw) || hw.fusion then
      (if hw.requestorId == 0 then [RegWrite(Doorbell, STOP_ADP)] else [])
      + (if hw.requestorId != 0 && hw.peerIsPresent then [ClearLdIds] else [])
    else [RegWrite(InboundDoorbell, STOP_ADP)]
  }

  /** 0, 1, ..., n - 1. */
  function Range(n: nat): (r: seq<nat>)
    ensures |r| == n && forall k :: 0 <= k < n ==> r[k] == k
  {
    if n == 0 then [] else Range(n - 1) + [n - 1]
  }

  /** A waiter that an ioctl completion wakes: a synchronous command that is not an abort. */
  predicate IsIoctlWaiter(c: Cmd) {
    c.syncCmd && c.frame.cmd != CMD_ABORT
  }

  /**
   * The loop of megasas_complete_outstanding_ioctls over the slot indices
   * `idxs`: every synchronous non-abort command is completed with DID_OK.
   * An index past max_fw_cmds is an overrun of cmd_list.
   */
  function CompleteIoctls(a: Adapter, idxs: seq<nat>): (r: Outcome<Adapter>)
    requires Valid(a)
    ensures r.Done? ==> Valid(r.value) && SameFrame(a, r.value)
    ensures r.Done? ==> r.value.fwOutstanding + |r.value.done| == a.fwOutstanding + |a.done|
    ensures (forall k :: 0 <= k < |idxs| ==> idxs[k] < |a.pool.cmds| && !IsIoctlWaiter(a.pool.cmds[idxs[k]])) ==> r == Done(a)
    decreases |idxs|
  {
    if |idxs| == 0 then Done(a)
    else if idxs[0] >= |a.pool.cmds| then Halted(ContextOutOfRange(idxs[0]))
    else if IsIoctlWaiter(a.pool.cmds[idxs[0]]) then
      var a1 :- CompleteCmd(a, idxs[0], DID_OK as bv8);
      CompleteIoctls(a1, idxs[1..])
    else
      assert forall k :: 0 <= k < |idxs[1..]| ==> idxs[1..][k] == idxs[k + 1];
      CompleteIoctls(a, idxs[1..])
  }

  /**
   * The indices the loop acts on, in order: the waiters, and any index past
   * max_fw_cmds, where the loop stops.
   */
  function WaitersOf(cmds: seq<Cmd>, idxs: seq<nat>): (w: seq<nat>)
    ensures forall x :: x in w ==> x in idxs && (x >= |cmds| || IsIoctlWaiter(cmds[x]))
    ensures forall k :: 0 <= k < |idxs| && (idxs[k] >= |cmds| || IsIoctlWaiter(cmds[idxs[k]])) ==> idxs[k] in w
    decreases |idxs|
  {
    if |idxs| == 0 then []
    else
      assert forall k :: 1 <= k < |idxs| ==> idxs[k] == idxs[1..][k - 1];
      (if idxs[0] >= |cmds| || IsIoctlWaiter(cmds[idxs[0]]) then [idxs[0]] else []) + WaitersOf(cmds, idxs[1..])
  }

  /** Slots other than the ones scanned may change without changing which scanned slots are waiters. */
  lemma {:induction false} WaitersOfFrame(c1: seq<Cmd>, c2: seq<Cmd>, idxs: seq<nat>, i: nat)
    requires |c1| == |c2| && i !in idxs
    requires forall j :: 0 <= j < |c1| && j != i ==> c1[j] == c2[j]
    ensures WaitersOf(c1, idxs) == WaitersOf(c2, idxs)
    decreases |idxs|
  {
    if |idxs| > 0 {
      WaitersOfFrame(c1, c2, idxs[1..], i);
    }
  }

  /**
   * With no slot index repeated, the loop is megasas_complete_cmd(.., DID_OK)
   * on every waiter among the scanned slots, in scan order, exactly as the
   * reply-ring drain completes its contexts.
   */
  lemma {:induction false} IoctlsAreWaiterFold(a: Adapter, idxs: seq<nat>)
    requires Valid(a) && Distinct(idxs)
    ensures CompleteIoctls(a, idxs) == CompleteAll(a, WaitersOf(a.pool.cmds, idxs))
    decreases |idxs|
  {
    if |idxs| > 0 {
      var i := idxs[0];
      var rest := idxs[1..];
      assert Distinct(rest) by {
        forall j, k | 0 <= j < k < |rest| ensures rest[j] != rest[k] {
          assert rest[j] == idxs[j + 1] && rest[k] == idxs[k + 1];
        }
      }
      assert i !in rest by {
        forall k | 0 <= k < |rest| ensures rest[k] != i {
          assert rest[k] == idxs[k + 1];
        }
      }
      var w := WaitersOf(a.pool.cmds, idxs);
      if i < |a.pool.cmds| {
        if IsIoctlWaiter(a.pool.cmds[i]) {
          assert w == [i] + WaitersOf(a.pool.cmds, rest);
          assert w[1..] == WaitersOf(a.pool.cmds, rest);
          var o := CompleteCmd(a, i, DID_OK as bv8);
          if o.Done? {
            CompleteCmdTouchesOnlySlot(a, i, DID_OK as bv8);
            WaitersOfFrame(a.pool.cmds, o.value.pool.cmds, rest, i);
            IoctlsAreWaiterFold(o.value, rest);
          }
        } else {
          assert w == WaitersOf(a.pool.cmds, rest);
          IoctlsAreWaiterFold(a, rest);
        }
      } else {
        assert w[0] == i;
      }
    }
  }

  /**
   * megasas_complete_outstanding_ioctls. Without a fusion context every slot
   * is examined; with one, the slots named by the fusion commands'
   * sync_cmd_idx, which live in the fusion command list and are the input
   * `fusionSyncIdx`.
   */
  function CompleteOutstandingIoctls(a: Adapter, fusionSyncIdx: seq<nat>): (r: Outcome<Adapter>)
    requires Valid(a)
    ensures r.Done? ==> Valid(r.value) && SameFrame(a, r.value)
    ensures !a.hw.fusion && (forall i :: 0 <= i < |a.pool.cmds| ==> !IsIoctlWaiter(a.pool.cmds[i])) ==> r == Done(a)
  {
    CompleteIoctls(a, if a.hw.fusion then fusionSyncIdx else Range(|a.pool.cmds|))
  }

  /**
   * megaraid_sas_kill_hba: adprecovery becomes HW_CRITICAL_ERROR, the
   * controller is told to stop, and the sleepers on outstanding ioctls are
   * woken.
   */
  function KillHba(a: Adapter, fusionSyncIdx: seq<nat>): (r: Outcome<Adapter>)
    requires Valid(a)
    ensures r.Done? ==> Valid(r.value) && r.value.health.adprecovery == HwCriticalError
    ensures r.Done? ==> r.value.health == a.health.(adprecovery := HwCriticalError)
    ensures r.Done? ==> r.value.hw == a.hw && r.value.ring == a.ring && r.value.pending == a.pending
    ensures r.Done? ==> r.value.fwOutstanding + |r.value.done| == a.fwOutstanding + |a.done|
    ensures r.Done? ==> |r.value.log| >= |a.log| + |StopEvents(a.hw)|
                        && r.value.log[..|a.log| + |StopEvents(a.hw)|] == a.log + StopEvents(a.hw)
  {
    var a1 := a.(health := a.health.(adprecovery := HwCriticalError), log := a.log + StopEvents(a.hw));
    var a2 :- CompleteOutstandingIoctls(a1, fusionSyncIdx);
    assert a2.log[..|a1.log|] == a1.log by { LogGrowsIoctls(a1, if a1.hw.fusion then fusionSyncIdx else Range(|a1.pool.cmds|)); }
    Done(a2)
  }

  /**
   * megaraid_sas_kill_hba completes every outstanding ioctl: after the
   * recovery state and the stop writes, each synchronous non-abort command
   * among the scanned slots is completed the way the reply path completes
   * it, so its sleeper is woken. On an MFI adapter the scan is every slot.
   */
  lemma KillHbaWakesEveryWaiter(a: Adapter, fusionSyncIdx: seq<nat>)
    requires Valid(a)
    requires a.hw.fusion ==> Distinct(fusionSyncIdx)
    ensures var a1 := a.(health := a.health.(adprecovery := HwCriticalError), log := a.log + StopEvents(a.hw));
            var idxs := if a.hw.fusion then fusionSyncIdx else Range(|a.pool.cmds|);
            KillHba(a, fusionSyncIdx) == CompleteAll(a1, WaitersOf(a.pool.cmds, idxs))
    ensures !a.hw.fusion ==>
              forall i :: 0 <= i < |a.pool.cmds| && IsIoctlWaiter(a.pool.cmds[i]) ==> i in WaitersOf(a.pool.cmds, Range(|a.pool.cmds|))
  {
    var a1 := a.(health := a.health.(adprecovery := HwCriticalError), log := a.log + StopEvents(a.hw));
    var idxs := if a.hw.fusion then fusionSyncIdx else Range(|a.pool.cmds|);
    assert Valid(a1) && a1.pool.cmds == a.pool.cmds;
    assert Distinct(idxs);
    assert CompleteOutstandingIoctls(a1, fusionSyncIdx) == CompleteIoctls(a1, idxs);
    IoctlsAreWaiterFold(a1, idxs);
    assert KillHba(a, fusionSyncIdx) == CompleteIoctls(a1, idxs);
  }

  /** Completion only ever appends to the event log. */
  lemma {:induction false} LogGrowsIoctls(a: Adapter, idxs: seq<nat>)
    requires Valid(a)
    ensures CompleteIoctls(a, idxs).Done? ==>
              |CompleteIoctls(a, idxs).value.log| >= |a.log| && CompleteIoctls(a, idxs).value.log[..|a.log|] == a.log
    decreases |idxs|
  {
    if |idxs| > 0 && idxs[0] < |a.pool.cmds| {
      if IsIoctlWaiter(a.pool.cmds[idxs[0]]) {
        var o := CompleteCmd(a, idxs[0], DID_OK as bv8);
        if o.Done? {
          LogGrowsCmd(a, idxs[0]);
          LogGrowsIoctls(o.value, idxs[1..]);
        }
      } else {
        LogGrowsIoctls(a, idxs[1..]);
      }
    }
  }

  /** megasas_complete_cmd adds at most one event and never rewrites the log. */
  lemma LogGrowsCmd(a: Adapter, i: nat)
    requires Valid(a) && i < |a.pool.cmds|
    ensures CompleteCmd(a, i, DID_OK as bv8).Done? ==>
              |CompleteCmd(a, i, DID_OK as bv8).value.log| >= |a.log|
              && CompleteCmd(a, i, DID_OK as bv8).value.log[..|a.log|] == a.log
  {
    var a0 := ClearRetry(a, i);
    var c := a0.pool.cmds[i];
    if IsScsiCompletion(c) && c.frame.cmd != CMD_INVALID && !((c.frame.cmd == CMD_PD_SCSI_IO || c.frame.cmd == CMD_LD_SCSI_IO) && c.syncCmd) {
      LogGrowsScsi(a0, i);
    } else if IsDcmdClass(c.frame.cmd) {
      LogGrowsDcmd(a0, i);
    }
  }

  lemma LogGrowsScsi(a: Adapter, i: nat)
    requires Valid(a) && i < |a.pool.cmds|
    ensures CompleteScsi(a, i, DID_OK as bv8).Done? ==>
              |CompleteScsi(a, i, DID_OK as bv8).value.log| >= |a.log|
              && CompleteScsi(a, i, DID_OK as bv8).value.log[..|a.log|] == a.log
  {
  }

  lemma LogGrowsDcmd(a: Adapter, i: nat)
    requires Valid(a) && i < |a.pool.cmds|
    ensures CompleteDcmd(a, i).Done? ==>
              |CompleteDcmd(a, i).value.log| >= |a.log| && CompleteDcmd(a, i).value.log[..|a.log|] == a.log
  {
  }

  /**
   * dcmd_timeout_ocr_possible: without a fusion context a timed-out DCMD
   * kills the adapter; with one it is ignored during unload or a fusion
   * reset (whose flag is the input `fusionInReset`) and starts an online
   * controller reset otherwise.
   */
  function DcmdTimeoutPolicy(a: Adapter, fusionInReset: bool): (t: TimeoutAction)
    ensures t == KillAdapter <==> !a.hw.fusion
    ensures t == IgnoreTimeout <==> a.hw.fusion && (a.health.unloading || fusionInReset)
    ensures t == InitiateOcr <==> a.hw.fusion && !a.health.unloading && !fusionInReset
  {
    if !a.hw.fusion then KillAdapter
    else if a.health.unloading || fusionInReset then IgnoreTimeout
    else InitiateOcr
  }
}

=== FILE: mfi_defs.dfy ===
/**
 * Constants, enumerations and index macros of the MegaRAID SAS firmware
 * interface (MFI) header, megaraid_sas.h.
 */
module MfiDefs {
  import opened Wrappers

  // ---------------------------------------------------------------------
  // Firmware state: the upper nibble of the firmware status register
  // ---------------------------------------------------------------------

  const STATE_MASK: bv32 := 0xF000_0000
  const STATE_UNDEFINED: bv32 := 0x0000_0000
  const STATE_BB_INIT: bv32 := 0x1000_0000
  const STATE_FW_INIT: bv32 := 0x4000_0000
  const STATE_WAIT_HANDSHAKE: bv32 := 0x6000_0000
  const STATE_FW_INIT_2: bv32 := 0x7000_0000
  const STATE_DEVICE_SCAN: bv32 := 0x8000_0000
  const STATE_BOOT_MESSAGE_PENDING: bv32 := 0x9000_0000
  const STATE_FLUSH_CACHE: bv32 := 0xA000_0000
  const STATE_READY: bv32 := 0xB000_0000
  const STATE_OPERATIONAL: bv32 := 0xC000_0000
  const STATE_FAULT: bv32 := 0xF000_0000

  /** The eleven coarse firmware states. */
  datatype FwState =
    | Undefined | BbInit | FwInit | WaitHandshake | FwInit2 | DeviceScan
    | BootMessagePending | FlushCache | Ready | Operational | Fault

  /** The register encoding of a coarse state. */
  function StateCode(s: FwState): bv32 {
    match s
    case Undefined => STATE_UNDEFINED
    case BbInit => STATE_BB_INIT
    case FwInit => STATE_FW_INIT
    case WaitHandshake => STATE_WAIT_HANDSHAKE
    case FwInit2 => STATE_FW_INIT_2
    case DeviceScan => STATE_DEVICE_SCAN
    case BootMessagePending => STATE_BOOT_MESSAGE_PENDING
    case FlushCache => STATE_FLUSH_CACHE
    case Ready => STATE_READY
    case Operational => STATE_OPERATIONAL
    case Fault => STATE_FAULT
  }

  /** Decodes `reg & STATE_MASK`; nibbles 2, 3, 5, 0xD and 0xE name no state. */
  function DecodeState(reg: bv32): (r: Option<FwState>)
    ensures r.Some? ==> StateCode(r.value) == reg & STATE_MASK
    ensures r.None? ==> forall s :: StateCode(s) != reg & STATE_MASK
  {
    var m := reg & STATE_MASK;
    if m == STATE_UNDEFINED then Some(Undefined)
    else if m == STATE_BB_INIT then Some(BbInit)
    else if m == STATE_FW_INIT then Some(FwInit)
    else if m == STATE_WAIT_HANDSHAKE then Some(WaitHandshake)
    else if m == STATE_FW_INIT_2 then Some(FwInit2)
    else if m == STATE_DEVICE_SCAN then Some(DeviceScan)
    else if m == STATE_BOOT_MESSAGE_PENDING then Some(BootMessagePending)
    else if m == STATE_FLUSH_CACHE then Some(FlushCache)
    else if m == STATE_READY then Some(Ready)
    else if m == STATE_OPERATIONAL then Some(Operational)
    else if m == STATE_FAULT then Some(Fault)
    else None
  }

  /** Every state code survives masking, and no two states share a code. */
  lemma StateCodesAreMaskedAndDistinct(s: FwState, t: FwState)
    ensures StateCode(s) & STATE_MASK == StateCode(s)
    ensures StateCode(s) == StateCode(t) ==> s == t
  {
  }

  /** Decoding inverts encoding, and a decoded state fixes the masked register value. */
  lemma DecodeStateInjective(s: FwState, reg: bv32)
    ensures DecodeState(StateCode(s)) == Some(s)
    ensures DecodeState(reg) == Some(s) <==> reg & STATE_MASK == StateCode(s)
  {
    StateCodesAreMaskedAndDistinct(s, s);
  }

  // ---------------------------------------------------------------------
  // Inbound doorbell values written during initialisation and reset
  // ---------------------------------------------------------------------

  const DIAG_WRITE_ENABLE: bv32 := 0x80
  const DIAG_RESET_ADAPTER: bv32 := 0x04
  const MFI_ADP_RESET: bv32 := 0x40
  const INIT_ABORT: bv32 := 0x01
  const INIT_READY: bv32 := 0x02
  const INIT_MFIMODE: bv32 := 0x04
  const INIT_CLEAR_HANDSHAKE: bv32 := 0x08
  const INIT_HOTPLUG: bv32 := 0x10
  const STOP_ADP: bv32 := 0x20
  const RESET_FLAGS: bv32 := INIT_READY | INIT_MFIMODE | INIT_ABORT

  /** MFI_RESET_FLAGS is ABORT|READY|MFIMODE = 7 and is disjoint from the handshake values. */
  lemma ResetFlagsLayout()
    ensures RESET_FLAGS == 7
    ensures RESET_FLAGS & (INIT_CLEAR_HANDSHAKE | INIT_HOTPLUG) == 0
    ensures RESET_FLAGS & STOP_ADP == 0
  {
  }

  // ---------------------------------------------------------------------
  // Frame flags, command opcodes, status codes
  // ---------------------------------------------------------------------

  const FRAME_DONT_POST_IN_REPLY_QUEUE: bv16 := 0x0001
  const DRV_DCMD_POLLED_MODE: bv8 := 0x1
  const MEGAMFI_FRAME_SIZE: nat := 64

  const CMD_INIT: bv8 := 0x0
  const CMD_LD_READ: bv8 := 0x1
  const CMD_LD_WRITE: bv8 := 0x2
  const CMD_LD_SCSI_IO: bv8 := 0x3
  const CMD_PD_SCSI_IO: bv8 := 0x4
  const CMD_DCMD: bv8 := 0x5
  const CMD_ABORT: bv8 := 0x6
  const CMD_SMP: bv8 := 0x7
  const CMD_STP: bv8 := 0x8
  const CMD_INVALID: bv8 := 0xff

  const STAT_OK: bv8 := 0x00
  const STAT_DEVICE_NOT_FOUND: bv8 := 0x0c
  const STAT_LD_INIT_IN_PROGRESS: bv8 := 0x18
  const STAT_NOT_FOUND: bv8 := 0x23
  const STAT_SCSI_DONE_WITH_ERROR: bv8 := 0x2d
  const STAT_SCSI_IO_FAILED: bv8 := 0x2e
  const STAT_LD_OFFLINE: bv8 := 0x33
  const STAT_INVALID_STATUS: bv8 := 0xFF

  const DCMD_CTRL_EVENT_WAIT: bv32 := 0x0104_0500
  const DCMD_LD_MAP_GET_INFO: bv32 := 0x0300_e101
  const DCMD_SYSTEM_PD_MAP_GET_INFO: bv32 := 0x0200_e102

  /** Results of the synchronous issue paths (enum DCMD_RETURN_STATUS). */
  datatype DcmdStatus = DcmdSuccess | DcmdTimeout | DcmdFailed | DcmdNotFired

  function DcmdCode(s: DcmdStatus): nat {
    match s
    case DcmdSuccess => 0
    case DcmdTimeout => 1
    case DcmdFailed => 2
    case DcmdNotFired => 3
  }

  /** The adapter recovery state (atomic adprecovery). */
  datatype AdpRecovery =
    | HbaOperational | SmInFault | SmFwResetSuccess | SmOperational
    | HwCriticalError | SmPolling

  function AdpRecoveryCode(s: AdpRecovery): nat {
    match s
    case HbaOperational => 0
    case SmInFault => 1
    case SmFwResetSuccess => 2
    case SmOperational => 3
    case HwCriticalError => 4
    case SmPolling => 5
  }

  /** Written to the consumer index by xscale-class controllers while a reset is in progress. */
  const ADPRESET_INPROG_SIGN: nat := 0xDEAD_DEAD

  /** What a timed-out internal command should lead to (enum DCMD_TIMEOUT_ACTION). */
  datatype TimeoutAction = InitiateOcr | KillAdapter | IgnoreTimeout

  function TimeoutActionCode(a: TimeoutAction): nat {
    match a
    case InitiateOcr => 0
    case KillAdapter => 1
    case IgnoreTimeout => 2
  }

  const RESET_WAIT_TIME: nat := 180
  const RESET_NOTICE_INTERVAL: nat := 5
  const INT_CMDS: nat := 32
  const SKINNY_INT_CMDS: nat := 5

  // ---------------------------------------------------------------------
  // Channel / target index macros
  // ---------------------------------------------------------------------

  const MAX_PD_CHANNELS: nat := 2
  const MAX_LD_CHANNELS: nat := 2
  const MAX_DEV_PER_CHANNEL: nat := 128
  const INVALID_TARGET_ID: nat := 0xFFFF

  /** MEGASAS_IS_LOGICAL: 1 for the logical-drive channels, 0 for physical ones. */
  function IsLogical(channel: nat): nat {
    if channel < MAX_PD_CHANNELS then 0 else 1
  }

  /** MEGASAS_DEV_INDEX: the device number within its class (PD or LD). */
  function DevIndex(channel: nat, id: nat): nat {
    (channel % 2) * MAX_DEV_PER_CHANNEL + id
  }

  /** MEGASAS_PD_INDEX: the flat device number across all channels. */
  function PdIndex(channel: nat, id: nat): nat {
    channel * MAX_DEV_PER_CHANNEL + id
  }

  /** Index-macro ranges and the channel split between physical and logical devices. */
  lemma IndexMacroBounds(channel: nat, id: nat)
    ensures IsLogical(channel) == 0 <==> channel < 2
    ensures channel < 4 && id < 128 ==> DevIndex(channel, id) < 256 && PdIndex(channel, id) < 512
  {
  }

  /** Within one class, DEV_INDEX tells devices apart: it is injective on (channel, id). */
  lemma DevIndexInjective(c1: nat, i1: nat, c2: nat, i2: nat)
    requires c1 < 4 && c2 < 4 && i1 < 128 && i2 < 128
    requires IsLogical(c1) == IsLogical(c2)
    requires DevIndex(c1, i1) == DevIndex(c2, i2)
    ensures c1 == c2 && i1 == i2
  {
  }

  // ---------------------------------------------------------------------
  // Copy/XOR offload (CPX) opcodes and response word
  // ---------------------------------------------------------------------

  const CPX_XOR_OP_GEN_P: bv32 := 0x01
  const CPX_XOR_OP_GEN_Q: bv32 := 0x02
  const CPX_XOR_OP_GEN_PQ: bv32 := 0x03
  const CPX_XOR_OP_CHECK_P: bv32 := 0x11
  const CPX_XOR_OP_CHECK_Q: bv32 := 0x12
  const CPX_XOR_OP_CHECK_PQ: bv32 := 0x13

  const CPX_STATUS_SUCCESS: bv8 := 0
  const CPX_STATUS_INCONSISTENT: bv8 := 1
  const CPX_STATUS_FAILURE: bv8 := 2

  const MAX_MR_ROW_SIZE: nat := 32

  predicate IsCheckOp(op: bv32) { op & 0x10 != 0 }
  predicate IsGenOp(op: bv32) { !IsCheckOp(op) }
  predicate IsPOp(op: bv32) { op & 0x01 != 0 }
  predicate IsQOp(op: bv32) { op & 0x02 != 0 }
  predicate IsPqOp(op: bv32) { op & 0x03 == 3 }

  /** The six opcodes the header defines. */
  predicate DefinedXorOp(op: bv32) {
    op == CPX_XOR_OP_GEN_P || op == CPX_XOR_OP_GEN_Q || op == CPX_XOR_OP_GEN_PQ
    || op == CPX_XOR_OP_CHECK_P || op == CPX_XOR_OP_CHECK_Q || op == CPX_XOR_OP_CHECK_PQ
  }

  /** GEN is the negation of CHECK; of the defined opcodes exactly 0x11..0x13 are checks; PQ implies P and Q. */
  lemma XorOpPredicates(op: bv32)
    ensures IsGenOp(op) <==> !IsCheckOp(op)
    ensures DefinedXorOp(op) ==> (IsCheckOp(op) <==> 0x11 <= op <= 0x13)
    ensures IsPqOp(op) ==> IsPOp(op) && IsQOp(op)
  {
  }

  /** The CPX response word: context in bits 0..23, status in 24..27, type in 28..31. */
  datatype CpxResponse = CpxResponse(context: bv32, status: bv32, kind: bv32)

  predicate CpxResponseFits(r: CpxResponse) {
    r.context < 0x100_0000 && r.status < 16 && r.kind < 16
  }

  function PackCpxResponse(r: CpxResponse): bv32 {
    (r.context & 0xFF_FFFF) | ((r.status & 0xF) << 24) | ((r.kind & 0xF) << 28)
  }

  function UnpackCpxResponse(w: bv32): (r: CpxResponse)
    ensures CpxResponseFits(r)
  {
    CpxResponse(w & 0xFF_FFFF, (w >> 24) & 0xF, w >> 28)
  }

  /** Packing and unpacking the response word are mutually inverse on in-range fields. */
  lemma CpxResponseRoundTrip(r: CpxResponse, w: bv32)
    ensures CpxResponseFits(r) ==> UnpackCpxResponse(PackCpxResponse(r)) == r
    ensures PackCpxResponse(UnpackCpxResponse(w)) == w
  {
  }
}

=== FILE: ocr.dfy ===
/**
 * Online controller reset on MFI controllers: fault detection in the
 * interrupt path (megasas_deplete_reply_queue, megasas_isr), the entry into
 * recovery shared with megasas_do_ocr, the recovery worker
 * process_fw_state_change_wq, and the replay of deferred commands
 * megasas_issue_pending_cmds_again.
 */
module Ocr {
  import opened Wrappers
  import opened MfiDefs
  import opened Cmds
  import opened CmdPool
  import opened Instance
  import opened Completion
  import opened Doorbell
  import opened Defer
  import opened Kill
  import opened FwReady

  /**
   * What the interrupt path and megasas_do_ocr do on a firmware fault: sign
   * the consumer index on controllers that check it, mask interrupts, enter
   * ADPRESET_SM_INFAULT with issuepend_done cleared, forget the firmware's
   * outstanding count, and defer every outstanding command.
   */
  function EnterFault(a: Adapter): (r: Adapter)
    requires Valid(a)
    ensures Valid(r) && r.pool.cmds == a.pool.cmds
    ensures r.health == a.health.(adprecovery := SmInFault, issuependDone := false)
    ensures r.fwOutstanding == 0 && r.log == a.log + [DisableIntr]
    ensures r.ring.consumer == (if SignsConsumer(a.hw) then ADPRESET_INPROG_SIGN else a.ring.consumer)
    ensures r.ring.producer == a.ring.producer && r.ring.queue == a.ring.queue
    ensures r.hw == a.hw && r.internal == a.internal && r.done == a.done
    ensures forall x :: 0 <= x < |a.pool.cmds| && Outstanding(a.pool.cmds[x]) ==> x in r.pending && !IsFree(r.pool, x)
  {
    var ring := if SignsConsumer(a.hw) then a.ring.(consumer := ADPRESET_INPROG_SIGN) else a.ring;
    DeferCmds(a.(ring := ring,
                 health := a.health.(adprecovery := SmInFault, issuependDone := false),
                 fwOutstanding := 0,
                 log := a.log + [DisableIntr]))
  }

  /** frame_count - 1 in the driver's u32 arithmetic. */
  function FrameCountArg(frameCount: nat): (n: nat)
    ensures frameCount > 0 ==> n == frameCount - 1
    ensures frameCount == 0 ==> n == 0xFFFF_FFFF
  {
    if frameCount == 0 then 0xFFFF_FFFF else frameCount - 1
  }

  /** The re-issue of one deferred slot: a sync command waits again, a SCSI command counts again. */
  function Refire(a: Adapter, i: nat): (r: Adapter)
    requires Valid(a) && i < |a.pool.cmds|
    ensures Valid(r) && SameFrame(a, r) && r.pool.free == a.pool.free && r.internal == a.internal && r.done == a.done
    ensures forall j :: 0 <= j < |a.pool.cmds| && j != i ==> r.pool.cmds[j] == a.pool.cmds[j]
    ensures r.log == a.log + RefireEvents(a.pool.cmds[i])
    ensures r.fwOutstanding == a.fwOutstanding + (if IsScsiOnly(a.pool.cmds[i]) then 1 else 0)
    ensures a.pool.cmds[i].syncCmd ==> r.pool.cmds[i] == a.pool.cmds[i].(statusDrv := STAT_INVALID_STATUS)
    ensures !a.pool.cmds[i].syncCmd ==> r.pool.cmds[i] == a.pool.cmds[i]
  {
    var c := a.pool.cmds[i];
    if c.syncCmd then
      Emit(SetCmd(a, i, c.(statusDrv := STAT_INVALID_STATUS)), Fire(c.frameAddr, 0))
    else if c.scmd.Some? then
      Emit(a.(fwOutstanding := a.fwOutstanding + 1), Fire(c.frameAddr, FrameCountArg(c.frameCount)))
    else a
  }

  /** A SCSI command that is not an internal one: replay counts it in fw_outstanding again. */
  predicate IsScsiOnly(c: Cmd) {
    !c.syncCmd && c.scmd.Some?
  }

  /** The doorbell write replay makes for one slot. */
  function RefireEvents(c: Cmd): (es: seq<Event>)
    ensures |es| == (if Outstanding(c) then 1 else 0)
  {
    if c.syncCmd then [Fire(c.frameAddr, 0)]
    else if c.scmd.Some? then [Fire(c.frameAddr, FrameCountArg(c.frameCount))]
    else []
  }

  /**
   * An outstanding slot whose retry_for_fw_reset is 2: the u8 increment of
   * the replay takes it to 3, the limit.
   */
  predicate AtLastRetry(c: Cmd) {
    Outstanding(c) && c.retry + 1 == 3
  }

  /**
   * The loop of megasas_issue_pending_cmds_again over the spliced-off queue
   * `q`. Each outstanding slot's retry_for_fw_reset (a u8) is incremented;
   * reaching 3 masks interrupts, forbids PCI access and kills the adapter,
   * and the rest of the queue is dropped. The flag in the result says
   * whether that happened.
   */
  function ReplayEach(a: Adapter, q: seq<nat>, fusionSyncIdx: seq<nat>): (r: Outcome<(Adapter, bool)>)
    requires Valid(a) && forall k :: 0 <= k < |q| ==> q[k] < |a.pool.cmds|
    ensures r.Done? ==> Valid(r.value.0) && r.value.0.hw == a.hw && r.value.0.pending == a.pending
    ensures r.Done? && r.value.1 ==> r.value.0.health.adprecovery == HwCriticalError
    ensures r.Done? && !r.value.1 ==> r.value.0.health == a.health && r.value.0.pool.free == a.pool.free
    decreases |q|
  {
    if |q| == 0 then Done((a, false))
    else
      var i := q[0];
      var c := a.pool.cmds[i];
      assert forall k :: 0 <= k < |q[1..]| ==> q[1..][k] == q[k + 1];
      if AtLastRetry(c) then
        var a1 := Emit(SetCmd(a, i, c.(retry := c.retry + 1)), DisableIntr);
        var a2 :- KillHba(a1.(health := a1.health.(noPciAccess := true)), fusionSyncIdx);
        Done((a2, true))
      else
        ReplayEach(ReplayStep(a, i), q[1..], fusionSyncIdx)
  }

  /** One entry of the replay that does not reach the retry limit: bump its retry count, then re-fire it. */
  function ReplayStep(a: Adapter, i: nat): (r: Adapter)
    requires Valid(a) && i < |a.pool.cmds|
    ensures Valid(r) && r.hw == a.hw && r.pending == a.pending && r.health == a.health && r.pool.free == a.pool.free
    ensures |r.pool.cmds| == |a.pool.cmds|
    ensures forall j :: 0 <= j < |a.pool.cmds| && j != i ==> r.pool.cmds[j] == a.pool.cmds[j]
    ensures Outstanding(a.pool.cmds[i]) ==> r.pool.cmds[i].retry == a.pool.cmds[i].retry + 1
    ensures r.log == a.log + RefireEvents(a.pool.cmds[i])
    ensures r.fwOutstanding == a.fwOutstanding + (if IsScsiOnly(a.pool.cmds[i]) then 1 else 0)
  {
    var a1 := BumpRetry(a, i);
    assert RefireEvents(a1.pool.cmds[i]) == RefireEvents(a.pool.cmds[i]);
    Refire(a1, i)
  }

  /** The u8 increment of retry_for_fw_reset on an outstanding slot. */
  function BumpRetry(a: Adapter, i: nat): (r: Adapter)
    requires Valid(a) && i < |a.pool.cmds|
    ensures Valid(r) && r == a.(pool := r.pool) && r.pool.free == a.pool.free && |r.pool.cmds| == |a.pool.cmds|
    ensures forall j :: 0 <= j < |a.pool.cmds| && j != i ==> r.pool.cmds[j] == a.pool.cmds[j]
    ensures r.pool.cmds[i] == a.pool.cmds[i].(retry := r.pool.cmds[i].retry)
    ensures r.pool.cmds[i].retry == if Outstanding(a.pool.cmds[i]) then a.pool.cmds[i].retry + 1 else a.pool.cmds[i].retry
  {
    var c := a.pool.cmds[i];
    if Outstanding(c) then SetCmd(a, i, c.(retry := c.retry + 1)) else a
  }

  /** The AEN command left over from before the reset is handed back before a new one is registered. */
  function ReturnAen(a: Adapter): (r: Outcome<Adapter>)
    requires Valid(a)
    ensures r.Done? ==> Valid(r.value) && SameFrame(a, r.value) && r.value.internal.aenCmd.None?
    ensures r.Done? ==> r.value.log == a.log && r.value.fwOutstanding == a.fwOutstanding
    ensures a.internal.aenCmd.None? ==> r == Done(a)
    ensures a.internal.aenCmd.Some? ==> (r.Halted? <==> !Held(a, a.internal.aenCmd.value))
  {
    match a.internal.aenCmd
      case None => Done(a)
      case Some(k) =>
        if !Held(a, k) then Halted(ListCorruption(k))
        else Done(Release(a.(internal := a.internal.(aenCmd := None)), k))
  }

  /**
   * megasas_issue_pending_cmds_again: the pending queue is spliced off and
   * replayed; unless that killed the adapter, the old AEN command is handed
   * back and a new one registered.
   */
  function Replay(a: Adapter, fusionSyncIdx: seq<nat>): (r: Outcome<Adapter>)
    requires Valid(a)
    ensures r.Done? ==> Valid(r.value) && r.value.pending == [] && r.value.hw == a.hw
    ensures r.Done? ==> r.value.health.adprecovery in {a.health.adprecovery, HwCriticalError}
  {
    var q := a.pending;
    assert forall k :: 0 <= k < |q| ==> q[k] in a.pending;
    var res :- ReplayEach(a.(pending := []), q, fusionSyncIdx);
    var (a1, killed) := res;
    if killed then Done(a1)
    else
      var a2 :- ReturnAen(a1);
      Done(Emit(a2, RegisterAen))
  }

  /** Replaying a queue on which nothing is at its last retry kills nothing, re-fires every entry and recounts the SCSI ones. */
  lemma {:induction false} ReplayWithoutLastRetry(a: Adapter, q: seq<nat>, fusionSyncIdx: seq<nat>)
    requires Valid(a) && forall k :: 0 <= k < |q| ==> q[k] < |a.pool.cmds|
    requires Distinct(q)
    requires forall k :: 0 <= k < |q| ==> !AtLastRetry(a.pool.cmds[q[k]])
    ensures ReplayEach(a, q, fusionSyncIdx).Done?
    ensures !ReplayEach(a, q, fusionSyncIdx).value.1
    ensures ReplayEach(a, q, fusionSyncIdx).value.0.log == a.log + AllRefires(a.pool.cmds, q)
    ensures ReplayEach(a, q, fusionSyncIdx).value.0.fwOutstanding == a.fwOutstanding + ScsiOnlyCount(a.pool.cmds, q)
    decreases |q|
  {
    if |q| > 0 {
      var i := q[0];
      var t := q[1..];
      var a2 := ReplayStep(a, i);
      assert forall k :: 0 <= k < |t| ==> t[k] == q[k + 1];
      DistinctTail(q);
      assert forall k :: 0 <= k < |t| ==> t[k] != i;
      assert forall k :: 0 <= k < |t| ==> a2.pool.cmds[t[k]] == a.pool.cmds[t[k]];
      ReplayWithoutLastRetry(a2, t, fusionSyncIdx);
      RefiresAgree(a.pool.cmds, a2.pool.cmds, t);
      assert ReplayEach(a, q, fusionSyncIdx) == ReplayEach(a2, t, fusionSyncIdx);
      assert AllRefires(a.pool.cmds, q) == RefireEvents(a.pool.cmds[i]) + AllRefires(a.pool.cmds, t);
      Assoc(a.log, RefireEvents(a.pool.cmds[i]), AllRefires(a.pool.cmds, t));
    }
  }

  /** The doorbell writes a replay of `q` makes, in queue order. */
  function AllRefires(cmds: seq<Cmd>, q: seq<nat>): seq<Event>
    requires forall k :: 0 <= k < |q| ==> q[k] < |cmds|
    decreases |q|
  {
    if |q| == 0 then []
    else
      assert forall k :: 0 <= k < |q[1..]| ==> q[1..][k] == q[k + 1];
      RefireEvents(cmds[q[0]]) + AllRefires(cmds, q[1..])
  }

  /** How many entries of `q` are SCSI commands that replay counts again. */
  function ScsiOnlyCount(cmds: seq<Cmd>, q: seq<nat>): nat
    requires forall k :: 0 <= k < |q| ==> q[k] < |cmds|
    decreases |q|
  {
    if |q| == 0 then 0
    else
      assert forall k :: 0 <= k < |q[1..]| ==> q[1..][k] == q[k + 1];
      (if IsScsiOnly(cmds[q[0]]) then 1 else 0) + ScsiOnlyCount(cmds, q[1..])
  }

  /** The reference sums only look at the slots named in the queue. */
  lemma {:induction false} RefiresAgree(c1: seq<Cmd>, c2: seq<Cmd>, q: seq<nat>)
    requires forall k :: 0 <= k < |q| ==> q[k] < |c1| && q[k] < |c2| && c1[q[k]] == c2[q[k]]
    ensures AllRefires(c1, q) == AllRefires(c2, q)
    ensures ScsiOnlyCount(c1, q) == ScsiOnlyCount(c2, q)
    decreases |q|
  {
    if |q| > 0 {
      assert forall k :: 0 <= k < |q[1..]| ==> q[1..][k] == q[k + 1];
      RefiresAgree(c1, c2, q[1..]);
    }
  }

  /** A slot at its last retry anywhere in the queue means the replay ends with the adapter dead. */
  lemma {:induction false} ReplayRetryCap(a: Adapter, q: seq<nat>, fusionSyncIdx: seq<nat>, k: nat)
    requires Valid(a) && forall j :: 0 <= j < |q| ==> q[j] < |a.pool.cmds|
    requires Distinct(q) && k < |q| && AtLastRetry(a.pool.cmds[q[k]])
    ensures ReplayEach(a, q, fusionSyncIdx).Done? ==>
              ReplayEach(a, q, fusionSyncIdx).value.1
              && ReplayEach(a, q, fusionSyncIdx).value.0.health.adprecovery == HwCriticalError
    decreases |q|
  {
    var i := q[0];
    if !AtLastRetry(a.pool.cmds[i]) {
      assert k > 0;
      var t := q[1..];
      var a2 := ReplayStep(a, i);
      assert forall j :: 0 <= j < |t| ==> t[j] == q[j + 1];
      DistinctTail(q);
      assert t[k - 1] == q[k] && q[k] != i;
      ReplayRetryCap(a2, t, fusionSyncIdx, k - 1);
      assert ReplayEach(a, q, fusionSyncIdx) == ReplayEach(a2, t, fusionSyncIdx);
    }
  }

  /**
   * megasas_transition_to_ready(instance, 1) succeeds on the status reads
   * `statusTrace`; a trace that runs out before READY counts as a failure.
   */
  predicate ComesReady(hw: Hw, statusTrace: seq<bv32>) {
    TransitionToReady(hw, true, statusTrace).result == ReadyOk
  }

  /** What the worker writes before it knows whether the firmware came back. */
  function ResetPrefix(a: Adapter, statusTrace: seq<bv32>): seq<Event> {
    a.log + [DisableIntr, AdpReset] + TransitionToReady(a.hw, true, statusTrace).events
  }

  /**
   * process_fw_state_change_wq. Outside ADPRESET_SM_INFAULT it does nothing.
   * Otherwise it masks interrupts, forgets the outstanding count and resets
   * the adapter (the result of adp_reset is not looked at); then it runs
   * the ready handshake on the status reads `statusTrace`, logging its
   * writes, and with `initOk` the result of megasas_issue_init_mfi (not
   * part of this model) either kills the adapter or resets the reply
   * indices, returns to HBA_OPERATIONAL, unmasks interrupts, replays the
   * deferred commands and sets issuepend_done.
   */
  function Worker(a: Adapter, statusTrace: seq<bv32>, initOk: bool, fusionSyncIdx: seq<nat>): (r: Outcome<Adapter>)
    requires Valid(a)
    ensures a.health.adprecovery != SmInFault ==> r == Done(a)
    ensures r.Done? ==> Valid(r.value) && r.value.hw == a.hw
    ensures r.Done? && a.health.adprecovery == SmInFault && !(ComesReady(a.hw, statusTrace) && initOk) ==>
              && r.value.health.adprecovery == HwCriticalError && r.value.health.noPciAccess
              && |r.value.log| >= |ResetPrefix(a, statusTrace)|
              && r.value.log[..|ResetPrefix(a, statusTrace)|] == ResetPrefix(a, statusTrace)
    ensures r.Done? && a.health.adprecovery == SmInFault && ComesReady(a.hw, statusTrace) && initOk ==>
              && r.value.health.adprecovery in {HbaOperational, HwCriticalError}
              && r.value.health.issuependDone && r.value.pending == []
    ensures r.Done? && a.health.adprecovery == SmInFault && r.value.health.adprecovery == HbaOperational ==>
              ComesReady(a.hw, statusTrace) && initOk
  {
    if a.health.adprecovery != SmInFault then Done(a)
    else
      var a1 := a.(fwOutstanding := 0, log := ResetPrefix(a, statusTrace),
                   health := a.health.(noPciAccess := false));
      if !ComesReady(a.hw, statusTrace) then WorkerGivesUp(a1, fusionSyncIdx)
      else
        var ring := if SignsConsumer(a.hw) then a.ring.(consumer := a.ring.producer)
                    else a.ring.(consumer := 0, producer := 0);
        var a2 := a1.(ring := ring);
        if !initOk then WorkerGivesUp(a2, fusionSyncIdx)
        else
          var a3 := a2.(health := a2.health.(adprecovery := HbaOperational), log := a2.log + [EnableIntr]);
          var a4 :- Replay(a3, fusionSyncIdx);
          Done(a4.(health := a4.health.(issuependDone := true)))
  }

  /** The worker's failure exits: no PCI access from now on, and the adapter is killed. */
  function WorkerGivesUp(a: Adapter, fusionSyncIdx: seq<nat>): (r: Outcome<Adapter>)
    requires Valid(a)
    ensures r.Done? ==> Valid(r.value) && r.value.hw == a.hw
    ensures r.Done? ==> r.value.health.adprecovery == HwCriticalError && r.value.health.noPciAccess
    ensures r.Done? ==> |r.value.log| >= |a.log| && r.value.log[..|a.log|] == a.log
  {
    var a1 := a.(health := a.health.(noPciAccess := true));
    var r :- KillHba(a1, fusionSyncIdx);
    PrefixShrinks(r.log, a1.log, StopEvents(a1.hw));
    Done(r)
  }

  lemma PrefixShrinks(s: seq<Event>, p: seq<Event>, q: seq<Event>)
    requires |s| >= |p| + |q| && s[..|p| + |q|] == p + q
    ensures |s| >= |p| && s[..|p|] == p
  {
    assert s[..|p|] == s[..|p| + |q|][..|p|];
  }

  /**
   * megasas_do_ocr: the fault entry followed directly by the worker, so the
   * adapter ends either operational with the deferred commands replayed or
   * dead.
   */
  function DoOcr(a: Adapter, statusTrace: seq<bv32>, initOk: bool, fusionSyncIdx: seq<nat>): (r: Outcome<Adapter>)
    requires Valid(a)
    ensures r.Done? ==> Valid(r.value) && r.value.hw == a.hw
    ensures r.Done? ==> r.value.health.adprecovery in {HbaOperational, HwCriticalError}
    ensures r.Done? && r.value.health.adprecovery == HbaOperational ==>
              ComesReady(a.hw, statusTrace) && initOk && r.value.pending == []
  {
    Worker(EnterFault(a), statusTrace, initOk, fusionSyncIdx)
  }

  datatype IrqReturn = IrqNone | IrqHandled

  /**
   * instancet->check_reset: an adapter that is not operational swallows its
   * interrupts; the xscale template only while the consumer index carries
   * the reset signature.
   */
  predicate ResetInProgress(a: Adapter) {
    && a.health.adprecovery != HbaOperational
    && (TemplateOf(a.hw) == XscaleTemplate ==> a.ring.consumer == ADPRESET_INPROG_SIGN)
  }

  /** The firmware-state-change bit of the decoded interrupt flags. */
  predicate StateChangeFlag(flags: bv32) {
    flags & INTR_FLAG_FIRMWARE_STATE_CHANGE != 0
  }

  /** The firmware status register reports MFI_STATE_FAULT. */
  predicate FaultReported(fwStatus: bv32) {
    fwStatus & STATE_MASK == STATE_FAULT
  }

  lemma StateChangeIsClaimed(flags: bv32)
    requires StateChangeFlag(flags)
    ensures flags != 0
  {
  }

  /**
   * megasas_deplete_reply_queue with the outbound status `status` and the
   * firmware status register `fwStatus` (read by the skinny decoder and on
   * a state change). A firmware fault with online reset allowed starts
   * recovery and schedules the worker; anything else claimed schedules the
   * completion tasklet.
   */
  function DepleteReplyQueue(a: Adapter, status: bv32, fwStatus: bv32): (r: (Adapter, IrqReturn))
    requires Valid(a) && TemplateOf(a.hw) != FusionTemplate
    ensures Valid(r.0)
    ensures ResetInProgress(a) ==> r == (a, IrqHandled)
    ensures r.1 == IrqNone <==> !ResetInProgress(a) && ClearIntr(TemplateOf(a.hw), status, fwStatus).flags == 0 && a.hw.msixVectors == 0
    ensures r.1 == IrqNone ==> r.0 == a.(log := a.log + AckWrites(a.hw, status, fwStatus))
    ensures !ResetInProgress(a) && r.1 == IrqHandled ==>
              var a1 := a.(log := a.log + AckWrites(a.hw, status, fwStatus));
              r.0 == (if StateChangeFlag(ClearIntr(TemplateOf(a.hw), status, fwStatus).flags) && FaultReported(fwStatus) && !a.health.disableOcr
                      then Emit(EnterFault(a1), ScheduleWork) else Emit(a1, ScheduleTasklet))
  {
    if ResetInProgress(a) then (a, IrqHandled)
    else DepleteDecoded(a, ClearIntr(TemplateOf(a.hw), status, fwStatus), FaultReported(fwStatus))
  }

  /** The acknowledging write clear_intr made, if any: the status read back to the template's register. */
  function AckWrites(hw: Hw, status: bv32, fwStatus: bv32): (es: seq<Event>)
    requires TemplateOf(hw) != FusionTemplate
    ensures |es| <= 1
    ensures ClearIntr(TemplateOf(hw), status, fwStatus).flags != 0 ==> |es| == 1 && es[0].RegWrite? && es[0].value == status
  {
    AckOf(ClearIntr(TemplateOf(hw), status, fwStatus))
  }

  function AckOf(ia: IntrAck): seq<Event> {
    match ia.ack
      case None => []
      case Some(w) => [RegWrite(w.0, w.1)]
  }

  /** megasas_deplete_reply_queue once clear_intr has answered `ia`: the acknowledge is logged, then the flags are acted on. */
  function DepleteDecoded(a: Adapter, ia: IntrAck, fault: bool): (r: (Adapter, IrqReturn))
    requires Valid(a)
    ensures Valid(r.0)
    ensures r.1 == IrqNone <==> ia.flags == 0 && a.hw.msixVectors == 0
    ensures ia.flags != 0 && StateChangeFlag(ia.flags) && fault ==>
              r == DepleteClaimed(a.(log := a.log + AckOf(ia)), true, true, true)
  {
    DepleteClaimed(a.(log := a.log + AckOf(ia)), ia.flags != 0 || a.hw.msixVectors != 0, StateChangeFlag(ia.flags), fault)
  }

  /** The part of megasas_deplete_reply_queue after the interrupt has been decoded. */
  function DepleteClaimed(a: Adapter, claimed: bool, stateChange: bool, fault: bool): (r: (Adapter, IrqReturn))
    requires Valid(a)
    ensures Valid(r.0)
    ensures r.1 == IrqNone <==> !claimed
    ensures !claimed ==> r.0 == a
    ensures claimed && stateChange && fault && !a.health.disableOcr ==>
              r.0 == Emit(EnterFault(a), ScheduleWork) && r.0.health.adprecovery == SmInFault
              && !r.0.health.issuependDone && r.0.log == a.log + [DisableIntr, ScheduleWork]
    ensures claimed && !(stateChange && fault && !a.health.disableOcr) ==>
              r.0 == Emit(a, ScheduleTasklet) && r.0.health == a.health
  {
    if !claimed then (a, IrqNone)
    else if stateChange && fault && !a.health.disableOcr then
      AppendTwo(a.log, DisableIntr, ScheduleWork);
      (Emit(EnterFault(a), ScheduleWork), IrqHandled)
    else (Emit(a, ScheduleTasklet), IrqHandled)
  }

  /**
   * A claimed interrupt that reports a firmware fault, with online reset
   * allowed, puts the adapter into recovery: the status is acknowledged on
   * the template's register, interrupts are masked and the worker queued.
   */
  lemma FaultInterruptStartsRecovery(a: Adapter, status: bv32, fwStatus: bv32)
    requires Valid(a) && TemplateOf(a.hw) != FusionTemplate && !a.health.noPciAccess && !a.health.disableOcr
    requires a.health.adprecovery == HbaOperational
    requires StateChangeFlag(ClearIntr(TemplateOf(a.hw), status, fwStatus).flags) && FaultReported(fwStatus)
    ensures Isr(a, status, fwStatus).1 == IrqHandled
    ensures Isr(a, status, fwStatus).0.health.adprecovery == SmInFault
    ensures !Isr(a, status, fwStatus).0.health.issuependDone
    ensures Isr(a, status, fwStatus).0.log == a.log + AckWrites(a.hw, status, fwStatus) + [DisableIntr, ScheduleWork]
    ensures |AckWrites(a.hw, status, fwStatus)| == 1 && AckWrites(a.hw, status, fwStatus)[0].value == status
  {
    FaultInterruptIsClaimed(a, status, fwStatus);
    StateChangeIsClaimed(ClearIntr(TemplateOf(a.hw), status, fwStatus).flags);
  }

  lemma FaultInterruptIsClaimed(a: Adapter, status: bv32, fwStatus: bv32)
    requires Valid(a) && TemplateOf(a.hw) != FusionTemplate && !a.health.noPciAccess
    requires a.health.adprecovery == HbaOperational
    requires StateChangeFlag(ClearIntr(TemplateOf(a.hw), status, fwStatus).flags) && FaultReported(fwStatus)
    ensures Isr(a, status, fwStatus)
              == DepleteClaimed(a.(log := a.log + AckWrites(a.hw, status, fwStatus)), true, true, true)
  {
    var ia := ClearIntr(TemplateOf(a.hw), status, fwStatus);
    StateChangeIsClaimed(ia.flags);
    assert Isr(a, status, fwStatus) == DepleteDecoded(a, ia, true);
  }

  lemma Assoc(p: seq<Event>, x: seq<Event>, y: seq<Event>)
    ensures (p + x) + y == p + (x + y)
  {
  }

  lemma AppendTwo(s: seq<Event>, x: Event, y: Event)
    ensures (s + [x]) + [y] == s + [x, y]
  {
  }

  /** megasas_isr: nothing is touched while PCI access is forbidden. */
  function Isr(a: Adapter, status: bv32, fwStatus: bv32): (r: (Adapter, IrqReturn))
    requires Valid(a) && TemplateOf(a.hw) != FusionTemplate
    ensures Valid(r.0)
    ensures a.health.noPciAccess ==> r == (a, IrqHandled)
    ensures !a.health.noPciAccess ==> r == DepleteReplyQueue(a, status, fwStatus)
  {
    if a.health.noPciAccess then (a, IrqHandled) else DepleteReplyQueue(a, status, fwStatus)
  }
}

=== FILE: reset_handler.dfy ===
/**
 * megasas_wait_for_outstanding, the core of the SCSI mid-layer's host reset
 * handler on MFI controllers: wait out an internal reset already under way,
 * or drive up to three online controller resets of its own, and kill the
 * adapter when neither brings it back.
 */
module ResetHandler {
  import opened Wrappers
  import opened MfiDefs
  import opened Cmds
  import opened CmdPool
  import opened Instance
  import opened Completion
  import opened Defer
  import opened Kill
  import opened Ocr

  /** SUCCESS or FAILED to the mid-layer; a run that needs more inputs than it was given ends the trace. */
  datatype HandlerVerdict = HandlerSuccess | HandlerFailed | HandlerTraceEnded

  /**
   * What one megasas_do_ocr call meets: the status reads of the ready
   * handshake and the result of the INIT frame inside the worker, and the
   * firmware status register read five seconds later.
   */
  datatype OcrAttempt = OcrAttempt(statusTrace: seq<bv32>, initOk: bool, fwStatusAfter: bv32)

  /** The adapter afterwards, the verdict, and how many online resets were issued. */
  datatype HandlerRun = HandlerRun(adapter: Adapter, verdict: HandlerVerdict, ocrs: nat)

  /** The result word of a command handed back for requeueing: DID_REQUEUE in the host byte. */
  const REQUEUE_RESULT: bv32 := DID_REQUEUE << 16

  /** The firmware status register reports MFI_STATE_OPERATIONAL. */
  predicate OperationalReported(fwStatus: bv32) {
    fwStatus & STATE_MASK == STATE_OPERATIONAL
  }

  /** What handing back one stolen pending command does to the event log. */
  function StolenEvents(c: Cmd): (es: seq<Event>)
    ensures |es| == (if c.scmd.None? && c.syncCmd then 1 else 0)
  {
    if c.scmd.Some? then [] else if c.syncCmd then [Fire(c.frameAddr, 0)] else []
  }

  /** The doorbell writes for a stolen list, in list order. */
  function AllStolenEvents(cmds: seq<Cmd>, q: seq<nat>): seq<Event>
    requires forall x :: x in q ==> x < |cmds|
    decreases |q|
  {
    if |q| == 0 then []
    else
      assert q[0] in q && forall x :: x in q[1..] ==> x in q;
      StolenEvents(cmds[q[0]]) + AllStolenEvents(cmds, q[1..])
  }

  /** The SCSI requests of a stolen list, in list order. */
  function StolenRequests(cmds: seq<Cmd>, q: seq<nat>): seq<Request>
    requires forall x :: x in q ==> x < |cmds|
    decreases |q|
  {
    if |q| == 0 then []
    else
      assert q[0] in q && forall x :: x in q[1..] ==> x in q;
      (if cmds[q[0]].scmd.Some? then [cmds[q[0]].scmd.value] else []) + StolenRequests(cmds, q[1..])
  }

  /** The references only look at the slots named in the list. */
  lemma {:induction false} StolenAgree(c1: seq<Cmd>, c2: seq<Cmd>, q: seq<nat>)
    requires forall x :: x in q ==> x < |c1| && x < |c2| && c1[x] == c2[x]
    ensures AllStolenEvents(c1, q) == AllStolenEvents(c2, q)
    ensures StolenRequests(c1, q) == StolenRequests(c2, q)
    decreases |q|
  {
    if |q| > 0 {
      assert forall x :: x in q[1..] ==> x in q;
      StolenAgree(c1, c2, q[1..]);
    }
  }

  /** The completions a flush hands to the mid-layer: every stolen request, asked to be requeued. */
  function Requeued(reqs: seq<Request>): (cs: seq<Instance.Completion>)
    ensures |cs| == |reqs|
    ensures forall k :: 0 <= k < |cs| ==> cs[k] == Instance.Completion(reqs[k], REQUEUE_RESULT)
  {
    seq(|reqs|, k requires 0 <= k < |reqs| => Instance.Completion(reqs[k], REQUEUE_RESULT))
  }

  /**
   * One stolen command: a SCSI command goes back to the mid-layer with
   * DID_REQUEUE and its slot is returned; a synchronous one is marked
   * invalid and fired again; anything else is left alone.
   */
  function FlushOne(a: Adapter, i: nat): (r: Adapter)
    requires Valid(a) && i < |a.pool.cmds| && Held(a, i)
    ensures Valid(r) && SameFrame(a, r) && r.fwOutstanding == a.fwOutstanding && r.internal == a.internal
    ensures forall x :: x in r.pool.free <==> x in a.pool.free || (x == i && a.pool.cmds[i].scmd.Some? && IsFree(r.pool, i))
    ensures forall j :: 0 <= j < |a.pool.cmds| && j != i ==> r.pool.cmds[j] == a.pool.cmds[j]
    ensures r.log == a.log + StolenEvents(a.pool.cmds[i])
    ensures r.done == a.done + Requeued(if a.pool.cmds[i].scmd.Some? then [a.pool.cmds[i].scmd.value] else [])
  {
    var c := a.pool.cmds[i];
    if c.scmd.Some? then
      Release(a.(done := a.done + [Instance.Completion(c.scmd.value, REQUEUE_RESULT)]), i)
    else if c.syncCmd then
      Emit(SetCmd(a, i, c.(statusDrv := STAT_INVALID_STATUS)), Fire(c.frameAddr, 0))
    else a
  }

  /** The loop over the stolen list in megasas_wait_for_outstanding. */
  function FlushStolen(a: Adapter, q: seq<nat>): (r: Adapter)
    requires Valid(a) && Distinct(q)
    requires forall k :: 0 <= k < |q| ==> q[k] < |a.pool.cmds| && Held(a, q[k])
    ensures Valid(r) && SameFrame(a, r) && r.fwOutstanding == a.fwOutstanding && r.internal == a.internal
    ensures r.log == a.log + AllStolenEvents(a.pool.cmds, q)
    ensures r.done == a.done + Requeued(StolenRequests(a.pool.cmds, q))
    decreases |q|
  {
    if |q| == 0 then a
    else
      var i := q[0];
      var t := q[1..];
      var a1 := FlushOne(a, i);
      TailStillHeld(a, a1, q);
      var r := FlushStolen(a1, t);
      StolenAgree(a.pool.cmds, a1.pool.cmds, t);
      assert q == [i] + t;
      EventsGlue(a.log, a1.log, r.log, StolenEvents(a.pool.cmds[i]), AllStolenEvents(a.pool.cmds, t));
      var head := if a.pool.cmds[i].scmd.Some? then [a.pool.cmds[i].scmd.value] else [];
      RequeuedAppend(head, StolenRequests(a.pool.cmds, t));
      DoneGlue(a.done, a1.done, r.done, Requeued(head), Requeued(StolenRequests(a.pool.cmds, t)));
      r
  }

  /** After the head of the stolen list is handed back, the rest is still held and untouched. */
  lemma TailStillHeld(a: Adapter, a1: Adapter, q: seq<nat>)
    requires Valid(a) && Distinct(q) && |q| > 0
    requires forall k :: 0 <= k < |q| ==> q[k] < |a.pool.cmds| && Held(a, q[k])
    requires a1.pending == a.pending && |a1.pool.cmds| == |a.pool.cmds|
    requires forall x :: x in a1.pool.free ==> x in a.pool.free || x == q[0]
    requires forall j :: 0 <= j < |a.pool.cmds| && j != q[0] ==> a1.pool.cmds[j] == a.pool.cmds[j]
    ensures Distinct(q[1..])
    ensures forall k :: 0 <= k < |q[1..]| ==> q[1..][k] < |a1.pool.cmds| && Held(a1, q[1..][k])
    ensures forall x :: x in q[1..] ==> x < |a.pool.cmds| && x < |a1.pool.cmds| && a.pool.cmds[x] == a1.pool.cmds[x]
  {
    var t := q[1..];
    assert forall k :: 0 <= k < |t| ==> t[k] == q[k + 1];
    DistinctTail(q);
    forall x | x in t ensures x < |a.pool.cmds| && a.pool.cmds[x] == a1.pool.cmds[x] {
      var k :| 0 <= k < |t| && t[k] == x;
      assert q[k + 1] == x;
    }
  }

  lemma EventsGlue(p: seq<Event>, p1: seq<Event>, p2: seq<Event>, x: seq<Event>, y: seq<Event>)
    requires p1 == p + x && p2 == p1 + y
    ensures p2 == p + (x + y)
  {
  }

  lemma DoneGlue(p: seq<Instance.Completion>, p1: seq<Instance.Completion>, p2: seq<Instance.Completion>,
                 x: seq<Instance.Completion>, y: seq<Instance.Completion>)
    requires p1 == p + x && p2 == p1 + y
    ensures p2 == p + (x + y)
  {
  }

  lemma RequeuedAppend(x: seq<Request>, y: seq<Request>)
    ensures Requeued(x + y) == Requeued(x) + Requeued(y)
  {
  }

  /**
   * The online reset loop (the do-while in megasas_wait_for_outstanding),
   * at iteration `i`. While the firmware is faulted or commands are
   * outstanding, the fourth iteration kills the adapter and the first three
   * each issue megasas_do_ocr; a reset that kills the adapter fails, one
   * that leaves nothing outstanding with the firmware operational succeeds.
   * An iteration that finds nothing to do changes nothing, so the remaining
   * ones do not either and the handler succeeds.
   */
  function OcrLoop(a: Adapter, i: nat, fwStatus: bv32, attempts: seq<OcrAttempt>, fusionSyncIdx: seq<nat>): (r: Outcome<HandlerRun>)
    requires Valid(a) && i <= 3 && a.health.adprecovery == HbaOperational
    ensures r.Done? ==> Valid(r.value.adapter) && r.value.adapter.hw == a.hw
    ensures r.Done? ==> r.value.ocrs <= 3 - i && r.value.ocrs <= |attempts|
    ensures r.Done? && r.value.verdict == HandlerFailed ==> r.value.adapter.health.adprecovery == HwCriticalError
    ensures r.Done? && r.value.verdict == HandlerSuccess ==>
              r.value.adapter.health.adprecovery == HbaOperational && r.value.adapter.fwOutstanding == 0
    ensures !FaultReported(fwStatus) && a.fwOutstanding == 0 ==> r == Done(HandlerRun(a, HandlerSuccess, 0))
    decreases 3 - i
  {
    if !FaultReported(fwStatus) && a.fwOutstanding == 0 then Done(HandlerRun(a, HandlerSuccess, 0))
    else if i == 3 then
      var k :- KillHba(a, fusionSyncIdx);
      Done(HandlerRun(k, HandlerFailed, 0))
    else if |attempts| == 0 then Done(HandlerRun(a, HandlerTraceEnded, 0))
    else
      var st :- OcrAttemptStep(a, attempts[0], fusionSyncIdx);
      match st.1
      case Some(v) => Done(HandlerRun(st.0, v, 1))
      case None =>
        var rest :- OcrLoop(st.0, i + 1, attempts[0].fwStatusAfter, attempts[1..], fusionSyncIdx);
        Done(rest.(ocrs := rest.ocrs + 1))
  }

  /**
   * One megasas_do_ocr of the loop and the tests after it: a verdict when
   * the reset killed the adapter or left it clean, None when the loop goes on
   * with the adapter operational again.
   */
  function OcrAttemptStep(a: Adapter, t: OcrAttempt, fusionSyncIdx: seq<nat>): (r: Outcome<(Adapter, Option<HandlerVerdict>)>)
    requires Valid(a)
    ensures r.Done? ==> Valid(r.value.0) && r.value.0.hw == a.hw
    ensures r.Done? && r.value.1 == Some(HandlerFailed) ==> r.value.0.health.adprecovery == HwCriticalError
    ensures r.Done? && r.value.1 == Some(HandlerSuccess) ==>
              r.value.0.health.adprecovery == HbaOperational && r.value.0.fwOutstanding == 0
    ensures r.Done? ==> r.value.1 in {None, Some(HandlerFailed), Some(HandlerSuccess)}
    ensures r.Done? && r.value.1.None? ==> r.value.0.health.adprecovery == HbaOperational
  {
    var a1 :- DoOcr(a, t.statusTrace, t.initOk, fusionSyncIdx);
    if a1.health.adprecovery == HwCriticalError then Done((a1, Some(HandlerFailed)))
    else if a1.fwOutstanding == 0 && OperationalReported(t.fwStatusAfter) then Done((a1, Some(HandlerSuccess)))
    else Done((a1, None))
  }

  /** The first stolen slot the adapter no longer holds, if any. */
  function FirstUnheld(a: Adapter, q: seq<nat>): (r: Option<nat>)
    ensures r.None? <==> forall k :: 0 <= k < |q| ==> q[k] < |a.pool.cmds| && Held(a, q[k])
    ensures r.Some? ==> r.value in q
    decreases |q|
  {
    if |q| == 0 then None
    else if !(q[0] < |a.pool.cmds| && Held(a, q[0])) then Some(q[0])
    else
      var t := FirstUnheld(a, q[1..]);
      assert forall k :: 0 < k < |q| ==> q[k] == q[1..][k - 1];
      if t.Some? then Some(t.value) else None
  }

  /**
   * megasas_wait_for_outstanding. A dead adapter fails at once. During an
   * internal reset the pending queue is stolen and the handler waits for
   * the recovery worker (process_fw_state_change_wq), which runs here on
   * its own inputs `statusTrace` and `initOk`: the wait ends in success
   * exactly when the worker brings the adapter back to HBA_OPERATIONAL,
   * and the stolen commands are then handed back; otherwise the adapter is
   * marked dead. A stolen slot the worker handed back to the pool (the
   * old AEN command) is a list corruption. On an operational adapter, with
   * `fwStatus` the firmware status register read after the wait for
   * completions, a clean firmware succeeds, disableOnlineCtrlReset kills
   * the adapter, and otherwise the online reset loop runs on `attempts`.
   */
  function WaitForOutstanding(a: Adapter, statusTrace: seq<bv32>, initOk: bool, fwStatus: bv32,
                              attempts: seq<OcrAttempt>, fusionSyncIdx: seq<nat>): (r: Outcome<HandlerRun>)
    requires Valid(a)
    ensures a.health.adprecovery == HwCriticalError ==> r == Done(HandlerRun(a, HandlerFailed, 0))
    ensures r.Done? ==> Valid(r.value.adapter) && r.value.adapter.hw == a.hw && r.value.ocrs <= 3
    ensures r.Done? && r.value.verdict == HandlerFailed ==> r.value.adapter.health.adprecovery == HwCriticalError
    ensures r.Done? && r.value.verdict == HandlerSuccess ==> r.value.adapter.health.adprecovery == HbaOperational
    ensures r.Done? && a.health.adprecovery == HbaOperational && r.value.verdict == HandlerSuccess ==>
              r.value.adapter.fwOutstanding == 0
    ensures a.health.adprecovery !in {HwCriticalError, HbaOperational} && r.Done? ==>
              && r.value.ocrs == 0 && r.value.adapter.pending == [] && r.value.verdict != HandlerTraceEnded
    ensures a.health.adprecovery !in {HwCriticalError, HbaOperational, SmInFault} ==>
              r == Done(HandlerRun(a.(pending := [], health := a.health.(adprecovery := HwCriticalError)),
                                   HandlerFailed, 0))
    ensures a.health.adprecovery !in {HwCriticalError, HbaOperational} && r.Done?
            && r.value.verdict == HandlerSuccess ==>
              && a.health.adprecovery == SmInFault && ComesReady(a.hw, statusTrace) && initOk
              && r.value.adapter.health.issuependDone
    ensures a.health.adprecovery !in {HwCriticalError, HbaOperational} && r.Done?
            && !(ComesReady(a.hw, statusTrace) && initOk) ==>
              r.value.verdict == HandlerFailed
    ensures a.health.adprecovery == HbaOperational && a.health.disableOcr
            && !(a.fwOutstanding == 0 && OperationalReported(fwStatus)) ==>
              r.Done? ==> r.value.verdict == HandlerFailed && r.value.ocrs == 0
  {
    if a.health.adprecovery == HwCriticalError then Done(HandlerRun(a, HandlerFailed, 0))
    else if a.health.adprecovery != HbaOperational then
      var stolen := a.pending;
      var a1 := a.(pending := []);
      var w :- Worker(a1, statusTrace, initOk, fusionSyncIdx);
      if w.health.adprecovery != HbaOperational then
        Done(HandlerRun(w.(health := w.health.(adprecovery := HwCriticalError)), HandlerFailed, 0))
      else
        match FirstUnheld(w, stolen)
        case Some(k) => Halted(ListCorruption(k))
        case None => Done(HandlerRun(FlushStolen(w, stolen), HandlerSuccess, 0))
    else if a.fwOutstanding == 0 && OperationalReported(fwStatus) then Done(HandlerRun(a, HandlerSuccess, 0))
    else if a.health.disableOcr then
      var k :- KillHba(a, fusionSyncIdx);
      Done(HandlerRun(k, HandlerFailed, 0))
    else OcrLoop(a, 0, fwStatus, attempts, fusionSyncIdx)
  }

  /**
   * Once the worker has brought the adapter back and still holds every
   * stolen slot, every stolen request goes to the mid-layer with
   * DID_REQUEUE and every stolen sync command is fired again, in list
   * order, after the worker's own effects; the adapter takes requests
   * again.
   */
  lemma RecoveredFlushRequeues(a: Adapter, statusTrace: seq<bv32>, initOk: bool, fwStatus: bv32,
                               attempts: seq<OcrAttempt>, fusionSyncIdx: seq<nat>, w: Adapter)
    requires Valid(a) && a.health.adprecovery == SmInFault
    requires Worker(a.(pending := []), statusTrace, initOk, fusionSyncIdx) == Done(w)
    requires w.health.adprecovery == HbaOperational
    requires forall k :: 0 <= k < |a.pending| ==> a.pending[k] < |w.pool.cmds| && Held(w, a.pending[k])
    ensures WaitForOutstanding(a, statusTrace, initOk, fwStatus, attempts, fusionSyncIdx).Done?
    ensures WaitForOutstanding(a, statusTrace, initOk, fwStatus, attempts, fusionSyncIdx).value.verdict
            == HandlerSuccess
    ensures WaitForOutstanding(a, statusTrace, initOk, fwStatus, attempts, fusionSyncIdx).value.adapter.done
            == w.done + Requeued(StolenRequests(w.pool.cmds, a.pending))
    ensures WaitForOutstanding(a, statusTrace, initOk, fwStatus, attempts, fusionSyncIdx).value.adapter.log
            == w.log + AllStolenEvents(w.pool.cmds, a.pending)
    ensures WaitForOutstanding(a, statusTrace, initOk, fwStatus, attempts, fusionSyncIdx).value.adapter.health
            == w.health
  {
    assert FirstUnheld(w, a.pending).None?;
  }
}

=== FILE: wrappers.dfy ===
/** Small failure-compatible wrappers shared by the whole model. */
module Wrappers {

  /** A value that may be absent: the model's stand-in for a NULL pointer. */
  datatype Option<+T> = None | Some(value: T)

  /** Why the driver would stop with a kernel BUG() or a NULL dereference. */
  datatype Halt =
    | ContextOutOfRange(context: nat)   // reply-ring context >= max_fw_cmds: BUG()
    | IndexOutsideRing                  // consumer index outside the reply ring: the read is out of bounds
    | DrainNeverEnds                    // consumer inside the ring, producer past its end: the wrapping consumer never meets it
    | NullRequest(index: nat)           // SCSI completion path with no scsi_cmnd attached
    | NullFusionContext                 // LD map completion on a controller without a fusion context
    | ListCorruption(index: nat)        // a slot handed back while it is already on a list

  /** The result of a driver step that either finishes or never returns normally (a BUG(), a fault, a loop without end). */
  datatype Outcome<+T> = Done(value: T) | Halted(why: Halt) {

    predicate IsFailure() {
      Halted?
    }

    function PropagateFailure<U>(): Outcome<U>
      requires Halted?
    {
      Halted(why)
    }

    function Extract(): T
      requires Done?
    {
      value
    }
  }
}

=== FILE: xor_offload.dfy ===
/**
 * One CPX XOR request end to end: the checked dispatch decides which
 * buffers take part, and the parity routine for that many sources runs on
 * them. Host memory is seen as the MAX_MR_ROW_SIZE buffers the descriptor
 * names, each a sequence of 32-bit words.
 */
module XorOffload {
  import opened MfiDefs
  import opened BitMath
  import opened CpxXor
  import opened XorParity

  /** The source buffers of a request, in the order the dispatch lists them. */
  function SourceBuffers(bufs: seq<seq<bv32>>, positions: seq<nat>): (srcs: seq<seq<bv32>>)
    requires forall k :: 0 <= k < |positions| ==> positions[k] < |bufs|
    ensures |srcs| == |positions|
    ensures forall k :: 0 <= k < |srcs| ==> srcs[k] == bufs[positions[k]]
  {
    seq(|positions|, k requires 0 <= k < |positions| => bufs[positions[k]])
  }

  /** Every buffer holds at least `words` words. */
  predicate BuffersCover(bufs: seq<seq<bv32>>, words: nat) {
    forall i :: 0 <= i < |bufs| ==> words <= |bufs[i]|
  }

  /** A dispatch that runs names a destination and sources inside the buffer list. */
  predicate RunsWithin(r: XorDispatch, n: nat) {
    r.XorRun? ==> r.dest < n && forall k :: 0 <= k < |r.sources| ==> r.sources[k] < n
  }

  /**
   * The routine call at the end of megasas_do_cpx_xor, for a dispatch
   * already decided: nothing for a refused request, xor_gen_Nx1 or
   * xor_chk_Nx1 on the destination and the N sources otherwise.
   */
  method RunDispatched(r: XorDispatch, bufs: seq<seq<bv32>>, bytes: nat) returns (status: bv8, bufs': seq<seq<bv32>>)
    requires !r.XorUndefined? && RunsWithin(r, |bufs|) && BuffersCover(bufs, bytes / 4)
    ensures status == CPX_STATUS_FAILURE <==> r.XorRejected?
    ensures r.XorRejected? ==> bufs' == bufs
    ensures |bufs'| == |bufs| && BuffersCover(bufs', bytes / 4)
    ensures forall i :: 0 <= i < |bufs| && !(r.XorRun? && i == r.dest) ==> bufs'[i] == bufs[i]
    ensures r.XorRun? ==>
              var srcs := SourceBuffers(bufs, r.sources);
              && SourcesCover(srcs, bytes / 4)
              && Consistent(bufs'[r.dest], srcs, bytes / 4)
              && (r.gen ==> status == CPX_STATUS_SUCCESS)
              && (!r.gen ==> (status == CPX_STATUS_SUCCESS <==> Consistent(bufs[r.dest], srcs, bytes / 4)))
  {
    if r.XorRejected? {
      status, bufs' := CPX_STATUS_FAILURE, bufs;
      return;
    }
    var srcs := SourceBuffers(bufs, r.sources);
    assert SourcesCover(srcs, bytes / 4);
    var nd: seq<bv32>;
    if r.gen {
      nd := XorGen(bufs[r.dest], srcs, bytes);
      status := CPX_STATUS_SUCCESS;
    } else {
      status, nd := XorCheck(bufs[r.dest], srcs, bytes);
    }
    bufs' := bufs[r.dest := nd];
  }

  /**
   * megasas_do_cpx_xor with its checks made exact, followed by the routine
   * it calls. A refused request returns MR_CPX_STATUS_FAILURE and touches
   * nothing; a generate writes the parity of the sources the dispatch lists
   * (the bitmap's positions, lowest first) into the destination and returns
   * MR_CPX_STATUS_SUCCESS; a check repairs the destination and reports
   * whether it had to. No buffer but the destination changes.
   */
  method CompleteXor(d: XorDescriptor, len: nat, bufs: seq<seq<bv32>>) returns (status: bv8, bufs': seq<seq<bv32>>)
    requires DescriptorFits(d) && len < U32
    requires |bufs| == MAX_MR_ROW_SIZE && BuffersCover(bufs, d.size / 4)
    ensures status == CPX_STATUS_FAILURE <==> !Acceptable(d, len)
    ensures !Acceptable(d, len) ==> bufs' == bufs
    ensures |bufs'| == |bufs| && BuffersCover(bufs', d.size / 4)
    ensures forall i :: 0 <= i < |bufs| && i != DestIndex(d) ==> bufs'[i] == bufs[i]
    ensures RunsWithin(DoCpxXor(d, len), |bufs|)
    ensures var r := DoCpxXor(d, len);
            r.XorRun? ==>
              var srcs := SourceBuffers(bufs, r.sources);
              && SourcesCover(srcs, d.size / 4)
              && Consistent(bufs'[DestIndex(d)], srcs, d.size / 4)
              && (IsGenOp(d.op) ==> status == CPX_STATUS_SUCCESS)
              && (IsCheckOp(d.op) ==> (status == CPX_STATUS_SUCCESS <==> Consistent(bufs[DestIndex(d)], srcs, d.size / 4)))
  {
    var r := DoCpxXor(d, len);
    assert RunsWithin(r, |bufs|) by {
      if r.XorRun? {
        assert forall k :: 0 <= k < |r.sources| ==> r.sources[k] in r.sources;
      }
    }
    status, bufs' := RunDispatched(r, bufs, d.size);
  }
}

=== FILE: xor_parity.dfy ===
/**
 * The low-level parity routines behind the CPX XOR offload: xor_gen_Nx1
 * writes the XOR of N source buffers into the destination, xor_chk_Nx1
 * compares the destination with that XOR and repairs every word that
 * differs. Buffers are sequences of 32-bit words, one per buffer, and
 * distinct from one another; the routines touch the first bytes/4 words.
 */
module XorParity {
  import opened MfiDefs

  /** Word `off` of every source, XORed together in order: s1 ^ s2 ^ ... ^ sN. */
  function XorAt(srcs: seq<seq<bv32>>, off: nat): bv32
    requires forall i :: 0 <= i < |srcs| ==> off < |srcs[i]|
    decreases |srcs|
  {
    if |srcs| == 0 then 0 else XorAt(srcs[..|srcs| - 1], off) ^ srcs[|srcs| - 1][off]
  }

  /** Every source has at least `words` words. */
  predicate SourcesCover(srcs: seq<seq<bv32>>, words: nat) {
    forall i :: 0 <= i < |srcs| ==> words <= |srcs[i]|
  }

  /** The destination holds the parity of the sources over its first `words` words. */
  predicate Consistent(d: seq<bv32>, srcs: seq<seq<bv32>>, words: nat)
    requires words <= |d| && SourcesCover(srcs, words)
  {
    forall off :: 0 <= off < words ==> d[off] == XorAt(srcs, off)
  }

  /** One source: its XOR is the source itself, which is why xor_gen_1x1 and xor_chk_1x1 copy and compare. */
  lemma XorOfOne(srcs: seq<seq<bv32>>, off: nat)
    requires |srcs| == 1 && off < |srcs[0]|
    ensures XorAt(srcs, off) == srcs[0][off]
  {
    assert srcs[..0] == [];
  }

  lemma XorCancel(a: bv32, x: bv32)
    ensures a ^ (a ^ x) == x
  {
  }

  lemma XorZero(a: bv32, b: bv32)
    ensures a ^ b == 0 <==> a == b
  {
  }

  /**
   * xor_gen_Nx1 for N = |srcs|: for each of the first bytes/4 words, the
   * destination word becomes the XOR of the source words at that offset; a
   * trailing partial word and everything beyond are left alone.
   */
  method XorGen(d: seq<bv32>, srcs: seq<seq<bv32>>, bytes: nat) returns (d': seq<bv32>)
    requires bytes / 4 <= |d| && SourcesCover(srcs, bytes / 4)
    ensures |d'| == |d|
    ensures Consistent(d', srcs, bytes / 4)
    ensures d'[bytes / 4..] == d[bytes / 4..]
  {
    var words := bytes / 4;
    d' := d;
    var off := 0;
    while off < words
      invariant 0 <= off <= words
      invariant |d'| == |d|
      invariant forall k :: 0 <= k < off ==> d'[k] == XorAt(srcs, k)
      invariant forall k :: off <= k < |d| ==> d'[k] == d[k]
    {
      d' := d'[off := XorAt(srcs, off)];
      off := off + 1;
    }
  }

  /**
   * The body of the xor_chk_Nx1 loop for one word `dw` of the destination,
   * against parity word `x` (the one source word `s1` when `single`):
   * xor_chk_1x1 compares it with the source word and copies that over;
   * the others XOR it into the parity word r and, when r is not zero, XOR r
   * back into it. Either way the word is flagged exactly when it was not
   * the parity, and comes back as the parity.
   */
  method CheckWord(dw: bv32, x: bv32, single: bool, s1: bv32) returns (bad: bool, w: bv32)
    requires single ==> x == s1
    ensures bad <==> dw != x
    ensures w == x
  {
    if single {
      bad := dw != s1;
      w := if bad then s1 else dw;
    } else {
      var r := dw ^ x;
      XorZero(dw, x);
      bad := r != 0;
      XorCancel(dw, x);
      w := if bad then dw ^ r else dw;
    }
  }

  /**
   * xor_chk_Nx1 for N = |srcs|. For one source the routine compares and
   * copies; for more it XORs the destination into the parity and, where the
   * result is not zero, XORs that result back into the destination. The
   * status is MR_CPX_STATUS_SUCCESS when no word differed and
   * MR_CPX_STATUS_INCONSISTENT otherwise; either way the destination
   * leaves holding the parity.
   */
  method XorCheck(d: seq<bv32>, srcs: seq<seq<bv32>>, bytes: nat) returns (status: bv8, d': seq<bv32>)
    requires bytes / 4 <= |d| && SourcesCover(srcs, bytes / 4)
    ensures status == CPX_STATUS_SUCCESS || status == CPX_STATUS_INCONSISTENT
    ensures status == CPX_STATUS_SUCCESS <==> Consistent(d, srcs, bytes / 4)
    ensures |d'| == |d|
    ensures Consistent(d', srcs, bytes / 4)
    ensures d'[bytes / 4..] == d[bytes / 4..]
    ensures Consistent(d, srcs, bytes / 4) ==> d' == d
  {
    var words := bytes / 4;
    status := CPX_STATUS_SUCCESS;
    d' := d;
    var off := 0;
    while off < words
      invariant 0 <= off <= words
      invariant |d'| == |d|
      invariant forall k :: 0 <= k < off ==> d'[k] == XorAt(srcs, k)
      invariant forall k :: off <= k < |d| ==> d'[k] == d[k]
      invariant status == CPX_STATUS_SUCCESS || status == CPX_STATUS_INCONSISTENT
      invariant status == CPX_STATUS_SUCCESS <==> forall k :: 0 <= k < off ==> d[k] == XorAt(srcs, k)
      invariant status == CPX_STATUS_SUCCESS ==> d' == d
    {
      var single := |srcs| == 1;
      if single {
        XorOfOne(srcs, off);
      }
      var bad, w := CheckWord(d'[off], XorAt(srcs, off), single, if single then srcs[0][off] else 0);
      if bad {
        status := CPX_STATUS_INCONSISTENT;
        d' := d'[off := w];
      }
      off := off + 1;
    }
  }

  /** Generating parity and then checking it finds nothing to repair. */
  method GenThenCheck(d: seq<bv32>, srcs: seq<seq<bv32>>, bytes: nat) returns (status: bv8, d': seq<bv32>)
    requires bytes / 4 <= |d| && SourcesCover(srcs, bytes / 4)
    ensures status == CPX_STATUS_SUCCESS
    ensures |d'| == |d|
    ensures Consistent(d', srcs, bytes / 4)
  {
    var g := XorGen(d, srcs, bytes);
    status, d' := XorCheck(g, srcs, bytes);
  }
}
